=== FILE: README.md ===
# pcf-components core, modelled in Dafny

This project models the decision and transformation logic of the
pcf-components repository. That repository holds Nx build plugins that
package a Power Apps Component Framework (PCF) control and deploy it to
Dynamics, plus the "Hierarchy" tree control. The model covers these parts:

- **Package executor.** It gates packaging on the build's results. It
  converts the manifest and package versions into a four-part solution
  version. It fills the six template placeholders, lays out the zip
  entries and builds the output path under the workspace root.
- **Publish executor.** It builds the target and lists the existing web
  resources page by page. It selects the html/js/css build files, names
  them and matches them against the listing. Each file is then created or
  updated, in chunks of 100 with a 60-second wait between chunks. Finally
  it checks that every file has an id and publishes the ids.
- **Publish helpers.** Array chunking, and the depth-first walk of a
  folder tree.
- **Web-resource helpers.** The extension-to-type table, response
  checking, the PublishXml parameter string and the paged listing that
  follows `@odata.nextLink` (OData JSON Format version 4.0, section 4.5.5).
- **Development proxy.** The routing predicate, the request rewrite and
  the port defaults.
- **Hierarchy control.** The tree-level-definition factory, the
  expand-loaded-items pass, and the node rules: chevron, click, "+ N"
  badge and contrast colour.

Everything is a pure function over immutable datatypes. The exceptions
are the array chunking (`SplitArrayToChunks`), the deploy chunk loop, the
paged listing and the publish run, which are methods. Those methods return what they compute and the log of what
they would send.

I/O is replaced by parameters:

- the build's yielded results are a `seq<BuildResult>`;
- the listing's HTTP replies are a finite `seq<Page>`;
- the build output folder is an in-memory `Entry` tree;
- the Dynamics server is a pure function from request to reply;
- the view and metadata loaders are pure functions;
- `RELEASE_COUNTER` is an `Option<string>`;
- the executor context's workspace root is a string.

JavaScript semantics are written out in `JsStrings`:

- `substring` clamps and swaps its arguments;
- `indexOf` returns -1 when nothing is found;
- `replaceAll` scans left to right without overlap, and `replace` with a
  string replaces the first occurrence only;
- `parseInt` skips leading whitespace, takes one sign and reads the
  longest run of digits; `NaN` becomes `None`;
- truthiness treats the empty string as false, and `??` keeps `0` and `""`.

Some consequences of the code that a reader might not expect:

- The code does not guarantee that every file ends up with an id. A file
  without a remote match gets whatever id the create reply carries, and
  that reply may carry none; `assertAllIdsAreFilled` then fails.
  `IdsFilledAfterDeploy` and `MissingReplyIdReported` state both sides.
- Two relative paths that differ only in `\` versus `/` get the same
  web-resource name, and so the same id (`BackslashNamesLikeSlash`).
- The deploy filter is case-insensitive but the type table is not. So an
  upper-case `APP.JS` is selected, yet cannot be created when it has no
  remote id (`UpperCaseScriptSelectedButUntyped`).

## Model

| member | source | states |
|---|---|---|
| BuildGate.RunBuild | plugins/pcf/src/executors/package/executor.ts:134-147 | the result succeeds exactly when every yielded build result succeeds; otherwise it is the first failing result, and every earlier result succeeded |
| SolutionVersion.MatchLong | plugins/pcf/src/executors/package/executor.ts:172 | a match of the long pattern splits the version into a digit triple, a word tag and a digit build number that re-join to the input |
| SolutionVersion.MatchShort | plugins/pcf/src/executors/package/executor.ts:171 | a match of the short pattern yields the digit triple, and the input is that triple, optionally followed by `-` and a word tag |
| SolutionVersion.LongFormKeepsBuildNumber | plugins/pcf/src/executors/package/executor.ts:172-175 | `X.Y.Z-tag.N` becomes `X.Y.Z.N` whatever the release counter is |
| SolutionVersion.ShortFormAppendsCounter | plugins/pcf/src/executors/package/executor.ts:171-176 | a plain `X.Y.Z` becomes `X.Y.Z.<counter>`, where the counter is `RELEASE_COUNTER` verbatim, or "0" when unset, for a counter without `$` |
| SolutionVersion.TaggedShortFormDropsTag | plugins/pcf/src/executors/package/executor.ts:171-176 | `X.Y.Z-tag` becomes `X.Y.Z.<counter>`: the tag is dropped, for a counter without `$` |
| SolutionVersion.NonNumericVersionUnchanged | plugins/pcf/src/executors/package/executor.ts:174-177 | a version that does not start with a digit matches neither pattern and is returned unchanged |
| SolutionVersion.NeitherPatternUnchanged | plugins/pcf/src/executors/package/executor.ts:174-176 | any version that matches neither the long nor the short pattern, such as `1.2` or `1.2.3.4`, is returned unchanged |
| SolutionVersion.ExampleFourParts | plugins/pcf/src/executors/package/executor.ts:170-178 | `1.2.3.4` starts with a digit yet is kept as it is |
| SolutionVersion.ToSolutionVersion | plugins/pcf/src/executors/package/executor.ts:170-178 | a version that is changed at all starts with a digit triple that also starts the input, followed by `.` |
| SolutionVersion.MatchesStartWithDigit | plugins/pcf/src/executors/package/executor.ts:171-172 | both patterns only match versions whose first character is a digit |
| SolutionVersion.TripleHasNoDash | plugins/pcf/src/executors/package/executor.ts:171-172 | a digit triple contains no `-`, so the tag separator is the first `-` of the version |
| SolutionVersion.WordRunChars | plugins/pcf/src/executors/package/executor.ts:171-172 | a `\w+` tag contains neither `.` nor `-` |
| SolutionVersion.ExamplePlain | plugins/pcf/src/executors/package/executor.spec.ts:294-312 | `1.2.3` becomes `1.2.3.0` without a counter and `1.2.3.<counter>` with one |
| PackageExecutor.ManagedFlag | plugins/pcf/src/executors/package/executor.ts:40 | the flag is "1" exactly when the package is managed, and "0" exactly when it is not |
| PackageExecutor.PackageLogKind | plugins/pcf/src/executors/package/executor.ts:64 | the log line starts with "Managed" exactly when managed, and with "Unmanaged" exactly when not, in agreement with the managed flag |
| PackageExecutor.PackageLog | plugins/pcf/src/executors/package/executor.ts:64 | the log line ends with the output path |
| PackageExecutor.TemplateRendering | plugins/pcf/src/executors/package/executor.ts:106-114 | the six `replaceAll` passes turn a template of text and placeholders into the text with each placeholder replaced by its value, provided the text and the values contain no `%` |
| PackageExecutor.TemplateWithoutPlaceholdersUnchanged | plugins/pcf/src/executors/package/executor.ts:106-114 | text without any of the six placeholders is unchanged |
| PackageExecutor.RenderPass | plugins/pcf/src/executors/package/executor.ts:107-113 | one `replaceAll` pass fills exactly the slots of its own placeholder; what remains is still a well-formed template whose rendering is unchanged |
| PackageExecutor.ReplacePass | plugins/pcf/src/executors/package/executor.ts:107-113 | replacing one placeholder in a well-formed template replaces every slot of that placeholder, and no other text |
| PackageExecutor.PlaceholderShape | plugins/pcf/src/executors/package/executor.ts:108-113 | each placeholder starts with `<` and ends with `>`, with neither character inside, so one cannot begin inside another |
| PackageExecutor.PlaceholderLengths | plugins/pcf/src/executors/package/executor.ts:108-113 | the six placeholders have six different lengths |
| PackageExecutor.FillWellFormed | plugins/pcf/src/executors/package/executor.ts:107-113 | filling a slot with a value without `%` keeps the template well formed |
| PackageExecutor.FillRender | plugins/pcf/src/executors/package/executor.ts:107-113 | filling a slot with its own value does not change the final rendering |
| PackageExecutor.FillRemovesSlot | plugins/pcf/src/executors/package/executor.ts:107-113 | after filling a placeholder, no slot for it remains |
| PackageExecutor.NoSlotsFlattenIsRender | plugins/pcf/src/executors/package/executor.ts:106-114 | a template without slots is its own rendering |
| PackageExecutor.ParseManifest | plugins/pcf/src/executors/package/executor.ts:116-132 | succeeds exactly when `version`, `namespace` and `constructor` are all non-empty, and otherwise fails with the missing-attributes error; on success it returns the namespace, the constructor and the converted version |
| PackageExecutor.GetVersion | plugins/pcf/src/executors/package/executor.ts:149-168 | checks the project name, the project's entry in the workspace, its root and the package version, in that order, each with its own error; on success it returns the converted package version |
| PackageExecutor.ZipEntries | plugins/pcf/src/executors/package/executor.ts:29-54 | the entries are the three rendered templates, in order, and then every build file under `Controls/<namespace>.<componentName>/`, in order |
| PackageExecutor.BuildEntries | plugins/pcf/src/executors/package/executor.ts:49-54 | one entry per build file, at the folder path joined with the file's relative path |
| PackageExecutor.ZipEntriesLayout | plugins/pcf/src/executors/package/executor.ts:29-54 | each build file can be read back from its entry path; the three fixed entries are not in the control folder; distinct build files get distinct entries |
| PackageExecutor.OutputPathReplacesFirst | plugins/pcf/src/executors/package/executor.ts:58 | only the first `{version}` of the output path is replaced; text after it, including later `{version}`s, is kept |
| PackageExecutor.OutputPathWithoutPlaceholder | plugins/pcf/src/executors/package/executor.ts:58 | an output path without `{version}` is used as is |
| PackageExecutor.PackagePath | plugins/pcf/src/executors/package/executor.ts:58 | the archive lies under the workspace root: the root, `/`, then the configured path with its first `{version}` filled in |
| PackageExecutor.PackageLogExample | plugins/pcf/src/executors/package/executor.spec.ts:441-446 | an unmanaged package configured at `out/my-control.zip` in a workspace rooted at `/root` is reported as created at `/root/out/my-control.zip` |
| PackageExecutor.PrepareZip | plugins/pcf/src/executors/package/executor.ts:25-76 | succeeds exactly when the build output path is set, the manifest is complete and the version can be read; errors come in that order, each failure carrying its own message (the version error is `GetVersion`'s); the package holds the zip entries, the workspace root joined with the output path, and the log line naming that path |
| PackageExecutor.RunPackageExecutor | plugins/pcf/src/executors/package/executor.ts:13-23 | returns the build result; a package is prepared exactly when the build succeeded; it fails only when packaging after a successful build fails, and then with `PrepareZip`'s error |
| PackageExecutor.PackagingGate | plugins/pcf/src/executors/package/executor.ts:16-22 | a package is produced exactly when every yielded build result succeeds and preparation succeeds; a failing build returns its first failing result and produces nothing |
| PublishUtils.SplitArrayToChunks | plugins/dynamics/src/executors/publish/utils.ts:28-34 | the chunks concatenate to the array; every chunk but the last has exactly the chunk size; the last is non-empty and no longer; there are ceil(length / size) chunks and none for an empty array; chunk k starts at k * size |
| PublishUtils.SplitDone | plugins/dynamics/src/executors/publish/utils.ts:30-31 | when the loop index passes the end, the chunks cover the array exactly, in ceil(length / size) chunks of the promised sizes |
| PublishUtils.ChunkLengths | plugins/dynamics/src/executors/publish/utils.ts:30-31 | slices taken at multiples of the size are full except the last, which is non-empty |
| PublishUtils.CeilingCount | plugins/dynamics/src/executors/publish/utils.ts:30 | a count n with (n-1)*size < length <= n*size is ceil(length / size) |
| PublishUtils.WalkAppend | plugins/dynamics/src/executors/publish/utils.ts:12-21 | walking two listings in sequence gives the first's files followed by the second's |
| PublishUtils.WalkCount | plugins/dynamics/src/executors/publish/utils.ts:8-22 | the walk lists one path per file of the tree and none for a directory |
| PublishUtils.WalkComplete | plugins/dynamics/src/executors/publish/utils.ts:8-22 | every file of the tree is listed, under its prefix-joined path |
| PublishUtils.WalkSound | plugins/dynamics/src/executors/publish/utils.ts:8-22 | every listed path is the joined path of some file of the tree |
| PublishUtils.WalkMember | plugins/dynamics/src/executors/publish/utils.ts:12-21 | what one entry contributes is in the result of the whole listing |
| PublishUtils.ExampleFolder | plugins/dynamics/src/executors/publish/utils.spec.ts:5-10 | a folder with two files and a subfolder with one file lists `file.svg`, `file.xxx`, `subfolder/file.svg` |
| WebResources.WebResourceTypeTable | plugins/dynamics/src/executors/publish/webresources.ts:4-17 | exactly the twelve table keys have a type; types range over 1..12 and differ between keys |
| WebResources.Extname | plugins/dynamics/src/executors/publish/webresources.ts:60 | the extension is empty or a dot followed by text without a dot or a slash |
| WebResources.TypeOfFileName | plugins/dynamics/src/executors/publish/webresources.ts:60 | a file `dir/stem.ext` has the table type of `ext` |
| WebResources.TypeOfExtensionless | plugins/dynamics/src/executors/publish/webresources.ts:60-64 | a file name without a dot has no type |
| WebResources.CheckResponse | plugins/dynamics/src/executors/publish/webresources.ts:132-140 | passes exactly for an ok status; a 401 always fails with "Unauthorized"; any other failure carries the failure message of the action and the response |
| WebResources.CheckResponseReportsStatus | plugins/dynamics/src/executors/publish/webresources.ts:137-139 | for any action, a failure other than 401 says "Failed to <what>: ", then a status code that reads back as the response status, and ends with a blank and the status text |
| WebResources.FailedMessageStatus | plugins/dynamics/src/executors/publish/webresources.ts:138 | the status code can be read back from the failure message, which ends with the status text |
| WebResources.ServerErrorExample | plugins/dynamics/src/executors/publish/webresources.spec.ts:20-25 | a listing refused with 500 Internal Server Error fails with "Failed to get list of web resources: 500 Internal Server Error" |
| WebResources.ServerErrorMessages | plugins/dynamics/src/executors/publish/webresources.spec.ts:46-126 | a 500 Internal Server Error reply to an update, a publish or a creation of a supported file fails with "Failed to update web resource: 500 Internal Server Error", "Failed to publish web resources: 500 Internal Server Error" and "Failed to create web resource: 500 Internal Server Error" |
| WebResources.CreateParameterXml | plugins/dynamics/src/executors/publish/webresources.ts:121-124 | the string is wrapped in the `importexportxml` and `webresources` elements |
| WebResources.ParameterXmlRoundTrip | plugins/dynamics/src/executors/publish/webresources.ts:121-124 | reading the ids back from the parameter string gives the same ids in the same order, for ids without `}` |
| WebResources.ParseTagsOfTags | plugins/dynamics/src/executors/publish/webresources.ts:122-123 | the joined `<webresource>{id}</webresource>` elements read back as the id list |
| WebResources.ParseTagsCons | plugins/dynamics/src/executors/publish/webresources.ts:122 | one element followed by more text reads as its id in front of what that text reads as |
| WebResources.ListedPages | plugins/dynamics/src/executors/publish/webresources.ts:29-49 | when the first n pages are ok, carry a body, and only the n-th lacks a next link, the listing is the in-order concatenation of those pages' values |
| WebResources.ListedOnlyAlongChain | plugins/dynamics/src/executors/publish/webresources.ts:29-49 | a successful listing always ends at a page without a next link, all earlier pages being ok |
| WebResources.ListingErrors | plugins/dynamics/src/executors/publish/webresources.ts:35-42 | a failed listing fails with "Unauthorized", on a null body, or with the message "Failed to get list of web resources: <status> <statusText>" of some page whose response is not ok and not a 401 |
| WebResources.ListWebResources | plugins/dynamics/src/executors/publish/webresources.ts:24-50 | the first request carries the `startswith(name,'<path>/')` filter; each later request goes to the previous page's next link; the result is the listing of the pages |
| WebResources.CreateRequestFor | plugins/dynamics/src/executors/publish/webresources.ts:59-70 | a supported extension gives a request named `<webResourcePath>/<relativeFilePath>` with the table's type; any other fails with "Unsupported file type: <path>" before anything is sent |
| WebResources.CreateWebResource | plugins/dynamics/src/executors/publish/webresources.ts:52-83 | fails for an unsupported type; for a supported type, a 401 gives "Unauthorized" and any other failed response gives "Failed to create web resource: <status> <statusText>"; otherwise returns the reply's id, which may be absent |
| WebResources.CreateSvgExample | plugins/dynamics/src/executors/publish/webresources.spec.ts:72-91 | `subfolder/file.svg` is created as type 11 under the web resource path |
| WebResources.UnsupportedExample | plugins/dynamics/src/executors/publish/webresources.spec.ts:66-70 | `file.xxx` is refused as an unsupported file type |
| WebResources.UpdateWebResource | plugins/dynamics/src/executors/publish/webresources.ts:85-105 | the update passes exactly for an ok response; a 401 gives "Unauthorized" and any other failure "Failed to update web resource: <status> <statusText>" |
| WebResources.PublishWebResources | plugins/dynamics/src/executors/publish/webresources.ts:107-119 | publishing passes exactly for an ok response; a 401 gives "Unauthorized" and any other failure "Failed to publish web resources: <status> <statusText>" |
| PublishExecutor.SelectDeployable | plugins/dynamics/src/executors/publish/executor.ts:67 | exactly the files ending in `.html`, `.js` or `.css`, in any letter case, are kept, and no more of them than there are files |
| PublishExecutor.SelectDeployableSingle | plugins/dynamics/src/executors/publish/executor.ts:67 | a single file is kept exactly when it is deployable |
| PublishExecutor.SelectDeployableAppend | plugins/dynamics/src/executors/publish/executor.ts:67 | selecting from two concatenated listings concatenates the two selections, so order and repetitions are kept as `filter` keeps them |
| PublishExecutor.WebResourceNameShape | plugins/dynamics/src/executors/publish/executor.ts:71 | the name is the web resource path, `/`, then the relative path with each backslash turned into `/` and every other character kept |
| PublishExecutor.BackslashNamesLikeSlash | plugins/dynamics/src/executors/publish/executor.ts:71 | a backslash and a slash in the same place give the same name |
| PublishExecutor.PlainPathName | plugins/dynamics/src/executors/publish/executor.ts:71 | a path without backslashes is appended verbatim |
| PublishExecutor.ListFilesToDeploy | plugins/dynamics/src/executors/publish/executor.ts:65-73 | record i is the i-th selected file, named after it with no id yet; there is one record per selected file |
| PublishExecutor.ListFilesToDeployComplete | plugins/dynamics/src/executors/publish/executor.ts:65-73 | every deployable build file gets a record |
| PublishExecutor.UpperCaseScriptSelectedButUntyped | plugins/dynamics/src/executors/publish/executor.ts:67 | `app.JS` is selected for deployment but has no web-resource type |
| PublishExecutor.IdsByNameKeys | plugins/dynamics/src/executors/publish/executor.ts:76-80 | the map has an entry for exactly the names that occur in the listing |
| PublishExecutor.IdsByNameLastWins | plugins/dynamics/src/executors/publish/executor.ts:78-80 | on duplicate names the last listed resource's id is kept |
| PublishExecutor.FillExistingIds | plugins/dynamics/src/executors/publish/executor.ts:75-89 | one record per file, with its path and name untouched (the ids it receives are stated by FillExistingIdsMatches) |
| PublishExecutor.FillExistingIdsMatches | plugins/dynamics/src/executors/publish/executor.ts:75-89 | a file named like the last resource of that name gets its id; a file no resource is named like is left as it was |
| PublishExecutor.FilterKeepsMatchingIds | plugins/dynamics/src/executors/publish/webresources.ts:26 | the listing filter keeps the id mapping of every name under the web resource path |
| PublishExecutor.FilterLosesNoMatch | plugins/dynamics/src/executors/publish/executor.ts:29-32 | for files named under the web resource path, matching against the filtered listing gives the same ids as the whole listing |
| PublishExecutor.DeployResource | plugins/dynamics/src/executors/publish/executor.ts:120-128 | a file with an id keeps it and succeeds exactly when its update reply is ok; a file without one succeeds exactly when its type is supported and the create reply is ok, and then gets the reply's id; path and name never change |
| PublishExecutor.ScheduleWaits | plugins/dynamics/src/executors/publish/executor.ts:112-117 | for actions without waits, n items are preceded by (n-1)/100 waits, one per chunk after the first |
| PublishExecutor.DeployWaits | plugins/dynamics/src/executors/publish/executor.ts:110-117 | deploying n files waits once before every chunk of 100 but the first |
| PublishExecutor.NoWaitInsideChunk | plugins/dynamics/src/executors/publish/executor.ts:112-117 | no wait precedes an item that is not the first of its chunk |
| PublishExecutor.RunChunk | plugins/dynamics/src/executors/publish/executor.ts:113-117 | one chunk logs every item's actions and takes the items' steps in order up to the first failure; when no step fails the results extend those before; otherwise it names the first failing item of the chunk |
| PublishExecutor.LogChunk | plugins/dynamics/src/executors/publish/executor.ts:114-117 | the log grows by the chunk's wait and the actions of its items, in order |
| PublishExecutor.StepChunk | plugins/dynamics/src/executors/publish/executor.ts:117 | the chunk's steps are taken in item order up to the first failure, which is reported; without a failure every item's result is returned (the log of every item's requests is kept by `LogChunk`) |
| PublishExecutor.RunInChunks | plugins/dynamics/src/executors/publish/executor.ts:110-118 | succeeds exactly when every step succeeds, with one result per item in order; a failure is the first in item order, and no chunk after its chunk is run |
| PublishExecutor.Deploy | plugins/dynamics/src/executors/publish/executor.ts:99-129 | succeeds exactly when every file's deployment succeeds, giving the deployed files and the full request log; a failure is the first failing file's error, and requests stop at the end of its chunk |
| PublishExecutor.Deployed | plugins/dynamics/src/executors/publish/executor.ts:117-128 | one deployed record per file, in file order |
| PublishExecutor.AssertAllIdsAreFilled | plugins/dynamics/src/executors/publish/executor.ts:91-97 | passes exactly when every file has an id; otherwise it names the first file without one |
| PublishExecutor.IdsFilledAfterDeploy | plugins/dynamics/src/executors/publish/executor.ts:91-126 | after a successful deployment, and when every create reply carries an id, every file has an id, so the check passes |
| PublishExecutor.MissingReplyIdReported | plugins/dynamics/src/executors/publish/executor.ts:91-97 | a create reply without an id makes the check fail |
| PublishExecutor.PublishIds | plugins/dynamics/src/executors/publish/executor.ts:134 | exactly the files' ids, one per file, in file order |
| PublishExecutor.BuildTargetOptions | plugins/dynamics/src/executors/publish/executor.ts:54 | the caller's options with `watch` forced to false; every other option is kept |
| PublishExecutor.RunPublish | plugins/dynamics/src/executors/publish/executor.ts:16-41 | the build always starts first, with watch off; a failed build is returned with nothing else done; the run succeeds exactly when listing, every deploy step, the id check and publishing succeed, and it then publishes the deployed ids in file order; a failed listing throws the listing's error, and a later failure throws the first failing deploy step's error, else the id check's, else the publish reply's |
| PublishExecutor.DeployAndPublish | plugins/dynamics/src/executors/publish/executor.ts:33-40 | after the listing, the run succeeds exactly when every file deploys, every deployed file has an id and the publish reply is ok; it then last requests publication of the deployed ids in file order; otherwise it throws the first failing deploy step's error, else the id check's "Web resource id for <name> is not filled.", else the publish reply's error |
| DevProxy.ProxyPort | plugins/dynamics/src/executors/proxy/executor.ts:26 | the configured proxy port, else 3333 |
| DevProxy.ServerPort | plugins/dynamics/src/executors/proxy/executor.ts:27 | the configured server port, else 4200 |
| DevProxy.RedirectToLocalhost | plugins/dynamics/src/executors/proxy/executor.ts:45-64 | fails exactly on null request options; otherwise plain HTTP to `localhost` at the server port, with the path after the web resource folder, headers `host` and `cache-control` overwritten and all others kept |
| DevProxy.OnRequest | plugins/dynamics/src/executors/proxy/executor.ts:18-24 | a request is redirected exactly when its host ends with `.dynamics.com` and its path contains the web resource path; any other request passes through unchanged |
| DevProxy.LocalPathAfterFolder | plugins/dynamics/src/executors/proxy/executor.ts:52-55 | for `prefix + folder + rest`, with the folder first occurring after the prefix, the local path is `rest` |
| DevProxy.LocalPath | plugins/dynamics/src/executors/proxy/executor.ts:52-55 | the local path is always a suffix of the request path |
| DevProxy.RedirectIsFinal | plugins/dynamics/src/executors/proxy/executor.ts:40-43 | a redirected request is not redirected again |
| DevProxy.Listen | plugins/dynamics/src/executors/proxy/executor.ts:29-38 | a listen error stops with `success: false`; otherwise the proxy keeps listening and logs the address |
| DevProxy.ListeningMessagePort | plugins/dynamics/src/executors/proxy/executor.ts:35 | the log line names `127.0.0.1` and the proxy port, which reads back from it |
| TreeLevelDefinition.CreateCellTemplate | apps/pcf/hierarchy/src/app/treeLevelDefinitionFactory.ts:129-139 | the cell shows its column, at left 0, with its definition's width and height 40; it is named after the column's display name when the metadata has one |
| TreeLevelDefinition.FindColumn | apps/pcf/hierarchy/src/app/treeLevelDefinitionFactory.ts:74 | the index of the first cell with that column, or none when no cell has it |
| TreeLevelDefinition.CreateRowTemplate | apps/pcf/hierarchy/src/app/treeLevelDefinitionFactory.ts:64-85 | fails exactly for a view without cells; one hierarchy cell per view cell in order; the primary cell is the first whose column is the primary field, else the first cell; the row has that cell's width, height 40 and the entity's display name |
| TreeLevelDefinition.CreateFetch | apps/pcf/hierarchy/src/app/treeLevelDefinitionFactory.ts:58-62 | the fetch of the view, with the metadata of its entity and no tag |
| TreeLevelDefinition.CreateRecursiveReference | apps/pcf/hierarchy/src/app/treeLevelDefinitionFactory.ts:87-91 | a reference exactly when `recursive` is a non-empty string, carrying that name |
| TreeLevelDefinition.ConstructLevel | apps/pcf/hierarchy/src/app/treeLevelDefinitionFactory.ts:35-56 | succeeds exactly when every view of the subtree has a cell; the level has the view's row template and fetch, allows create and open, no fetch in it is tagged, and it mirrors the configuration tree: every nested level carries its property and is built from its own configured view's row template and fetch |
| TreeLevelDefinition.ConstructParentLevels | apps/pcf/hierarchy/src/app/treeLevelDefinitionFactory.ts:93-103 | one parent reference per configured parent, in order, each with its property and built from that parent's own view (its row template, its untagged fetch, creation and opening allowed), recursively |
| TreeLevelDefinition.ConstructParentLevel | apps/pcf/hierarchy/src/app/treeLevelDefinitionFactory.ts:105-113 | the reference carries the parent's property, and its level has the row template and untagged fetch of the parent's view and allows creation and opening, with the levels below mirrored the same way |
| TreeLevelDefinition.ConstructChildLevel | apps/pcf/hierarchy/src/app/treeLevelDefinitionFactory.ts:115-127 | a child reference exactly when a child is configured with a non-empty property; a configured child is built even without one; the child level has the row template and untagged fetch of the child's view and allows creation and opening |
| TreeLevelDefinition.ConstructTreeLevelDefinition | apps/pcf/hierarchy/src/app/treeLevelDefinitionFactory.ts:21-33 | the main level has the main view's row template and its fetch tagged "this is main fetch", allows create and open; the nested levels are untagged and built from their own views |
| HierarchyItems.ExpandItem | apps/pcf/hierarchy/src/app/app.tsx:127-134 | sets expanded exactly on items with loaded, non-empty children; never collapses; an item without them is untouched and not descended into |
| HierarchyItems.ExpandItems | apps/pcf/hierarchy/src/app/app.tsx:127-134 | the pass is applied to every item of the list, in order |
| HierarchyItems.OnItemsLoaded | apps/pcf/hierarchy/src/app/app.tsx:63-65 | the pass runs only when `expandLoadedNodes` is set |
| HierarchyItems.ExpandKeepsShape | apps/pcf/hierarchy/src/app/app.tsx:127-134 | only expanded flags change: visibility, loading and children keep their places |
| HierarchyItems.ExpandChildrenKeepShape | apps/pcf/hierarchy/src/app/app.tsx:127-134 | the same for a list of items |
| HierarchyItems.ExpandCollapsesNothing | apps/pcf/hierarchy/src/app/app.tsx:130 | no item in the tree goes from expanded to collapsed |
| HierarchyItems.ExpandReachesAll | apps/pcf/hierarchy/src/app/app.tsx:128-132 | after the pass, every item reachable through loaded, non-empty children is expanded |
| HierarchyItems.ExpandFixesFullyExpanded | apps/pcf/hierarchy/src/app/app.tsx:127-134 | a fully expanded tree is left as it is |
| HierarchyItems.ExpandIdempotent | apps/pcf/hierarchy/src/app/app.tsx:127-134 | a second pass changes nothing |
| HierarchyItems.HasAtLeastOneVisible | apps/pcf/hierarchy/src/app/node.tsx:119-121 | true exactly when some item is visible |
| HierarchyItems.IsChevronVisible | apps/pcf/hierarchy/src/app/node.tsx:20-21 | the chevron shows exactly when the children are not loaded or one of them is visible |
| HierarchyItems.Click | apps/pcf/hierarchy/src/app/node.tsx:37-41 | a click toggles expanded only for loaded, non-empty children, and changes nothing else |
| HierarchyItems.ClickTwice | apps/pcf/hierarchy/src/app/node.tsx:37-41 | two clicks restore the item |
| HierarchyItems.Badge | apps/pcf/hierarchy/src/app/node.tsx:89 | the "+ N" badge shows exactly when children are loaded, there are some and the item is collapsed; N is the child count |
| HierarchyItems.BadgeToggles | apps/pcf/hierarchy/src/app/node.tsx:37-41 | a click on an item with loaded children shows or hides the badge, and the badge's number reads back as the child count |
| HierarchyItems.FullyExpandedShowsNoBadge | apps/pcf/hierarchy/src/app/node.tsx:89 | no item of a fully expanded tree shows a badge |
| HierarchyItems.ContrastOfRgb | apps/pcf/hierarchy/src/app/node.tsx:123-129 | for `rgb(r, g, b)`, with any blanks after the commas, the text colour is "black" exactly when 299r + 587g + 114b is at least 128000, and "white" otherwise |
| HierarchyItems.ComponentsOfRgb | apps/pcf/hierarchy/src/app/node.tsx:124-126 | the three components of `rgb(r, g, b)` read back as r, g and b |
| HierarchyItems.ComponentsRead | apps/pcf/hierarchy/src/app/node.tsx:124-126 | components are parsed from the text before the first comma after index 4, between the first and last commas, and after the last comma minus the final character |
| HierarchyItems.FirstComponent | apps/pcf/hierarchy/src/app/node.tsx:124 | the red text runs from index 4 to the first comma |
| HierarchyItems.MiddleComponent | apps/pcf/hierarchy/src/app/node.tsx:125 | the green text lies between the first and the last comma |
| HierarchyItems.LastComponent | apps/pcf/hierarchy/src/app/node.tsx:126 | the blue text runs from after the last comma up to the final character |
| HierarchyItems.HexColorGetsWhite | apps/pcf/hierarchy/src/app/node.tsx:123-129 | a `#rrggbb` colour has no comma, so its red component is NaN and the colour is white |
| HierarchyItems.UnreadableComponentGetsWhite | apps/pcf/hierarchy/src/app/node.tsx:123-129 | for any colour, a component that does not parse as an integer gives white text |
| HierarchyItems.GetContrastColor | apps/pcf/hierarchy/src/app/node.tsx:123-129 | the text colour is always "black" or "white" |
| JsStrings.ReplaceAllAbsent | plugins/pcf/src/executors/package/executor.ts:107-113 | `replaceAll` leaves text without the pattern unchanged |
| JsStrings.ReplaceAllSkipsPrefix | plugins/pcf/src/executors/package/executor.ts:107-113 | text with no occurrence starting in it is copied, and replacement continues after it |
| JsStrings.ReplaceAllChar | plugins/dynamics/src/executors/publish/executor.ts:71 | with one-character patterns, `replaceAll` substitutes character by character and keeps the length |
| JsStrings.ReplaceFirstSplit | plugins/pcf/src/executors/package/executor.ts:58 | `replace` changes only the first occurrence and keeps the text on both sides |
| JsStrings.NatToStringRoundTrip | plugins/dynamics/src/executors/publish/webresources.ts:138 | the decimal rendering of a number reads back as the number |
| JsStrings.ParseIntOfRendering | apps/pcf/hierarchy/src/app/node.tsx:124-126 | `parseInt` reads a rendered number back, after leading blanks and before a non-digit |
| JsStrings.SubstringSwaps | apps/pcf/hierarchy/src/app/node.tsx:124-126 | `substring` gives the same text whichever of its two positions comes first |
| JsStrings.SubstringToEnd | plugins/dynamics/src/executors/proxy/executor.ts:55 | `substring` from any position to the end keeps a suffix of the string |

## Left out

- File, HTTP and zip I/O are parameters. Reading templates and build files, writing the archive, JSZip's own folder entries and the base64 content of requests are not modelled.
- The credentials server (`requestCredentials`) is socket I/O; the model starts from the web resource collection address it yields.
- The proxy library is third-party: `gunzip`, `wildcard`, `onError`, the `sslCaDir` certificates and the MITM handshake are not modelled, only the routing rule, the rewrite and the listen outcome.
- Timers are not run: the 60-second `waitSeconds` appears as a `Wait` action in the deploy log.
- Deploy: the parallelism of `Promise.all` inside a chunk is not modelled. The steps of a chunk are taken in item order, and the error reported is the first failing item's, where the real run reports the first rejection in time.
- The progress log lines of `deploy` and the other informational log lines are not modelled; only the package log line and the proxy's listening line are.
- `NODE_ENV` defaulting has no effect on the modelled logic and is not modelled.
- `getBuildTarget` and `getBuildOptions` delegate to Nx; the build output path and the build results are parameters.
- Path handling is reduced to plain strings. `join` and `posix.join` become `/` concatenation without normalisation, so `..`, `.` and repeated separators are kept as written; `path.extname` becomes the last dot of the base name, ignored at index 0.
- WebResources.Extname: trailing slashes are not stripped before the base name is taken, as Node's `path.extname` does.
- `$` patterns in JavaScript replacement strings are not interpreted; the model assumes the values inserted by `replaceAll` and `replace` hold no `$`.
- SolutionVersion.ShortFormAppendsCounter: a `RELEASE_COUNTER` holding `$` would be expanded as a replacement pattern by `String.replace`; the model appends it as written.
- SolutionVersion.TaggedShortFormDropsTag: as for ShortFormAppendsCounter, a counter holding `$` is appended as written.
- Strings are sequences of Unicode scalar values, where JavaScript indexes UTF-16 code units. Every index the code computes is used on the string it was computed from, so the difference is not observable in the modelled results.
- PackageExecutor.TemplateRendering: proved only for text and values without `%`, since a value holding part of a placeholder could form a new one in a later pass.
- WebResources.ParameterXmlRoundTrip: proved only for ids without `}`; the server's ids are GUIDs.
- A listing page whose `value` is missing, and the non-object JSON bodies, are not modelled; a `null` body fails as reading `@odata.nextLink` of null does.
- WebResources.ListWebResources: the pages are a finite sequence. A listing that still has a next link when the sequence ends is reported as `Incomplete`, where the real loop would go on fetching.
- `Object` prototype keys such as `constructor` in the extension table lookup are not modelled; only the twelve own keys are.
- JSON-schema validation of the tree configuration (`validateJson`) needs a schema file that is not part of this model; configurations are taken as valid.
- The fetch XML deserializer and `LocalizedMetaEntity` are opaque: the loaders are pure functions, and the number of loader calls is not modelled.
- The tree configuration's parents are a plain sequence: an absent `parents` and an empty one give the same result, as `?? []` makes them.
- HierarchyItems.ExpandItem: the item tree is a tree of values; shared references between items, and knockout observables, are not modelled.
- HierarchyItems.GetContrastColor: the floating-point division by 1000 is replaced by the integer comparison with 128000; the two agree while the components are integers that floating point holds exactly.
- Zooming, centring, the selected-item timeout and the other React rendering of the hierarchy control are UI and not modelled.
- Ports are natural numbers; their range is not checked, as the source does not check it.
- The component generator, the json-schema-to-types executor and the data-source hooks are outside the modelled core.

=== FILE: build_gate.dfy ===
/** Gating on the results a build executor yields. Both the package and the
    publish executor iterate over the build's results and stop at the first one
    that did not succeed; only when every yielded result succeeded do they go
    on. Values the build iterator `return`s (instead of yielding) are not seen
    by `for await`, so the model takes the yielded results only. */
module BuildGate {

  /** One result object yielded by the build; `details` stands for its other
      fields, which are passed back to the caller untouched. */
  datatype BuildResult = BuildResult(success: bool, details: map<string, string>)

  /** The `{ success: true }` returned when every result succeeded. */
  const Succeeded := BuildResult(true, map[])

  /** `runBuild`: the first unsuccessful result, or `Succeeded`. */
  function RunBuild(results: seq<BuildResult>): (r: BuildResult)
    ensures r.success <==> forall i :: 0 <= i < |results| ==> results[i].success
    ensures r.success ==> r == Succeeded
    ensures !r.success ==>
      exists i :: 0 <= i < |results| && results[i] == r
        && forall j :: 0 <= j < i ==> results[j].success
  {
    if |results| == 0 then Succeeded
    else if !results[0].success then results[0]
    else
      var rest := RunBuild(results[1..]);
      assert forall i :: 1 <= i < |results| ==> results[i] == results[1..][i - 1];
      rest
  }
}

=== FILE: dev_proxy.dfy ===
/** The development proxy: a man-in-the-middle proxy that sends requests for
    the app's web resources on a Dynamics host to the local development server,
    and lets every other request through untouched. */
module DevProxy {
  import opened Wrappers
  import opened JsStrings

  const DefaultProxyPort: nat := 3333
  const DefaultServerPort: nat := 4200
  const ListenHost := "127.0.0.1"
  const LocalHost := "localhost"
  const DynamicsSuffix := ".dynamics.com"
  const NullOptions := "Unexpected error: proxyToServerRequestOptions is null"

  /** The executor's options; the ports are optional. */
  datatype ProxyOptions = ProxyOptions(webResourcePath: string, proxyPort: Option<nat>, port: Option<nat>)

  /** The proxy port: the configured one, else 3333 (`??` keeps a configured 0). */
  function ProxyPort(options: ProxyOptions): (r: nat)
    ensures options.proxyPort.Some? ==> r == options.proxyPort.value
    ensures options.proxyPort.None? ==> r == DefaultProxyPort
  {
    options.proxyPort.GetOr(DefaultProxyPort)
  }

  /** The local server port: the configured one, else 4200. */
  function ServerPort(options: ProxyOptions): (r: nat)
    ensures options.port.Some? ==> r == options.port.value
    ensures options.port.None? ==> r == DefaultServerPort
  {
    options.port.GetOr(DefaultServerPort)
  }

  /** The agent that carries the request upstream. */
  datatype Agent = DefaultAgent | ProxyHttpAgent

  /** The options of the request the proxy is about to send upstream. */
  datatype RequestOptions = RequestOptions(
    host: string,
    path: string,
    port: Option<nat>,
    agent: Agent,
    headers: map<string, string>)

  /** The proxy's per-request context; the request options may be null. */
  datatype Context = Context(isSSL: bool, requestOptions: Option<RequestOptions>)

  /** `isRequestToOurApp`: a Dynamics host and a path that mentions the web
      resource folder. */
  predicate IsRequestToOurApp(webResourcePath: string, ctx: Context) {
    ctx.requestOptions.Some?
    && EndsWith(ctx.requestOptions.value.host, DynamicsSuffix)
    && Includes(ctx.requestOptions.value.path, webResourcePath)
  }

  /** The local path: what follows the first occurrence of the web resource
      folder in the path. */
  function LocalPath(fullPath: string, webResourcePath: string): (r: string)
    ensures EndsWith(fullPath, r)
  {
    var appPathIndex := IndexOf(fullPath, webResourcePath) + |webResourcePath|;
    SubstringToEnd(fullPath, appPathIndex);
    Substring(fullPath, appPathIndex, |fullPath|)
  }

  /** `redirectToLocalhost`: plain HTTP to the local server on the server
      port, at the local path, with the `host` and `cache-control` headers
      overwritten and every other header kept. */
  function RedirectToLocalhost(options: ProxyOptions, ctx: Context): (r: Result<Context>)
    ensures ctx.requestOptions.None? <==> r.Failure?
    ensures r.Failure? ==> r.error == NullOptions
    ensures r.Success? ==>
      var before := ctx.requestOptions.value;
      var after := r.value.requestOptions;
      !r.value.isSSL && after.Some?
      && after.value.host == LocalHost
      && after.value.port == Some(ServerPort(options))
      && after.value.agent == ProxyHttpAgent
      && after.value.path == LocalPath(before.path, options.webResourcePath)
      && after.value.headers.Keys == before.headers.Keys + {"host", "cache-control"}
      && after.value.headers["host"] == LocalHost
      && after.value.headers["cache-control"] == "no-cache"
      && forall k :: k in before.headers && k != "host" && k != "cache-control" ==>
           after.value.headers[k] == before.headers[k]
  {
    match ctx.requestOptions
    case None => Failure(NullOptions)
    case Some(ro) =>
      var headers := ro.headers["host" := LocalHost]["cache-control" := "no-cache"];
      var redirected := RequestOptions(
        LocalHost, LocalPath(ro.path, options.webResourcePath), Some(ServerPort(options)), ProxyHttpAgent, headers);
      Success(Context(false, Some(redirected)))
  }

  /** The `onRequest` handler: redirect the app's requests, pass the others
      through unchanged; the callback is then called once in both cases. */
  function OnRequest(options: ProxyOptions, ctx: Context): (r: Context)
    ensures !IsRequestToOurApp(options.webResourcePath, ctx) ==> r == ctx
    ensures IsRequestToOurApp(options.webResourcePath, ctx) ==>
      RedirectToLocalhost(options, ctx) == Success(r)
  {
    if IsRequestToOurApp(options.webResourcePath, ctx) then RedirectToLocalhost(options, ctx).value else ctx
  }

  /** The local path of `before + folder + after`, where the folder first
      occurs right after `before`, is `after`. */
  lemma LocalPathAfterFolder(before: string, webResourcePath: string, after: string)
    requires NoOccurrenceBefore(before + webResourcePath + after, webResourcePath, |before|)
    ensures LocalPath(before + webResourcePath + after, webResourcePath) == after
  {
    var s := before + webResourcePath + after;
    assert s[|before|..|before| + |webResourcePath|] == webResourcePath;
    assert OccursAt(s, webResourcePath, |before|);
    assert IndexOf(s, webResourcePath) == |before|;
    assert s[|before| + |webResourcePath|..] == after;
  }

  /** A redirected request is not redirected again: `localhost` is not a
      Dynamics host. */
  lemma RedirectIsFinal(options: ProxyOptions, ctx: Context)
    requires IsRequestToOurApp(options.webResourcePath, ctx)
    ensures OnRequest(options, OnRequest(options, ctx)) == OnRequest(options, ctx)
  {
    var r := OnRequest(options, ctx);
    assert |r.requestOptions.value.host| < |DynamicsSuffix|;
    assert !IsRequestToOurApp(options.webResourcePath, r);
  }

  /** How `listen` ends: a listening proxy never resolves its promise; a
      failure to listen resolves it with `success: false`. */
  datatype ListenOutcome = Listening(message: string) | Stopped(success: bool)

  function ListeningMessage(options: ProxyOptions): string {
    "Proxy listening on port " + ListenHost + ":" + NatToString(ProxyPort(options))
    + " and forwarding to http://" + LocalHost + ":" + NatToString(ServerPort(options))
  }

  /** The executor's end state, given whether `listen` reported an error. */
  function Listen(options: ProxyOptions, listenFailed: bool): (r: ListenOutcome)
    ensures r.Stopped? <==> listenFailed
    ensures r.Stopped? ==> !r.success
    ensures r.Listening? ==> StartsWith(r.message, "Proxy listening on port 127.0.0.1:")
  {
    if listenFailed then Stopped(false) else Listening(ListeningMessage(options))
  }

  /** The log line names the proxy port right after the listen address. */
  lemma ListeningMessagePort(options: ProxyOptions)
    ensures var m := ListeningMessage(options);
      var p := |"Proxy listening on port 127.0.0.1:"|;
      ParseInt(m[p..]) == Some(ProxyPort(options))
  {
    var head := "Proxy listening on port " + ListenHost + ":";
    var rest := " and forwarding to http://" + LocalHost + ":" + NatToString(ServerPort(options));
    var m := ListeningMessage(options);
    assert m == head + NatToString(ProxyPort(options)) + rest;
    assert |head| == |"Proxy listening on port 127.0.0.1:"|;
    assert m[|head|..] == [] + NatToString(ProxyPort(options)) + rest;
    ParseIntOfRendering([], ProxyPort(options), rest);
  }
}

=== FILE: hierarchy_items.dfy ===
/** The state rules of the hierarchy control's item tree: the expand pass run
    when the items load, and the node card's chevron, click, "+ N" badge and
    chip text colour. */
module HierarchyItems {
  import opened Wrappers
  import opened JsStrings

  // ---------------------------------------------------------------------
  // Items
  // ---------------------------------------------------------------------

  /** A tree item: its visibility, its expanded flag, whether its children
      are loaded, and the children. */
  datatype Item = Item(visible: bool, expanded: bool, loaded: bool, children: seq<Item>)

  /** Children are loaded and there is at least one: the condition of both
      the expand pass and the click toggle. */
  predicate HasLoadedChildren(item: Item) {
    item.loaded && |item.children| > 0
  }

  /** `expandItems`: every item with loaded children is expanded and the pass
      descends into its children; other items and their subtrees are left as
      they are. */
  function ExpandItems(items: seq<Item>): (r: seq<Item>)
    ensures |r| == |items|
    ensures forall i :: 0 <= i < |items| ==> r[i] == ExpandItem(items[i])
    decreases items
  {
    if |items| == 0 then [] else [ExpandItem(items[0])] + ExpandItems(items[1..])
  }

  function ExpandItem(item: Item): (r: Item)
    ensures r.visible == item.visible && r.loaded == item.loaded && |r.children| == |item.children|
    ensures r.expanded <==> item.expanded || HasLoadedChildren(item)
    ensures !HasLoadedChildren(item) ==> r == item
    decreases item
  {
    if HasLoadedChildren(item) then item.(expanded := true, children := ExpandItems(item.children)) else item
  }

  /** The expand-on-load effect: the pass runs only when the
      `expandLoadedNodes` property is on. */
  function OnItemsLoaded(expandLoadedNodes: bool, items: seq<Item>): (r: seq<Item>)
    ensures !expandLoadedNodes ==> r == items
    ensures expandLoadedNodes ==> r == ExpandItems(items)
  {
    if expandLoadedNodes then ExpandItems(items) else items
  }

  /** The item tree with every expanded flag cleared: what the expand pass
      must not change. */
  function Shape(item: Item): Item
    decreases item
  {
    Item(item.visible, false, item.loaded, Shapes(item.children))
  }

  function Shapes(items: seq<Item>): (r: seq<Item>)
    ensures |r| == |items|
    decreases items
  {
    if |items| == 0 then [] else [Shape(items[0])] + Shapes(items[1..])
  }

  /** Every item expanded in `before` is expanded in `after`, at the same
      place of the same tree shape. */
  predicate NoneCollapsed(before: Item, after: Item)
    decreases before
  {
    (before.expanded ==> after.expanded)
    && |after.children| == |before.children|
    && forall i :: 0 <= i < |before.children| ==> NoneCollapsed(before.children[i], after.children[i])
  }

  /** Every item reached through items with loaded children, and having
      loaded children itself, is expanded. */
  predicate FullyExpanded(item: Item)
    decreases item
  {
    HasLoadedChildren(item) ==>
      item.expanded && forall i :: 0 <= i < |item.children| ==> FullyExpanded(item.children[i])
  }

  /** The expand pass moves only expanded flags. */
  lemma {:induction false} ExpandKeepsShape(item: Item)
    ensures Shape(ExpandItem(item)) == Shape(item)
    decreases item
  {
    if HasLoadedChildren(item) {
      ExpandChildrenKeepShape(item.children);
    }
  }

  lemma {:induction false} ExpandChildrenKeepShape(items: seq<Item>)
    ensures Shapes(ExpandItems(items)) == Shapes(items)
    decreases items
  {
    if |items| > 0 {
      ExpandKeepsShape(items[0]);
      ExpandChildrenKeepShape(items[1..]);
      assert ExpandItems(items)[1..] == ExpandItems(items[1..]);
    }
  }

  /** The expand pass never sets an expanded flag to false. */
  lemma {:induction false} ExpandCollapsesNothing(item: Item)
    ensures NoneCollapsed(item, ExpandItem(item))
    decreases item
  {
    if HasLoadedChildren(item) {
      forall i | 0 <= i < |item.children|
        ensures NoneCollapsed(item.children[i], ExpandItem(item).children[i])
      {
        ExpandCollapsesNothing(item.children[i]);
      }
    } else {
      Unchanged(item);
    }
  }

  /** An item is never collapsed with respect to itself. */
  lemma {:induction false} Unchanged(item: Item)
    ensures NoneCollapsed(item, item)
    decreases item
  {
    forall i | 0 <= i < |item.children|
      ensures NoneCollapsed(item.children[i], item.children[i])
    {
      Unchanged(item.children[i]);
    }
  }

  /** After the pass every item it reaches is expanded. */
  lemma {:induction false} ExpandReachesAll(item: Item)
    ensures FullyExpanded(ExpandItem(item))
    decreases item
  {
    if HasLoadedChildren(item) {
      forall i | 0 <= i < |item.children|
        ensures FullyExpanded(ExpandItem(item).children[i])
      {
        ExpandReachesAll(item.children[i]);
      }
    }
  }

  /** A fully expanded tree is left as it is by the pass. */
  lemma {:induction false} ExpandFixesFullyExpanded(item: Item)
    requires FullyExpanded(item)
    ensures ExpandItem(item) == item
    decreases item
  {
    if HasLoadedChildren(item) {
      forall i | 0 <= i < |item.children|
        ensures ExpandItem(item.children[i]) == item.children[i]
      {
        ExpandFixesFullyExpanded(item.children[i]);
      }
      assert ExpandItems(item.children) == item.children;
    }
  }

  /** Running the expand pass twice is running it once. */
  lemma ExpandIdempotent(items: seq<Item>)
    ensures ExpandItems(ExpandItems(items)) == ExpandItems(items)
  {
    forall i | 0 <= i < |items|
      ensures ExpandItem(ExpandItem(items[i])) == ExpandItem(items[i])
    {
      ExpandReachesAll(items[i]);
      ExpandFixesFullyExpanded(ExpandItem(items[i]));
    }
  }

  // ---------------------------------------------------------------------
  // The node card
  // ---------------------------------------------------------------------

  /** `hasAtLeastOneVisible`: `items.some(item => item.visible$())`. */
  function HasAtLeastOneVisible(items: seq<Item>): (r: bool)
    ensures r <==> exists i :: 0 <= i < |items| && items[i].visible
  {
    if |items| == 0 then false
    else if items[0].visible then true
    else
      var rest := HasAtLeastOneVisible(items[1..]);
      assert forall i :: 1 <= i < |items| ==> items[i] == items[1..][i - 1];
      rest
  }

  /** The chevron (and the clickable cursor) shows while the children are not
      loaded, or when one of them is visible. */
  function IsChevronVisible(item: Item): (r: bool)
    ensures r <==> !item.loaded || exists i :: 0 <= i < |item.children| && item.children[i].visible
  {
    !item.loaded || HasAtLeastOneVisible(item.children)
  }

  /** A click on the card toggles the expanded flag of an item with loaded
      children and changes nothing otherwise. */
  function Click(item: Item): (r: Item)
    ensures r.visible == item.visible && r.loaded == item.loaded && r.children == item.children
    ensures HasLoadedChildren(item) ==> r.expanded == !item.expanded
    ensures !HasLoadedChildren(item) ==> r == item
  {
    if HasLoadedChildren(item) then item.(expanded := !item.expanded) else item
  }

  /** Two clicks restore the item. */
  lemma ClickTwice(item: Item)
    ensures Click(Click(item)) == item
  {
  }

  /** The "+ N" badge under a collapsed card with N loaded children. */
  function Badge(item: Item): (r: Option<string>)
    ensures r.Some? <==> item.loaded && |item.children| > 0 && !item.expanded
    ensures r.Some? ==> r.value == "+ " + NatToString(|item.children|)
  {
    if item.loaded && |item.children| > 0 && !item.expanded then Some("+ " + NatToString(|item.children|)) else None
  }

  /** A click on a card with loaded children shows or hides its badge; the
      badge's count reads back as the number of children. */
  lemma BadgeToggles(item: Item)
    requires HasLoadedChildren(item)
    ensures Badge(Click(item)).Some? <==> Badge(item).None?
    ensures Badge(item).Some? ==> ParseInt(Badge(item).value[2..]) == Some(|item.children|)
  {
    if Badge(item).Some? {
      var n := |item.children|;
      assert Badge(item).value[2..] == [] + NatToString(n) + [];
      ParseIntOfRendering([], n, []);
    }
  }

  /** No item the expand pass reaches shows a badge afterwards. */
  lemma FullyExpandedShowsNoBadge(item: Item)
    requires FullyExpanded(item)
    ensures Badge(item).None?
  {
  }

  // ---------------------------------------------------------------------
  // Chip text colour
  // ---------------------------------------------------------------------

  /** The three numbers of a colour written `rgb(r,g,b)`: between index 4
      and the first comma, between the first and the last comma, and between
      the last comma and the final character. `None` stands for `NaN`. */
  function Components(color: string): (Option<int>, Option<int>, Option<int>) {
    var first := IndexOf(color, ",");
    var last := LastIndexOfChar(color, ',');
    (ParseInt(Substring(color, 4, first)),
     ParseInt(Substring(color, first + 1, last)),
     ParseInt(Substring(color, last + 1, |color| - 1)))
  }

  /** The weighted brightness 299r + 587g + 114b, a thousand times the YIQ
      luma the code compares with 128. */
  function Brightness(r: int, g: int, b: int): int {
    r * 299 + g * 587 + b * 114
  }

  /** `getContrastColor`: black text on a bright background, white text on a
      dark one or when a component does not parse. */
  function GetContrastColor(color: string): (r: string)
    ensures r == "black" || r == "white"
  {
    var (red, green, blue) := Components(color);
    if red.Some? && green.Some? && blue.Some? && Brightness(red.value, green.value, blue.value) >= 128000
    then "black" else "white"
  }

  /** Whatever the colour, a component that does not parse as an integer
      gives white text. */
  lemma UnreadableComponentGetsWhite(color: string)
    ensures Components(color).0.None? || Components(color).1.None? || Components(color).2.None? ==>
      GetContrastColor(color) == "white"
  {
  }

  /** `rgb(r,g,b)` with the blanks `gap` after each comma. */
  function Rgb(r: nat, g: nat, b: nat, gap: string): string {
    Written("rgb(", NatToString(r), NatToString(g), NatToString(b), gap, ')')
  }

  /** Three digit strings after a four-character opening, separated by a
      comma and `gap`, followed by one closing character. */
  function Written(open: string, R: string, G: string, B: string, gap: string, close: char): string {
    open + R + [','] + gap + G + [','] + gap + B + [close]
  }

  predicate Blanks(s: string) {
    forall i :: 0 <= i < |s| ==> IsJsSpace(s[i])
  }

  /** The texts `getContrastColor` parses out of `color`. */
  predicate SplitsInto(color: string, R: string, G: string, B: string) {
    Substring(color, 4, IndexOf(color, ",")) == R
    && Substring(color, IndexOf(color, ",") + 1, LastIndexOfChar(color, ',')) == G
    && Substring(color, LastIndexOfChar(color, ',') + 1, |color| - 1) == B
  }

  /** The three components of such a colour are the three digit strings,
      the last two after the gap. */
  lemma ComponentsOfWritten(open: string, R: string, G: string, B: string, gap: string, close: char)
    requires |open| == 4 && close != ','
    requires Lacks(open, ',') && Lacks(R, ',') && Lacks(G, ',') && Lacks(B, ',') && Lacks(gap, ',')
    ensures SplitsInto(Written(open, R, G, B, gap, close), R, gap + G, gap + B)
  {
    var color := Written(open, R, G, B, gap, close);
    var head, mid, body := open + R, gap + G, gap + B;
    var rest := body + [close];
    assert color == head + [','] + mid + [','] + rest;
    assert Lacks(head, ',') && Lacks(rest, ',');
    assert head[4..] == R;
    FirstComponent(color, head, mid + [','] + rest);
    MiddleComponent(color, head, mid, rest);
    assert color == (head + [','] + mid) + [','] + body + [close];
    LastComponent(color, head + [','] + mid, body, close);
  }

  /** The text between index 4 and the first comma. */
  lemma FirstComponent(color: string, head: string, tail: string)
    requires color == head + [','] + tail && Lacks(head, ',') && |head| >= 4
    ensures Substring(color, 4, IndexOf(color, ",")) == head[4..]
  {
    assert IndexOf(color, ",") == |head| by {
      FirstComma(head, tail);
    }
    assert color[4..|head|] == head[4..];
    SubstringInRange(color, 4, |head|);
  }

  /** The text between the first and the last comma, when there are two. */
  lemma MiddleComponent(color: string, head: string, mid: string, rest: string)
    requires color == head + [','] + mid + [','] + rest
    requires Lacks(head, ',') && Lacks(rest, ',')
    ensures Substring(color, IndexOf(color, ",") + 1, LastIndexOfChar(color, ',')) == mid
  {
    var first, last := |head|, |head| + 1 + |mid|;
    assert IndexOf(color, ",") == first by {
      assert color == head + [','] + (mid + [','] + rest);
      FirstComma(head, mid + [','] + rest);
    }
    assert LastIndexOfChar(color, ',') == last by {
      assert color == (head + [','] + mid) + [','] + rest;
      LastSeparator(head + [','] + mid, ',', rest);
    }
    assert color[first + 1..last] == mid;
    SubstringInRange(color, first + 1, last);
  }

  /** The first comma after a comma-free head. */
  lemma FirstComma(head: string, tail: string)
    requires Lacks(head, ',')
    ensures IndexOf(head + [','] + tail, ",") == |head|
  {
    assert ',' !in head by {
      assert Lacks(head, ',');
    }
    IndexOfFirstChar(head, ',', tail);
  }

  /** The text between the last comma and the final character. */
  lemma LastComponent(color: string, front: string, body: string, close: char)
    requires color == front + [','] + body + [close] && Lacks(body + [close], ',')
    ensures Substring(color, LastIndexOfChar(color, ',') + 1, |color| - 1) == body
  {
    var last := |front|;
    assert LastIndexOfChar(color, ',') == last by {
      assert color == front + [','] + (body + [close]);
      LastSeparator(front, ',', body + [close]);
    }
    assert color[last + 1..|color| - 1] == body;
    SubstringInRange(color, last + 1, |color| - 1);
  }

  /** The three components of an `rgb(...)` colour are read back exactly. */
  lemma ComponentsOfRgb(r: nat, g: nat, b: nat, gap: string)
    requires Blanks(gap)
    ensures Components(Rgb(r, g, b, gap)) == (Some(r), Some(g), Some(b))
  {
    var R, G, B := NatToString(r), NatToString(g), NatToString(b);
    ReadsBack([], r);
    assert [] + R == R;
    ReadsBack(gap, g);
    ReadsBack(gap, b);
    NoCommaInBlanks(gap);
    RgbOpening("rgb(");
    ComponentsOfPieces("rgb(", R, G, B, gap, ')', r, g, b);
  }

  lemma RgbOpening(open: string)
    requires open == "rgb("
    ensures |open| == 4 && Lacks(open, ',')
  {
  }

  /** The components of a written colour are what its pieces parse to. */
  lemma ComponentsOfPieces(open: string, R: string, G: string, B: string, gap: string, close: char, r: int, g: int, b: int)
    requires |open| == 4 && close != ','
    requires Lacks(open, ',') && Lacks(R, ',') && Lacks(G, ',') && Lacks(B, ',') && Lacks(gap, ',')
    requires ParseInt(R) == Some(r) && ParseInt(gap + G) == Some(g) && ParseInt(gap + B) == Some(b)
    ensures Components(Written(open, R, G, B, gap, close)) == (Some(r), Some(g), Some(b))
  {
    ComponentsOfWritten(open, R, G, B, gap, close);
    ComponentsRead(Written(open, R, G, B, gap, close), R, gap + G, gap + B, r, g, b);
  }

  /** A number written after blanks reads back, and has no comma. */
  lemma ReadsBack(gap: string, n: nat)
    requires Blanks(gap)
    ensures ParseInt(gap + NatToString(n)) == Some(n)
    ensures Lacks(NatToString(n), ',')
  {
    assert gap + NatToString(n) == gap + NatToString(n) + [];
    ParseIntOfRendering(gap, n, []);
    NoCommaInDigits(NatToString(n));
  }

  /** The components read from the three pieces of text. */
  lemma ComponentsRead(color: string, R: string, G: string, B: string, r: int, g: int, b: int)
    requires SplitsInto(color, R, G, B)
    requires ParseInt(R) == Some(r) && ParseInt(G) == Some(g) && ParseInt(B) == Some(b)
    ensures Components(color) == (Some(r), Some(g), Some(b))
  {
  }

  /** Within bounds, `substring` is the slice. */
  lemma SubstringInRange(s: string, i: int, j: int)
    requires 0 <= i <= j <= |s|
    ensures Substring(s, i, j) == s[i..j]
  {
  }

  lemma NoCommaInDigits(s: string)
    requires AllDigits(s)
    ensures ',' !in s && Lacks(s, ',')
  {
  }

  lemma NoCommaInBlanks(s: string)
    requires Blanks(s)
    ensures ',' !in s && Lacks(s, ',')
  {
  }

  /** On an `rgb(...)` background the text is black exactly when the
      weighted brightness reaches 128000. */
  lemma ContrastOfRgb(r: nat, g: nat, b: nat, gap: string)
    requires Blanks(gap)
    ensures GetContrastColor(Rgb(r, g, b, gap)) == (if Brightness(r, g, b) >= 128000 then "black" else "white")
  {
    ComponentsOfRgb(r, g, b, gap);
  }

  /** A colour written without commas and starting with `#` gets white text:
      its first component reads from the `#`, which is not a number. */
  lemma HexColorGetsWhite(color: string)
    requires |color| > 0 && color[0] == '#' && Lacks(color, ',')
    ensures GetContrastColor(color) == "white"
  {
    IndexOfMissingChar(color, ',');
    var head := Substring(color, 4, -1);
    assert |head| > 0 && head[0] == '#';
    assert TrimStart(head) == head;
  }
}

=== FILE: js_strings.dfy ===
/** The JavaScript string primitives the executors and the hierarchy control
    rely on, stated over `seq<char>`: `startsWith`, `endsWith`, `indexOf`,
    `lastIndexOf`, `includes`, `substring` (with its clamping and argument
    swap), `replaceAll` and `replace` with a string pattern, `parseInt(s, 10)`
    and the decimal rendering of a non-negative integer. */
module JsStrings {
  import opened Wrappers

  // ---------------------------------------------------------------------
  // Searching
  // ---------------------------------------------------------------------

  predicate StartsWith(s: string, prefix: string) {
    prefix <= s
  }

  predicate EndsWith(s: string, suffix: string) {
    |suffix| <= |s| && s[|s| - |suffix|..] == suffix
  }

  /** `pat` occurs in `s` at position `i`. */
  predicate OccursAt(s: string, pat: string, i: nat) {
    i + |pat| <= |s| && s[i..i + |pat|] == pat
  }

  /** No occurrence of `pat` in `s` starts before position `k`. */
  predicate NoOccurrenceBefore(s: string, pat: string, k: nat) {
    forall i :: 0 <= i < k ==> !OccursAt(s, pat, i)
  }

  /** `pat` does not occur anywhere in `s`. */
  predicate Absent(s: string, pat: string) {
    NoOccurrenceBefore(s, pat, |s| + 1)
  }

  function IndexFrom(s: string, pat: string, k: nat): (r: int)
    requires NoOccurrenceBefore(s, pat, k)
    ensures r == -1 ==> Absent(s, pat)
    ensures r != -1 ==> k <= r <= |s| && OccursAt(s, pat, r) && NoOccurrenceBefore(s, pat, r)
    decreases |s| + 1 - k
  {
    if k + |pat| > |s| then
      assert forall i :: k <= i <= |s| ==> !OccursAt(s, pat, i);
      -1
    else if OccursAt(s, pat, k) then k
    else IndexFrom(s, pat, k + 1)
  }

  /** `s.indexOf(pat)`: the first position at which `pat` occurs, or -1. */
  function IndexOf(s: string, pat: string): (r: int)
    ensures -1 <= r <= |s|
    ensures r == -1 <==> Absent(s, pat)
    ensures r >= 0 ==> OccursAt(s, pat, r) && NoOccurrenceBefore(s, pat, r)
  {
    IndexFrom(s, pat, 0)
  }

  /** The first occurrence of a character is found after a prefix that does
      not contain it. */
  lemma IndexOfFirstChar(x: string, c: char, y: string)
    requires c !in x
    ensures IndexOf(x + [c] + y, [c]) == |x|
  {
    var s := x + [c] + y;
    assert OccursAt(s, [c], |x|) by {
      assert s[|x|..|x| + 1] == [c];
    }
    forall i | 0 <= i < |x|
      ensures !OccursAt(s, [c], i)
    {
      assert s[i..i + 1] == [x[i]];
    }
  }

  /** A character that does not occur is not found. */
  lemma IndexOfMissingChar(s: string, c: char)
    requires c !in s
    ensures IndexOf(s, [c]) == -1
  {
    forall i | 0 <= i <= |s|
      ensures !OccursAt(s, [c], i)
    {
      if i + 1 <= |s| {
        assert s[i..i + 1] == [s[i]];
      }
    }
  }

  /** `s.includes(pat)` */
  predicate Includes(s: string, pat: string) {
    IndexOf(s, pat) >= 0
  }

  /** `s.lastIndexOf(c)` for a one-character pattern. */
  function LastIndexOfChar(s: string, c: char): (r: int)
    ensures -1 <= r < |s|
    ensures r == -1 <==> c !in s
    ensures r >= 0 ==> s[r] == c && forall j :: r < j < |s| ==> s[j] != c
  {
    if |s| == 0 then -1
    else if s[|s| - 1] == c then |s| - 1
    else LastIndexOfChar(s[..|s| - 1], c)
  }

  /** A character's last position is the one with no copy after it. */
  lemma LastIndexOfCharAt(s: string, c: char, k: nat)
    requires k < |s| && s[k] == c
    requires forall j :: k < j < |s| ==> s[j] != c
    ensures LastIndexOfChar(s, c) == k
  {
    assert s[k] in s;
  }

  /** `c` does not occur in `s`, stated position by position. */
  predicate Lacks(s: string, c: char) {
    forall j :: 0 <= j < |s| ==> s[j] != c
  }

  lemma LacksAfterSeparator(head: string, c: char, tail: string)
    requires Lacks(tail, c)
    ensures forall j :: |head| < j < |head + [c] + tail| ==> (head + [c] + tail)[j] != c
  {
    var s := head + [c] + tail;
    forall j | |head| < j < |s|
      ensures s[j] != c
    {
      assert s[j] == tail[j - |head| - 1];
    }
  }

  /** The last `c` of `head + [c] + tail` is the separator when `tail` has no `c`. */
  lemma LastSeparator(head: string, c: char, tail: string)
    requires Lacks(tail, c)
    ensures LastIndexOfChar(head + [c] + tail, c) == |head|
  {
    LacksAfterSeparator(head, c, tail);
    var s := head + [c] + tail;
    assert s[|head|] == c;
    LastIndexOfCharAt(s, c, |head|);
  }

  // ---------------------------------------------------------------------
  // Slicing
  // ---------------------------------------------------------------------

  /** The argument normalisation of `substring`: negative positions become 0,
      positions past the end become the length. */
  function Clamp(x: int, n: nat): (r: nat)
    ensures r <= n
  {
    if x < 0 then 0 else if x > n then n else x
  }

  /** `s.substring(start, end)`: both positions are clamped into the string
      and swapped when `start > end`. */
  function Substring(s: string, start: int, end: int): (r: string)
    ensures |r| <= |s|
  {
    var a := Clamp(start, |s|);
    var b := Clamp(end, |s|);
    if a <= b then s[a..b] else s[b..a]
  }

  /** `substring` does not care which of its two positions comes first. */
  lemma SubstringSwaps(s: string, start: int, end: int)
    ensures Substring(s, start, end) == Substring(s, end, start)
  {
  }

  /** A position reaching to the end keeps a suffix of the string. */
  lemma SubstringToEnd(s: string, start: int)
    ensures EndsWith(s, Substring(s, start, |s|))
  {
    var r := Substring(s, start, |s|);
    assert s[|s| - |r|..] == r;
  }

  // ---------------------------------------------------------------------
  // Replacing
  // ---------------------------------------------------------------------

  /** `s.replaceAll(pat, rep)` for a non-empty string pattern: occurrences are
      found left to right and do not overlap. */
  function ReplaceAll(s: string, pat: string, rep: string): (r: string)
    requires |pat| > 0
    decreases |s|
  {
    if |s| < |pat| then s
    else if pat <= s then rep + ReplaceAll(s[|pat|..], pat, rep)
    else [s[0]] + ReplaceAll(s[1..], pat, rep)
  }

  /** Text in which the pattern does not occur comes back unchanged. */
  lemma {:induction false} ReplaceAllAbsent(s: string, pat: string, rep: string)
    requires |pat| > 0
    requires Absent(s, pat)
    ensures ReplaceAll(s, pat, rep) == s
    decreases |s|
  {
    if |s| < |pat| {
    } else {
      assert !OccursAt(s, pat, 0);
      assert s[..|pat|] != pat;
      assert !(pat <= s);
      forall i | 0 <= i < |s[1..]| + 1
        ensures !OccursAt(s[1..], pat, i)
      {
        assert !OccursAt(s, pat, i + 1);
        if i + |pat| <= |s[1..]| {
          assert s[1..][i..i + |pat|] == s[i + 1..i + 1 + |pat|];
        }
      }
      ReplaceAllAbsent(s[1..], pat, rep);
    }
  }

  /** Every occurrence at the front is replaced: the replacement of a text
      that starts with the pattern starts with the replacement. */
  lemma ReplaceAllAtFront(pat: string, rest: string, rep: string)
    requires |pat| > 0
    ensures ReplaceAll(pat + rest, pat, rep) == rep + ReplaceAll(rest, pat, rep)
  {
    assert pat <= pat + rest;
    assert (pat + rest)[|pat|..] == rest;
  }

  /** A prefix in which no occurrence of the pattern starts is copied as it
      is; replacing goes on behind it. */
  lemma {:induction false} ReplaceAllSkipsPrefix(t: string, rest: string, pat: string, rep: string)
    requires |pat| > 0
    requires NoOccurrenceBefore(t + rest, pat, |t|)
    ensures ReplaceAll(t + rest, pat, rep) == t + ReplaceAll(rest, pat, rep)
    decreases |t|
  {
    var s := t + rest;
    if |t| == 0 {
      assert s == rest;
    } else if |s| < |pat| {
      assert ReplaceAll(rest, pat, rep) == rest;
    } else {
      assert !OccursAt(s, pat, 0);
      assert s[..|pat|] != pat;
      assert s[1..] == t[1..] + rest;
      forall i | 0 <= i < |t| - 1
        ensures !OccursAt(t[1..] + rest, pat, i)
      {
        assert !OccursAt(s, pat, i + 1);
        if i + |pat| <= |s| - 1 {
          assert s[1..][i..i + |pat|] == s[i + 1..i + 1 + |pat|];
        }
      }
      ReplaceAllSkipsPrefix(t[1..], rest, pat, rep);
      assert t == [t[0]] + t[1..];
    }
  }

  /** With a one-character pattern `replaceAll` is a character-by-character
      substitution: the length is kept and every `c` becomes `d`. */
  lemma {:induction false} ReplaceAllChar(s: string, c: char, d: char)
    ensures |ReplaceAll(s, [c], [d])| == |s|
    ensures forall i :: 0 <= i < |s| ==>
      ReplaceAll(s, [c], [d])[i] == (if s[i] == c then d else s[i])
    decreases |s|
  {
    if |s| == 0 {
    } else {
      ReplaceAllChar(s[1..], c, d);
      var tail := ReplaceAll(s[1..], [c], [d]);
      if [c] <= s {
        assert ReplaceAll(s, [c], [d]) == [d] + tail;
      } else {
        assert ReplaceAll(s, [c], [d]) == [s[0]] + tail;
      }
    }
  }

  /** `s.replace(pat, rep)` with a string pattern: only the FIRST occurrence is
      replaced. */
  function ReplaceFirst(s: string, pat: string, rep: string): (r: string)
  {
    var i := IndexOf(s, pat);
    if i < 0 then s else s[..i] + rep + s[i + |pat|..]
  }

  /** Replacing the first occurrence: text before it and text after it (which
      may contain further occurrences) are kept verbatim. */
  lemma ReplaceFirstSplit(a: string, pat: string, b: string, rep: string)
    requires NoOccurrenceBefore(a + pat + b, pat, |a|)
    ensures ReplaceFirst(a + pat + b, pat, rep) == a + rep + b
  {
    var s := a + pat + b;
    assert OccursAt(s, pat, |a|) by {
      assert s[|a|..|a| + |pat|] == pat;
    }
    var i := IndexOf(s, pat);
    assert i == |a|;
    assert s[..i] == a;
    assert s[i + |pat|..] == b;
  }

  /** A text without the pattern is left alone by `replace`. */
  lemma ReplaceFirstAbsent(s: string, pat: string, rep: string)
    requires Absent(s, pat)
    ensures ReplaceFirst(s, pat, rep) == s
  {
  }

  // ---------------------------------------------------------------------
  // Case folding (the `i` flag of a regular expression on ASCII text)
  // ---------------------------------------------------------------------

  function LowerChar(c: char): char {
    if 'A' <= c <= 'Z' then (c as int + 32) as char else c
  }

  function Lower(s: string): (r: string)
    ensures |r| == |s|
    ensures forall i :: 0 <= i < |s| ==> r[i] == LowerChar(s[i])
  {
    seq(|s|, i requires 0 <= i < |s| => LowerChar(s[i]))
  }

  // ---------------------------------------------------------------------
  // Numbers
  // ---------------------------------------------------------------------

  predicate IsDigit(c: char) {
    '0' <= c <= '9'
  }

  predicate AllDigits(s: string) {
    forall i :: 0 <= i < |s| ==> IsDigit(s[i])
  }

  function DigitChar(d: nat): (c: char)
    requires d < 10
    ensures IsDigit(c)
  {
    ('0' as int + d) as char
  }

  function DigitValue(c: char): (d: nat)
    requires IsDigit(c)
    ensures d < 10
  {
    c as int - '0' as int
  }

  /** The value of a string of decimal digits (the empty string reads 0). */
  function DigitsValue(s: string): nat
    requires AllDigits(s)
  {
    if |s| == 0 then 0 else DigitsValue(s[..|s| - 1]) * 10 + DigitValue(s[|s| - 1])
  }

  /** The decimal rendering of a non-negative integer, as a template literal
      `${n}` produces it. */
  function NatToString(n: nat): (r: string)
    ensures |r| > 0 && AllDigits(r)
    ensures r[0] != '0' || n == 0
  {
    if n < 10 then [DigitChar(n)] else NatToString(n / 10) + [DigitChar(n % 10)]
  }

  /** Reading the rendering back gives the number. */
  lemma {:induction false} NatToStringRoundTrip(n: nat)
    ensures DigitsValue(NatToString(n)) == n
  {
    if n >= 10 {
      NatToStringRoundTrip(n / 10);
      var s := NatToString(n);
      assert s[..|s| - 1] == NatToString(n / 10);
    }
  }

  /** The whitespace and line terminators `parseInt` skips before the number. */
  predicate IsJsSpace(c: char) {
    c == '\t' || c == '\n' || c == '\U{000B}' || c == '\U{000C}' || c == '\r'
    || c == ' ' || c == '\U{00A0}' || c == '\U{1680}' || ('\U{2000}' <= c <= '\U{200A}')
    || c == '\U{2028}' || c == '\U{2029}' || c == '\U{202F}' || c == '\U{205F}'
    || c == '\U{3000}' || c == '\U{FEFF}'
  }

  function TrimStart(s: string): (r: string)
    ensures |r| <= |s| && r == s[|s| - |r|..]
    ensures |r| > 0 ==> !IsJsSpace(r[0])
  {
    if |s| > 0 && IsJsSpace(s[0]) then TrimStart(s[1..]) else s
  }

  /** The longest prefix of decimal digits. */
  function DigitPrefix(s: string): (r: string)
    ensures r <= s && AllDigits(r)
    ensures |r| < |s| ==> !IsDigit(s[|r|])
  {
    if |s| > 0 && IsDigit(s[0]) then [s[0]] + DigitPrefix(s[1..]) else []
  }

  /** The number read from the longest run of leading digits, if any. */
  function ParseDigits(u: string): (r: Option<nat>)
    ensures r.None? <==> (|u| == 0 || !IsDigit(u[0]))
  {
    var digits := DigitPrefix(u);
    if |digits| == 0 then None else Some(DigitsValue(digits))
  }

  /** `parseInt(s, 10)`; `None` stands for `NaN`. Leading whitespace and one
      sign are accepted, then the longest run of digits is read and the rest
      is ignored. */
  function ParseInt(s: string): (r: Option<int>)
  {
    var t := TrimStart(s);
    if |t| > 0 && t[0] == '-' then
      (match ParseDigits(t[1..])
       case Some(v) => Some(-(v as int))
       case None => None)
    else if |t| > 0 && t[0] == '+' then
      (match ParseDigits(t[1..])
       case Some(v) => Some(v as int)
       case None => None)
    else
      (match ParseDigits(t)
       case Some(v) => Some(v as int)
       case None => None)
  }

  /** `parseInt` reads back what `NatToString` writes, also after leading
      blanks and when more text follows a non-digit. */
  lemma ParseIntOfRendering(spaces: string, n: nat, rest: string)
    requires forall i :: 0 <= i < |spaces| ==> IsJsSpace(spaces[i])
    requires |rest| > 0 ==> !IsDigit(rest[0])
    ensures ParseInt(spaces + NatToString(n) + rest) == Some(n)
  {
    var digits := NatToString(n);
    var t := digits + rest;
    assert spaces + digits + rest == spaces + t;
    assert t[0] == digits[0] && IsDigit(t[0]);
    TrimSpaces(spaces, t);
    DigitPrefixOf(digits, rest);
    NatToStringRoundTrip(n);
    assert ParseDigits(t) == Some(n);
  }

  /** The blank-free case: a rendered number followed by a non-digit. */
  lemma ParseIntOfCode(n: nat, rest: string)
    requires |rest| > 0 ==> !IsDigit(rest[0])
    ensures ParseInt(NatToString(n) + rest) == Some(n)
  {
    NatToStringRoundTrip(n);
    ParseIntOfDigits(NatToString(n), rest);
  }

  /** A run of digits followed by a non-digit reads as the run's value. */
  lemma ParseIntOfDigits(digits: string, rest: string)
    requires |digits| > 0 && AllDigits(digits)
    requires |rest| > 0 ==> !IsDigit(rest[0])
    ensures ParseInt(digits + rest) == Some(DigitsValue(digits) as int)
  {
    var t := digits + rest;
    assert t[0] == digits[0];
    assert TrimStart(t) == t;
    DigitPrefixOf(digits, rest);
  }

  lemma {:induction false} TrimSpaces(spaces: string, s: string)
    requires forall i :: 0 <= i < |spaces| ==> IsJsSpace(spaces[i])
    requires |s| > 0 && !IsJsSpace(s[0])
    ensures TrimStart(spaces + s) == s
    decreases |spaces|
  {
    if |spaces| > 0 {
      assert (spaces + s)[1..] == spaces[1..] + s;
      TrimSpaces(spaces[1..], s);
    } else {
      assert spaces + s == s;
    }
  }

  lemma {:induction false} DigitPrefixOf(digits: string, rest: string)
    requires AllDigits(digits)
    requires |rest| > 0 ==> !IsDigit(rest[0])
    ensures DigitPrefix(digits + rest) == digits
    decreases |digits|
  {
    if |digits| > 0 {
      assert (digits + rest)[1..] == digits[1..] + rest;
      DigitPrefixOf(digits[1..], rest);
      assert digits == [digits[0]] + digits[1..];
    } else {
      assert digits + rest == rest;
    }
  }
}

=== FILE: package_executor.dfy ===
/** The PCF package executor: after a successful build it reads the control's
    manifest and the project's `package.json`, renders three XML templates and
    zips them together with the build output into a Dataverse solution
    package. The model keeps the decisions and string transformations; the
    file system, the XML parser and the zip library are replaced by their
    results, passed in as values. */
module PackageExecutor {
  import opened Wrappers
  import opened JsStrings
  import opened BuildGate
  import SolutionVersion

  // ---------------------------------------------------------------------
  // Template variables
  // ---------------------------------------------------------------------

  datatype TemplateVars = TemplateVars(
    namespace: string,
    componentName: string,
    version: string,
    prefix: string,
    publisher: string,
    managedFlag: string)

  /** The six variables, in the order in which they are substituted. */
  datatype Var = NamespaceVar | ComponentNameVar | VersionVar | PrefixVar | PublisherVar | ManagedFlagVar

  /** The name between the placeholder's delimiters. */
  function TagName(v: Var): string {
    match v
    case NamespaceVar => "componentNamespace"
    case ComponentNameVar => "componentName"
    case VersionVar => "version"
    case PrefixVar => "prefix"
    case PublisherVar => "publisher"
    case ManagedFlagVar => "managedFlag"
  }

  /** `<%= name %>` */
  function Placeholder(v: Var): string {
    "<%= " + TagName(v) + " %>"
  }

  function ValueOf(vars: TemplateVars, v: Var): string {
    match v
    case NamespaceVar => vars.namespace
    case ComponentNameVar => vars.componentName
    case VersionVar => vars.version
    case PrefixVar => vars.prefix
    case PublisherVar => vars.publisher
    case ManagedFlagVar => vars.managedFlag
  }

  /** `managedFlag` is "1" for a managed solution and "0" otherwise (an unset
      `managed` option counts as unmanaged). */
  function ManagedFlag(managed: bool): (r: string)
    ensures r == "1" <==> managed
    ensures r == "0" <==> !managed
  {
    if managed then "1" else "0"
  }

  /** `replaceTemplateVars`: every occurrence of each placeholder is replaced,
      one variable after the other in the fixed order namespace,
      componentName, version, prefix, publisher, managedFlag. */
  function ReplaceTemplateVars(input: string, vars: TemplateVars): string {
    var s1 := ReplaceAll(input, Placeholder(NamespaceVar), vars.namespace);
    var s2 := ReplaceAll(s1, Placeholder(ComponentNameVar), vars.componentName);
    var s3 := ReplaceAll(s2, Placeholder(VersionVar), vars.version);
    var s4 := ReplaceAll(s3, Placeholder(PrefixVar), vars.prefix);
    var s5 := ReplaceAll(s4, Placeholder(PublisherVar), vars.publisher);
    ReplaceAll(s5, Placeholder(ManagedFlagVar), vars.managedFlag)
  }

  /** A text containing none of the placeholders is returned unchanged. */
  lemma TemplateWithoutPlaceholdersUnchanged(input: string, vars: TemplateVars)
    requires forall v: Var :: Absent(input, Placeholder(v))
    ensures ReplaceTemplateVars(input, vars) == input
  {
    ReplaceAllAbsent(input, Placeholder(NamespaceVar), vars.namespace);
    ReplaceAllAbsent(input, Placeholder(ComponentNameVar), vars.componentName);
    ReplaceAllAbsent(input, Placeholder(VersionVar), vars.version);
    ReplaceAllAbsent(input, Placeholder(PrefixVar), vars.prefix);
    ReplaceAllAbsent(input, Placeholder(PublisherVar), vars.publisher);
    ReplaceAllAbsent(input, Placeholder(ManagedFlagVar), vars.managedFlag);
  }

  // ---------------------------------------------------------------------
  // A reference reading of templates: literal text interleaved with slots
  // ---------------------------------------------------------------------

  /** A template seen as a sequence of literal texts and variable slots. */
  datatype Segment = Text(text: string) | Slot(v: Var)

  /** The template file as written: slots appear as their placeholders. */
  function Flatten(segs: seq<Segment>): string {
    if |segs| == 0 then ""
    else
      (match segs[0] case Text(t) => t case Slot(v) => Placeholder(v)) + Flatten(segs[1..])
  }

  /** The intended rendering: every slot shows its variable's value. */
  function Render(segs: seq<Segment>, vars: TemplateVars): string {
    if |segs| == 0 then ""
    else
      (match segs[0] case Text(t) => t case Slot(v) => ValueOf(vars, v)) + Render(segs[1..], vars)
  }

  /** Turns every slot of `v` into the literal text `value`. */
  function Fill(segs: seq<Segment>, v: Var, value: string): (r: seq<Segment>)
    ensures |r| == |segs|
  {
    if |segs| == 0 then []
    else [if segs[0] == Slot(v) then Text(value) else segs[0]] + Fill(segs[1..], v, value)
  }

  /** Literal texts never contain '%', the second character of every
      placeholder. */
  predicate WellFormed(segs: seq<Segment>) {
    forall i :: 0 <= i < |segs| ==> segs[i].Text? ==> '%' !in segs[i].text
  }

  /** The shape every placeholder shares: it opens with "<%", closes with
      '>', and has no other '<' or '>'. */
  predicate Bracketed(p: string) {
    |p| > 2 && p[0] == '<' && p[1] == '%' && p[|p| - 1] == '>'
    && (forall i :: 0 < i < |p| ==> p[i] != '<')
    && (forall i :: 0 <= i < |p| - 1 ==> p[i] != '>')
  }

  lemma TagIsBracketed(name: string)
    requires Lacks(name, '<') && Lacks(name, '>')
    ensures Bracketed("<%= " + name + " %>")
  {
    var p := "<%= " + name + " %>";
    forall i | 0 <= i < |p|
      ensures 0 < i ==> p[i] != '<'
      ensures i < |p| - 1 ==> p[i] != '>'
    {
      if 4 <= i < 4 + |name| {
        assert p[i] == name[i - 4];
      }
    }
  }

  lemma PlaceholderShape(v: Var)
    ensures Bracketed(Placeholder(v))
  {
    TagIsBracketed(TagName(v));
  }

  /** The six placeholders have six different lengths. */
  lemma PlaceholderLengths(v: Var, w: Var)
    ensures |Placeholder(v)| == |Placeholder(w)| ==> v == w
  {
  }

  lemma Mismatch(s: string, p: string, i: nat, j: nat)
    requires i + |p| <= |s| && j < |p| && s[i + j] != p[j]
    ensures !OccursAt(s, p, i)
  {
    assert s[i..i + |p|][j] == s[i + j];
  }

  /** A flattened well-formed template never starts with '%'. */
  lemma {:induction false} FlattenStart(segs: seq<Segment>)
    requires WellFormed(segs)
    ensures |Flatten(segs)| == 0 || Flatten(segs)[0] != '%'
  {
    if |segs| > 0 {
      match segs[0]
      case Slot(v) =>
        PlaceholderShape(v);
      case Text(t) =>
        if |t| == 0 {
          FlattenStart(segs[1..]);
        } else {
          assert t[0] in t;
        }
    }
  }

  /** No placeholder occurrence starts inside a literal text. */
  lemma NoMatchInText(t: string, rest: string, v: Var)
    requires '%' !in t
    requires |rest| == 0 || rest[0] != '%'
    ensures NoOccurrenceBefore(t + rest, Placeholder(v), |t|)
  {
    var p := Placeholder(v);
    PlaceholderShape(v);
    var s := t + rest;
    forall i | 0 <= i < |t|
      ensures !OccursAt(s, p, i)
    {
      if i + |p| <= |s| {
        if i + 1 < |t| {
          assert t[i + 1] in t;
          assert s[i + 1] == t[i + 1];
        } else {
          assert s[i + 1] == rest[0];
        }
        Mismatch(s, p, i, 1);
      }
    }
  }

  /** No occurrence of one placeholder starts inside another one. */
  lemma NoMatchInOtherPlaceholder(w: Var, rest: string, v: Var)
    requires w != v
    ensures NoOccurrenceBefore(Placeholder(w) + rest, Placeholder(v), |Placeholder(w)|)
  {
    var p, q := Placeholder(v), Placeholder(w);
    PlaceholderShape(v);
    PlaceholderShape(w);
    PlaceholderLengths(v, w);
    var s := q + rest;
    forall i | 0 <= i < |q|
      ensures !OccursAt(s, p, i)
    {
      if i + |p| <= |s| {
        if 0 < i {
          assert s[i] == q[i];
          Mismatch(s, p, i, 0);
        } else if |p| < |q| {
          assert s[|p| - 1] == q[|p| - 1];
          Mismatch(s, p, 0, |p| - 1);
        } else {
          assert s[|q| - 1] == q[|q| - 1];
          Mismatch(s, p, 0, |q| - 1);
        }
      }
    }
  }

  /** One substitution pass on a well-formed template replaces exactly the
      slots of its variable. */
  lemma {:induction false} ReplacePass(segs: seq<Segment>, v: Var, value: string)
    requires WellFormed(segs)
    ensures ReplaceAll(Flatten(segs), Placeholder(v), value) == Flatten(Fill(segs, v, value))
  {
    PlaceholderShape(v);
    if |segs| > 0 {
      var rest := Flatten(segs[1..]);
      assert WellFormed(segs[1..]);
      ReplacePass(segs[1..], v, value);
      FlattenStart(segs[1..]);
      assert Fill(segs, v, value)[1..] == Fill(segs[1..], v, value);
      match segs[0]
      case Text(t) =>
        NoMatchInText(t, rest, v);
        ReplaceAllSkipsPrefix(t, rest, Placeholder(v), value);
      case Slot(w) =>
        if w == v {
          ReplaceAllAtFront(Placeholder(v), rest, value);
        } else {
          NoMatchInOtherPlaceholder(w, rest, v);
          ReplaceAllSkipsPrefix(Placeholder(w), rest, Placeholder(v), value);
        }
    }
  }

  lemma {:induction false} FillWellFormed(segs: seq<Segment>, v: Var, value: string)
    requires WellFormed(segs) && '%' !in value
    ensures WellFormed(Fill(segs, v, value))
  {
    if |segs| > 0 {
      FillWellFormed(segs[1..], v, value);
      var f := Fill(segs, v, value);
      forall i | 0 <= i < |f| && f[i].Text?
        ensures '%' !in f[i].text
      {
        if i > 0 {
          assert f[i] == Fill(segs[1..], v, value)[i - 1];
        }
      }
    }
  }

  /** Filling a slot with the variable's own value does not change the
      rendering. */
  lemma {:induction false} FillRender(segs: seq<Segment>, vars: TemplateVars, v: Var)
    ensures Render(Fill(segs, v, ValueOf(vars, v)), vars) == Render(segs, vars)
  {
    if |segs| > 0 {
      FillRender(segs[1..], vars, v);
      assert Fill(segs, v, ValueOf(vars, v))[1..] == Fill(segs[1..], v, ValueOf(vars, v));
    }
  }

  predicate SlotsOnlyOf(segs: seq<Segment>, vs: set<Var>) {
    forall i :: 0 <= i < |segs| ==> segs[i].Slot? ==> segs[i].v in vs
  }

  lemma {:induction false} FillRemovesSlot(segs: seq<Segment>, v: Var, value: string, vs: set<Var>)
    requires SlotsOnlyOf(segs, vs)
    ensures SlotsOnlyOf(Fill(segs, v, value), vs - {v})
  {
    if |segs| > 0 {
      FillRemovesSlot(segs[1..], v, value, vs);
      var f := Fill(segs, v, value);
      forall i | 0 <= i < |f| && f[i].Slot?
        ensures f[i].v in vs - {v}
      {
        if i > 0 {
          assert f[i] == Fill(segs[1..], v, value)[i - 1];
        }
      }
    }
  }

  lemma {:induction false} NoSlotsFlattenIsRender(segs: seq<Segment>, vars: TemplateVars)
    requires SlotsOnlyOf(segs, {})
    ensures Flatten(segs) == Render(segs, vars)
  {
    if |segs| > 0 {
      assert SlotsOnlyOf(segs[1..], {});
      NoSlotsFlattenIsRender(segs[1..], vars);
    }
  }

  /** One substitution pass, with everything the next pass needs. */
  lemma RenderPass(segs: seq<Segment>, vars: TemplateVars, v: Var, vs: set<Var>)
    requires WellFormed(segs) && SlotsOnlyOf(segs, vs)
    requires '%' !in ValueOf(vars, v)
    ensures ReplaceAll(Flatten(segs), Placeholder(v), ValueOf(vars, v))
         == Flatten(Fill(segs, v, ValueOf(vars, v)))
    ensures WellFormed(Fill(segs, v, ValueOf(vars, v)))
    ensures SlotsOnlyOf(Fill(segs, v, ValueOf(vars, v)), vs - {v})
    ensures Render(Fill(segs, v, ValueOf(vars, v)), vars) == Render(segs, vars)
  {
    ReplacePass(segs, v, ValueOf(vars, v));
    FillWellFormed(segs, v, ValueOf(vars, v));
    FillRemovesSlot(segs, v, ValueOf(vars, v), vs);
    FillRender(segs, vars, v);
  }

  const AllVars: set<Var> := {NamespaceVar, ComponentNameVar, VersionVar, PrefixVar, PublisherVar, ManagedFlagVar}

  lemma SlotsAmongAllVars(segs: seq<Segment>)
    ensures SlotsOnlyOf(segs, AllVars)
  {
    forall i | 0 <= i < |segs| && segs[i].Slot?
      ensures segs[i].v in AllVars
    {
      match segs[i].v
      case NamespaceVar =>
      case ComponentNameVar =>
      case VersionVar =>
      case PrefixVar =>
      case PublisherVar =>
      case ManagedFlagVar =>
    }
  }

  /** Substitution renders the template: when neither the literal text nor
      any value contains '%', every placeholder is replaced by its variable's
      value and all other text is kept. */
  lemma TemplateRendering(segs: seq<Segment>, vars: TemplateVars)
    requires WellFormed(segs)
    requires forall v: Var :: '%' !in ValueOf(vars, v)
    ensures ReplaceTemplateVars(Flatten(segs), vars) == Render(segs, vars)
  {
    var vs := AllVars;
    SlotsAmongAllVars(segs);
    var s0 := segs;
    RenderPass(s0, vars, NamespaceVar, vs);
    var s1 := Fill(s0, NamespaceVar, vars.namespace);
    vs := vs - {NamespaceVar};
    RenderPass(s1, vars, ComponentNameVar, vs);
    var s2 := Fill(s1, ComponentNameVar, vars.componentName);
    vs := vs - {ComponentNameVar};
    RenderPass(s2, vars, VersionVar, vs);
    var s3 := Fill(s2, VersionVar, vars.version);
    vs := vs - {VersionVar};
    RenderPass(s3, vars, PrefixVar, vs);
    var s4 := Fill(s3, PrefixVar, vars.prefix);
    vs := vs - {PrefixVar};
    RenderPass(s4, vars, PublisherVar, vs);
    var s5 := Fill(s4, PublisherVar, vars.publisher);
    vs := vs - {PublisherVar};
    RenderPass(s5, vars, ManagedFlagVar, vs);
    var s6 := Fill(s5, ManagedFlagVar, vars.managedFlag);
    vs := vs - {ManagedFlagVar};
    assert vs == {};
    NoSlotsFlattenIsRender(s6, vars);
  }

  // ---------------------------------------------------------------------
  // Manifest and package.json checks
  // ---------------------------------------------------------------------

  /** JavaScript truthiness of an attribute or property that may be absent. */
  predicate Truthy(v: Option<string>) {
    v.Some? && v.value != ""
  }

  /** The `control` element's attributes, or `None` when the manifest has no
      `control` element. */
  type ControlElement = Option<map<string, string>>

  function Attribute(control: ControlElement, name: string): Option<string> {
    if control.Some? && name in control.value then Some(control.value[name]) else None
  }

  datatype ManifestInfo = ManifestInfo(version: string, namespace: string, componentName: string)

  const MissingAttributes := "Missing required attributes in ControlManifest.xml"

  /** `parseManifest`: the `version`, `namespace` and `constructor`
      attributes of the first `control` element must all be non-empty; the
      version is converted to a solution version. */
  function ParseManifest(control: ControlElement, releaseCounter: Option<string>): (r: Result<ManifestInfo>)
    ensures r.Success? <==>
      Truthy(Attribute(control, "version")) && Truthy(Attribute(control, "namespace"))
      && Truthy(Attribute(control, "constructor"))
    ensures r.Failure? ==> r.error == MissingAttributes
    ensures r.Success? ==>
      r.value.namespace == control.value["namespace"] && r.value.componentName == control.value["constructor"]
      && r.value.version == SolutionVersion.ToSolutionVersion(control.value["version"], releaseCounter)
  {
    var version := Attribute(control, "version");
    var namespace := Attribute(control, "namespace");
    var componentName := Attribute(control, "constructor");
    if !Truthy(version) || !Truthy(namespace) || !Truthy(componentName) then
      Failure(MissingAttributes)
    else
      Success(ManifestInfo(SolutionVersion.ToSolutionVersion(version.value, releaseCounter),
                           namespace.value, componentName.value))
  }

  /** What `getVersion` reads from the executor context and `package.json`:
      `workspace` maps project names to their (possibly unset) root. */
  datatype VersionSource = VersionSource(
    projectName: Option<string>,
    workspace: Option<map<string, Option<string>>>,
    packageVersion: Option<string>)

  const NoProjectName := "Project name is not set in the context."
  const NoProjectRoot := "Project root not found."
  const NoPackageVersion := "Version is not set in package.json."
  /** Reading `.root` of a project the workspace does not list. */
  const UnknownProject := "Cannot read properties of undefined (reading 'root')"

  function ProjectRoot(src: VersionSource): Option<string>
    requires Truthy(src.projectName)
    requires src.workspace.Some? ==> src.projectName.value in src.workspace.value
  {
    if src.workspace.None? then None else src.workspace.value[src.projectName.value]
  }

  /** `getVersion`: the solution version derived from `package.json`, after
      checking the project name, the project root and the version, in that
      order. */
  function GetVersion(src: VersionSource, releaseCounter: Option<string>): (r: Result<string>)
    ensures !Truthy(src.projectName) ==> r == Failure(NoProjectName)
    ensures Truthy(src.projectName) && src.workspace.Some? && src.projectName.value !in src.workspace.value
            ==> r == Failure(UnknownProject)
    ensures r.Success? <==>
      Truthy(src.projectName) && src.workspace.Some? && src.projectName.value in src.workspace.value
      && Truthy(src.workspace.value[src.projectName.value]) && Truthy(src.packageVersion)
    ensures r.Success? ==> r.value == SolutionVersion.ToSolutionVersion(src.packageVersion.value, releaseCounter)
    ensures r.Failure? ==> r.error in {NoProjectName, UnknownProject, NoProjectRoot, NoPackageVersion}
  {
    if !Truthy(src.projectName) then Failure(NoProjectName)
    else if src.workspace.Some? && src.projectName.value !in src.workspace.value then Failure(UnknownProject)
    else if !Truthy(ProjectRoot(src)) then Failure(NoProjectRoot)
    else if !Truthy(src.packageVersion) then Failure(NoPackageVersion)
    else Success(SolutionVersion.ToSolutionVersion(src.packageVersion.value, releaseCounter))
  }

  // ---------------------------------------------------------------------
  // Zip layout, output path and log line
  // ---------------------------------------------------------------------

  /** The content of a zip entry: a rendered template, or the build output
      file at this relative path. */
  datatype EntryContent = Rendered(text: string) | BuildFile(relativePath: string)

  datatype ZipEntry = ZipEntry(path: string, content: EntryContent)

  datatype Templates = Templates(contentTypes: string, customizations: string, solution: string)

  const ContentTypesEntry := "[Content_Types].xml"
  const CustomizationsEntry := "customizations.xml"
  const SolutionEntry := "solution.xml"

  /** `Controls/<namespace>.<componentName>`, where the build output goes. */
  function ControlFolder(namespace: string, componentName: string): string {
    "Controls/" + namespace + "." + componentName
  }

  /** The entries `prepareZip` adds, in order: the three rendered templates,
      then every build file under the control folder. */
  function ZipEntries(templates: Templates, vars: TemplateVars, buildFiles: seq<string>): (r: seq<ZipEntry>)
    ensures |r| == 3 + |buildFiles|
    ensures r[0] == ZipEntry(ContentTypesEntry, Rendered(ReplaceTemplateVars(templates.contentTypes, vars)))
    ensures r[1] == ZipEntry(CustomizationsEntry, Rendered(ReplaceTemplateVars(templates.customizations, vars)))
    ensures r[2] == ZipEntry(SolutionEntry, Rendered(ReplaceTemplateVars(templates.solution, vars)))
    ensures forall i :: 0 <= i < |buildFiles| ==>
      r[3 + i] == ZipEntry(ControlFolder(vars.namespace, vars.componentName) + "/" + buildFiles[i], BuildFile(buildFiles[i]))
  {
    var fixed := [ ZipEntry(ContentTypesEntry, Rendered(ReplaceTemplateVars(templates.contentTypes, vars))),
      ZipEntry(CustomizationsEntry, Rendered(ReplaceTemplateVars(templates.customizations, vars))),
      ZipEntry(SolutionEntry, Rendered(ReplaceTemplateVars(templates.solution, vars))) ];
    var files := BuildEntries(ControlFolder(vars.namespace, vars.componentName), buildFiles);
    assert forall i :: 0 <= i < |buildFiles| ==> (fixed + files)[3 + i] == files[i];
    fixed + files
  }

  /** The build output files, each under the control folder. */
  function BuildEntries(folder: string, buildFiles: seq<string>): (r: seq<ZipEntry>)
    ensures |r| == |buildFiles|
    ensures forall i :: 0 <= i < |buildFiles| ==> r[i] == ZipEntry(folder + "/" + buildFiles[i], BuildFile(buildFiles[i]))
  {
    seq(|buildFiles|, i requires 0 <= i < |buildFiles| => ZipEntry(folder + "/" + buildFiles[i], BuildFile(buildFiles[i])))
  }

  /** The build file stored under a zip path, recovered by removing the
      control folder prefix. */
  function BuildFileOfEntry(path: string, namespace: string, componentName: string): Option<string> {
    var folder := ControlFolder(namespace, componentName) + "/";
    if StartsWith(path, folder) then Some(path[|folder|..]) else None
  }

  /** Every build file can be read back from its entry path, the three fixed
      entries are not under the control folder, and distinct build files get
      distinct entries. */
  lemma ZipEntriesLayout(templates: Templates, vars: TemplateVars, buildFiles: seq<string>)
    ensures var r := ZipEntries(templates, vars, buildFiles);
      forall i :: 0 <= i < |buildFiles| ==>
        BuildFileOfEntry(r[3 + i].path, vars.namespace, vars.componentName) == Some(buildFiles[i])
    ensures var r := ZipEntries(templates, vars, buildFiles);
      forall i :: 0 <= i < 3 ==> BuildFileOfEntry(r[i].path, vars.namespace, vars.componentName) == None
    ensures var r := ZipEntries(templates, vars, buildFiles);
      forall i, j :: 0 <= i < j < |buildFiles| && buildFiles[i] != buildFiles[j] ==> r[3 + i].path != r[3 + j].path
  {
    var r := ZipEntries(templates, vars, buildFiles);
    var folder := ControlFolder(vars.namespace, vars.componentName) + "/";
    forall i | 0 <= i < |buildFiles|
      ensures BuildFileOfEntry(r[3 + i].path, vars.namespace, vars.componentName) == Some(buildFiles[i])
    {
      assert r[3 + i].path == folder + buildFiles[i];
      assert (folder + buildFiles[i])[|folder|..] == buildFiles[i];
    }
    forall i | 0 <= i < 3
      ensures BuildFileOfEntry(r[i].path, vars.namespace, vars.componentName) == None
    {
      assert r[i].path[0] != 'C' && folder[0] == 'C';
      PrefixFirstChar(r[i].path, folder);
    }
  }

  lemma PrefixFirstChar(s: string, p: string)
    ensures 0 < |p| && StartsWith(s, p) ==> s[0] == p[0]
  {
  }

  /** The archive's location: only the first `{version}` of the configured
      output path is replaced by the solution version. */
  function OutputPath(configured: string, version: string): string {
    ReplaceFirst(configured, "{version}", version)
  }

  /** When no `{version}` starts before `before` ends, that occurrence is the
      one replaced; any later one is kept. */
  lemma OutputPathReplacesFirst(before: string, after: string, version: string)
    requires NoOccurrenceBefore(before + "{version}" + after, "{version}", |before|)
    ensures OutputPath(before + "{version}" + after, version) == before + version + after
  {
    ReplaceFirstSplit(before, "{version}", after, version);
  }

  lemma OutputPathWithoutPlaceholder(configured: string, version: string)
    requires Absent(configured, "{version}")
    ensures OutputPath(configured, version) == configured
  {
    ReplaceFirstAbsent(configured, "{version}", version);
  }

  /** The archive is written under the workspace root: the root joined with
      the configured path after its `{version}` is filled in. */
  function PackagePath(root: string, configured: string, version: string): (r: string)
    ensures StartsWith(r, root + "/")
    ensures r[|root| + 1..] == OutputPath(configured, version)
  {
    root + "/" + OutputPath(configured, version)
  }

  /** A path without an opening brace holds no `{version}`. */
  lemma NoBraceNoPlaceholder(configured: string)
    requires '{' !in configured
    ensures Absent(configured, "{version}")
  {
    forall i | 0 <= i <= |configured| + 1
      ensures !OccursAt(configured, "{version}", i)
    {
      if i + 9 <= |configured| {
        assert configured[i] in configured;
        Mismatch(configured, "{version}", i, 0);
      }
    }
  }

  lemma ExamplePathJoined()
    ensures "/root" + "/" + "out/my-control.zip" == "/root/out/my-control.zip"
  {
    var joined := "/root" + "/" + "out/my-control.zip";
    assert |joined| == 24;
    assert forall i | 0 <= i < 24 :: joined[i] == "/root/out/my-control.zip"[i];
  }

  lemma ExampleLineSpelled()
    ensures "Unmanaged" + " solution package created at " == "Unmanaged solution package created at "
  {
    var line := "Unmanaged" + " solution package created at ";
    var expected := "Unmanaged solution package created at ";
    assert |line| == |expected|;
    assert forall i | 0 <= i < |expected| :: line[i] == expected[i];
  }

  /** The location reported for an unmanaged package whose configured path
      has no placeholder, in a workspace rooted at `/root`. */
  lemma PackageLogExample(version: string)
    ensures PackageLog(false, PackagePath("/root", "out/my-control.zip", version))
         == "Unmanaged solution package created at " + "/root/out/my-control.zip"
  {
    var configured := "out/my-control.zip";
    NoBraceNoPlaceholder(configured);
    OutputPathWithoutPlaceholder(configured, version);
    ExamplePathJoined();
    ExampleLineSpelled();
  }

  /** The closing log line names the kind of package and where it went. */
  function PackageLog(managed: bool, outPath: string): (r: string)
    ensures EndsWith(r, " solution package created at " + outPath)
  {
    (if managed then "Managed" else "Unmanaged") + " solution package created at " + outPath
  }

  /** The log line says "Managed" exactly for a managed package, "Unmanaged"
      exactly for the others, and `managedFlag` agrees with it. */
  lemma PackageLogKind(managed: bool, outPath: string)
    ensures StartsWith(PackageLog(managed, outPath), "Managed") <==> managed
    ensures StartsWith(PackageLog(managed, outPath), "Unmanaged") <==> !managed
    ensures StartsWith(PackageLog(managed, outPath), "Managed") <==> ManagedFlag(managed) == "1"
  {
    var r := PackageLog(managed, outPath);
    var tail := " solution package created at " + outPath;
    if managed {
      assert r == "Managed" + tail;
      assert r[0] == 'M';
      PrefixFirstChar(r, "Unmanaged");
    } else {
      assert r == "Unmanaged" + tail;
      assert r[0] == 'U';
      PrefixFirstChar(r, "Managed");
    }
  }

  // ---------------------------------------------------------------------
  // The executor
  // ---------------------------------------------------------------------

  datatype PackageOptions = PackageOptions(prefix: string, publisher: string, managed: bool, outputPath: string)

  /** Everything the executor reads from its environment: the build's yielded
      results, the workspace root, the merged build target `outputPath`, the
      manifest's `control` element, the build output files, the version
      source, the `RELEASE_COUNTER` variable and the three template files. */
  datatype Environment = Environment(
    root: string,
    buildResults: seq<BuildResult>,
    buildOutputPath: Option<string>,
    control: ControlElement,
    buildFiles: seq<string>,
    versionSource: VersionSource,
    releaseCounter: Option<string>,
    templates: Templates)

  datatype Package = Package(entries: seq<ZipEntry>, outPath: string, log: string)

  const NoOutputPath := "Output path is not set in the build target options."

  /** `prepareZip`: output path check, manifest, version, then the archive. */
  function PrepareZip(options: PackageOptions, env: Environment): (r: Result<Package>)
    ensures r.Success? <==>
      Truthy(env.buildOutputPath) && ParseManifest(env.control, env.releaseCounter).Success?
      && GetVersion(env.versionSource, env.releaseCounter).Success?
    ensures !Truthy(env.buildOutputPath) ==> r == Failure(NoOutputPath)
    ensures Truthy(env.buildOutputPath) && ParseManifest(env.control, env.releaseCounter).Failure? ==>
      r == Failure(MissingAttributes)
    ensures (Truthy(env.buildOutputPath) && ParseManifest(env.control, env.releaseCounter).Success?
             && GetVersion(env.versionSource, env.releaseCounter).Failure?) ==>
      r == Failure(GetVersion(env.versionSource, env.releaseCounter).error)
    ensures r.Success? ==>
      var version := GetVersion(env.versionSource, env.releaseCounter).value;
      var info := ParseManifest(env.control, env.releaseCounter).value;
      && StartsWith(r.value.outPath, env.root + "/")
      && r.value.outPath[|env.root| + 1..] == OutputPath(options.outputPath, version)
      && r.value.log == PackageLog(options.managed, r.value.outPath)
      && r.value.entries == ZipEntries(env.templates,
           TemplateVars(info.namespace, info.componentName, version, options.prefix,
                        options.publisher, ManagedFlag(options.managed)),
           env.buildFiles)
  {
    if !Truthy(env.buildOutputPath) then Failure(NoOutputPath)
    else
      var info :- ParseManifest(env.control, env.releaseCounter);
      var version :- GetVersion(env.versionSource, env.releaseCounter);
      var vars := TemplateVars(info.namespace, info.componentName, version, options.prefix,
                               options.publisher, ManagedFlag(options.managed));
      var outPath := PackagePath(env.root, options.outputPath, version);
      Success(Package(ZipEntries(env.templates, vars, env.buildFiles), outPath, PackageLog(options.managed, outPath)))
  }

  /** The executor's result: the build result it returns, and the package it
      wrote, if any. */
  datatype Run = Run(build: BuildResult, package: Option<Package>)

  /** `runPackageExecutor`: the package is prepared only after a successful
      build; a failed build is returned as it is, with nothing packaged. */
  function RunPackageExecutor(options: PackageOptions, env: Environment): (r: Result<Run>)
    ensures r.Success? && r.value.package.Some? ==> r.value.build.success
    ensures r.Success? ==> r.value.build == RunBuild(env.buildResults)
    ensures r.Success? ==> (r.value.package.Some? <==> r.value.build.success)
    ensures r.Failure? <==> RunBuild(env.buildResults).success && PrepareZip(options, env).Failure?
    ensures r.Failure? ==> r.error == PrepareZip(options, env).error
    ensures r.Success? && r.value.package.Some? ==> r.value.package.value == PrepareZip(options, env).value
  {
    var build := RunBuild(env.buildResults);
    if build.success then
      var package :- PrepareZip(options, env);
      Success(Run(build, Some(package)))
    else
      Success(Run(build, None))
  }

  /** A package is produced exactly when every yielded build result succeeds
      and all preparation checks pass; a failed build is reported as the
      first failing result. */
  lemma PackagingGate(options: PackageOptions, env: Environment)
    ensures RunPackageExecutor(options, env).Success? && RunPackageExecutor(options, env).value.package.Some?
      <==> (forall i :: 0 <= i < |env.buildResults| ==> env.buildResults[i].success)
           && PrepareZip(options, env).Success?
    ensures (exists i :: 0 <= i < |env.buildResults| && !env.buildResults[i].success) ==>
      var r := RunPackageExecutor(options, env);
      r.Success? && r.value.package.None? && !r.value.build.success
      && exists i :: 0 <= i < |env.buildResults| && env.buildResults[i] == r.value.build
           && forall j :: 0 <= j < i ==> env.buildResults[j].success
  {
  }
}

=== FILE: publish_executor.dfy ===
/** The publish executor: builds the project, lists the web resources that
    already exist under the configured path, creates or updates one web
    resource per deployable build file, and publishes them all. Credentials,
    HTTP and the file system are replaced by their results: the server is a
    function from each request to its reply, the build output is an
    in-memory folder. */
module PublishExecutor {
  import opened Wrappers
  import opened JsStrings
  import opened BuildGate
  import opened PublishUtils
  import opened WebResources

  // ---------------------------------------------------------------------
  // Files to deploy
  // ---------------------------------------------------------------------

  /** A build file and the web resource it is deployed to. */
  datatype FileResource = FileResource(relativeFilePath: string, webResourceName: string, webResourceId: Option<string>)

  /** `/\.(html|js|css)$/i`: the path ends in one of the three extensions, in
      any letter case. */
  predicate IsDeployable(path: string) {
    var l := Lower(path);
    EndsWith(l, ".html") || EndsWith(l, ".js") || EndsWith(l, ".css")
  }

  /** The selected build files, in walk order. */
  function SelectDeployable(files: seq<string>): (r: seq<string>)
    ensures |r| <= |files|
    ensures forall x :: x in r <==> x in files && IsDeployable(x)
  {
    if |files| == 0 then []
    else
      var rest := SelectDeployable(files[1..]);
      assert forall x :: x in files <==> x == files[0] || x in files[1..];
      if IsDeployable(files[0]) then [files[0]] + rest else rest
  }

  /** A single file is kept exactly when it is deployable. */
  lemma SelectDeployableSingle(x: string)
    ensures SelectDeployable([x]) == if IsDeployable(x) then [x] else []
  {
    assert [x][1..] == [];
  }

  /** Selection distributes over concatenation, so it keeps the files' order
      and every repetition of a deployable file, as `filter` does. */
  lemma {:induction false} SelectDeployableAppend(a: seq<string>, b: seq<string>)
    ensures SelectDeployable(a + b) == SelectDeployable(a) + SelectDeployable(b)
    decreases |a|
  {
    if |a| == 0 {
      assert a + b == b;
    } else {
      assert (a + b)[0] == a[0];
      assert (a + b)[1..] == a[1..] + b;
      SelectDeployableAppend(a[1..], b);
    }
  }

  /** The web resource name of a build file: every backslash of its relative
      path becomes '/', and the web resource path is put in front. */
  function WebResourceName(webResourcePath: string, relativeFilePath: string): string {
    webResourcePath + "/" + ReplaceAll(relativeFilePath, "\\", "/")
  }

  /** A web resource name starts with the web resource path and '/', and the
      rest is the relative path, character by character, with '/' for every
      backslash. */
  lemma WebResourceNameShape(webResourcePath: string, relativeFilePath: string)
    ensures var n := WebResourceName(webResourcePath, relativeFilePath);
      var k := |webResourcePath| + 1;
      && StartsWith(n, webResourcePath + "/")
      && MatchesFilter(n, webResourcePath)
      && |n| == k + |relativeFilePath|
      && forall i :: 0 <= i < |relativeFilePath| ==>
           n[k + i] == (if relativeFilePath[i] == '\\' then '/' else relativeFilePath[i])
  {
    ReplaceAllChar(relativeFilePath, '\\', '/');
    var n := WebResourceName(webResourcePath, relativeFilePath);
    assert n[..|webResourcePath| + 1] == webResourcePath + "/";
  }

  /** A Windows separator gives the same name as a '/'. */
  lemma BackslashNamesLikeSlash(webResourcePath: string, a: string, b: string)
    ensures WebResourceName(webResourcePath, a + "\\" + b) == WebResourceName(webResourcePath, a + "/" + b)
  {
    var p, q := a + "\\" + b, a + "/" + b;
    WebResourceNameShape(webResourcePath, p);
    WebResourceNameShape(webResourcePath, q);
    var m, n := WebResourceName(webResourcePath, p), WebResourceName(webResourcePath, q);
    var k := |webResourcePath| + 1;
    forall i | 0 <= i < |m|
      ensures m[i] == n[i]
    {
      if i < k {
        assert m[..k] == n[..k];
        assert m[i] == m[..k][i];
        assert n[i] == n[..k][i];
      } else {
        var j := i - k;
        assert j < |p|;
        if j < |a| {
          assert p[j] == a[j] == q[j];
        } else if j > |a| {
          assert p[j] == b[j - |a| - 1] == q[j];
        } else {
          assert p[j] == '\\' && q[j] == '/';
        }
      }
    }
  }

  /** A path without backslashes keeps its text. */
  lemma PlainPathName(webResourcePath: string, relativeFilePath: string)
    requires '\\' !in relativeFilePath
    ensures WebResourceName(webResourcePath, relativeFilePath) == webResourcePath + "/" + relativeFilePath
  {
    IndexOfMissingChar(relativeFilePath, '\\');
    ReplaceAllAbsent(relativeFilePath, "\\", "/");
  }

  /** `listFilesToDeploy`: one resource per selected build file, in the
      selection's order, named after it and without an id yet. */
  function ListFilesToDeploy(webResourcePath: string, files: seq<string>): (r: seq<FileResource>)
    ensures |r| == |SelectDeployable(files)|
    ensures forall i :: 0 <= i < |r| ==> r[i].relativeFilePath == SelectDeployable(files)[i]
    ensures forall i :: 0 <= i < |r| ==>
      r[i].relativeFilePath in files && IsDeployable(r[i].relativeFilePath) && r[i].webResourceId.None?
      && r[i].webResourceName == WebResourceName(webResourcePath, r[i].relativeFilePath)
  {
    var selected := SelectDeployable(files);
    seq(|selected|, i requires 0 <= i < |selected| =>
      FileResource(selected[i], WebResourceName(webResourcePath, selected[i]), None))
  }

  /** Every deployable build file is deployed. */
  lemma ListFilesToDeployComplete(webResourcePath: string, files: seq<string>, x: string)
    requires x in files && IsDeployable(x)
    ensures exists i :: 0 <= i < |ListFilesToDeploy(webResourcePath, files)|
                        && ListFilesToDeploy(webResourcePath, files)[i].relativeFilePath == x
  {
    var selected := SelectDeployable(files);
    var i :| 0 <= i < |selected| && selected[i] == x;
    assert ListFilesToDeploy(webResourcePath, files)[i].relativeFilePath == x;
  }

  /** The regular expression ignores letter case, but the type table does
      not: an upper-case `.JS` file is selected for deployment and then has
      no type, so creating it fails. */
  lemma UpperCaseScriptSelectedButUntyped(dir: string, stem: string, ext: string)
    requires dir == "" && stem == "app" && ext == "JS"
    ensures IsDeployable(dir + stem + "." + ext)
    ensures TypeOfPath(dir + stem + "." + ext).None?
  {
    var path := dir + stem + "." + ext;
    assert path == "app.JS";
    assert Lower(path) == "app.js";
    assert EndsWith(Lower(path), ".js");
    assert Lacks(stem + "." + ext, '/') by {
      assert stem + "." + ext == "app.JS";
    }
    assert WebResourceType(ext).None?;
    TypeOfFileName(dir, stem, ext);
  }

  // ---------------------------------------------------------------------
  // Existing ids
  // ---------------------------------------------------------------------

  /** The name-to-id map built from the listing, in listing order: a later
      resource with the same name replaces an earlier one. */
  function IdsByName(resources: seq<WebResource>): map<string, string> {
    if |resources| == 0 then map[]
    else
      var last := resources[|resources| - 1];
      IdsByName(resources[..|resources| - 1])[last.name := last.id]
  }

  /** `j` is the last listed resource with this name. */
  predicate IsLastNamed(resources: seq<WebResource>, j: int, name: string) {
    0 <= j < |resources| && resources[j].name == name
    && forall k :: j < k < |resources| ==> resources[k].name != name
  }

  /** The map knows exactly the listed names. */
  lemma {:induction false} IdsByNameKeys(resources: seq<WebResource>, name: string)
    ensures name in IdsByName(resources) <==> exists j :: 0 <= j < |resources| && resources[j].name == name
  {
    if |resources| > 0 {
      var n := |resources| - 1;
      var init := resources[..n];
      IdsByNameKeys(init, name);
      if name in IdsByName(init) {
        var j :| 0 <= j < n && init[j].name == name;
        assert resources[j].name == name;
      }
      if j :| 0 <= j < n && resources[j].name == name {
        assert init[j].name == name;
      }
    }
  }

  /** Each listed name maps to the id of its last listed resource. */
  lemma {:induction false} IdsByNameLastWins(resources: seq<WebResource>, j: int, name: string)
    requires IsLastNamed(resources, j, name)
    ensures name in IdsByName(resources) && IdsByName(resources)[name] == resources[j].id
  {
    var n := |resources| - 1;
    if j < n {
      var init := resources[..n];
      assert resources[n].name != name;
      assert IsLastNamed(init, j, name) by {
        forall k | j < k < n ensures init[k].name != name {
          assert init[k] == resources[k];
        }
      }
      IdsByNameLastWins(init, j, name);
    }
  }

  /** `fillExistingIds`: a file whose name is listed gets the id of the last
      resource with that name; the others keep what they had. */
  function FillExistingIds(resources: seq<WebResource>, files: seq<FileResource>): (r: seq<FileResource>)
    ensures |r| == |files|
    ensures forall i :: 0 <= i < |files| ==>
      r[i].relativeFilePath == files[i].relativeFilePath && r[i].webResourceName == files[i].webResourceName
  {
    var byName := IdsByName(resources);
    seq(|files|, i requires 0 <= i < |files| =>
      var f := files[i];
      if f.webResourceName in byName then f.(webResourceId := Some(byName[f.webResourceName])) else f)
  }

  /** What each file ends up with: the last matching id, or its old one. */
  lemma FillExistingIdsMatches(resources: seq<WebResource>, files: seq<FileResource>, i: nat, j: int)
    requires i < |files|
    ensures IsLastNamed(resources, j, files[i].webResourceName) ==>
      FillExistingIds(resources, files)[i].webResourceId == Some(resources[j].id)
    ensures (forall k :: 0 <= k < |resources| ==> resources[k].name != files[i].webResourceName) ==>
      FillExistingIds(resources, files)[i] == files[i]
  {
    var name := files[i].webResourceName;
    IdsByNameKeys(resources, name);
    if IsLastNamed(resources, j, name) {
      IdsByNameLastWins(resources, j, name);
    }
  }

  /** The resources the server-side filter keeps. */
  function FilterByPath(resources: seq<WebResource>, webResourcePath: string): (r: seq<WebResource>)
    ensures forall k :: 0 <= k < |r| ==> MatchesFilter(r[k].name, webResourcePath)
  {
    if |resources| == 0 then []
    else
      var last := resources[|resources| - 1];
      var init := FilterByPath(resources[..|resources| - 1], webResourcePath);
      if MatchesFilter(last.name, webResourcePath) then init + [last] else init
  }

  lemma {:induction false} FilterKeepsMatchingIds(resources: seq<WebResource>, webResourcePath: string, name: string)
    requires MatchesFilter(name, webResourcePath)
    ensures var f := IdsByName(FilterByPath(resources, webResourcePath));
      var m := IdsByName(resources);
      (name in f <==> name in m) && (name in m ==> f[name] == m[name])
  {
    if |resources| > 0 {
      var n := |resources| - 1;
      FilterKeepsMatchingIds(resources[..n], webResourcePath, name);
      var init := FilterByPath(resources[..n], webResourcePath);
      if MatchesFilter(resources[n].name, webResourcePath) {
        assert (init + [resources[n]])[..|init|] == init;
      }
    }
  }

  /** Listing only the resources under the web resource path loses no id a
      deployed file could receive, since every file's name is under it. */
  lemma FilterLosesNoMatch(resources: seq<WebResource>, webResourcePath: string, files: seq<FileResource>)
    requires forall i :: 0 <= i < |files| ==> MatchesFilter(files[i].webResourceName, webResourcePath)
    ensures FillExistingIds(FilterByPath(resources, webResourcePath), files) == FillExistingIds(resources, files)
  {
    forall i | 0 <= i < |files|
      ensures FillExistingIds(FilterByPath(resources, webResourcePath), files)[i] == FillExistingIds(resources, files)[i]
    {
      FilterKeepsMatchingIds(resources, webResourcePath, files[i].webResourceName);
    }
  }

  // ---------------------------------------------------------------------
  // Deploying
  // ---------------------------------------------------------------------

  /** A request to the Web API for one file. */
  datatype Request =
    | UpdateRequest(id: string, relativeFilePath: string)
    | CreationRequest(request: CreateRequest, relativeFilePath: string)

  /** The server's reply to a request: the response and, for a creation, the
      id in its body, if any. */
  datatype Reply = Reply(response: Response, replyId: Option<string>)

  /** What the deployment does, in order: requests and waits (in seconds). */
  datatype Action = Send(request: Request) | Wait(seconds: nat)

  const ChunkSize := 100
  const ChunkWait := 60

  /** The request sent for a file: an update when it has an id, otherwise a
      creation, which is not sent when the file type is unsupported. */
  function RequestsFor(webResourcePath: string, f: FileResource): seq<Action> {
    if f.webResourceId.Some? then [Send(UpdateRequest(f.webResourceId.value, f.relativeFilePath))]
    else
      match CreateRequestFor(webResourcePath, f.relativeFilePath)
      case Success(req) => [Send(CreationRequest(req, f.relativeFilePath))]
      case Failure(_) => []
  }

  /** `deployResource`: a file with an id is updated and keeps its id; a file
      without one is created and gets the id of the reply. */
  function DeployResource(webResourcePath: string, f: FileResource, server: Request -> Reply): (r: Result<FileResource>)
    ensures r.Success? ==>
      r.value.relativeFilePath == f.relativeFilePath && r.value.webResourceName == f.webResourceName
    ensures r.Success? && f.webResourceId.Some? ==> r.value == f
    ensures f.webResourceId.None? ==>
      (r.Success? <==> CreateRequestFor(webResourcePath, f.relativeFilePath).Success?
                       && Ok(server(CreationRequest(CreateRequestFor(webResourcePath, f.relativeFilePath).value, f.relativeFilePath)).response))
    ensures r.Success? && f.webResourceId.None? ==>
      r.value.webResourceId == server(CreationRequest(CreateRequestFor(webResourcePath, f.relativeFilePath).value, f.relativeFilePath)).replyId
    ensures f.webResourceId.Some? ==>
      (r.Success? <==> Ok(server(UpdateRequest(f.webResourceId.value, f.relativeFilePath)).response))
  {
    if f.webResourceId.Some? then
      match UpdateWebResource(server(UpdateRequest(f.webResourceId.value, f.relativeFilePath)).response)
      case Pass => Success(f)
      case Fail(e) => Failure(e)
    else
      match CreateRequestFor(webResourcePath, f.relativeFilePath)
      case Failure(e) => Failure(e)
      case Success(req) =>
        var reply := server(CreationRequest(req, f.relativeFilePath));
        match CreateWebResource(webResourcePath, f.relativeFilePath, reply.response, reply.replyId)
        case Success(id) => Success(f.(webResourceId := id))
        case Failure(e) => Failure(e)
  }

  /** The wait that precedes item `n`: one before the first item of every
      chunk but the first. */
  function WaitBefore(n: nat): seq<Action> {
    if n > 0 && n % ChunkSize == 0 then [Wait(ChunkWait)] else []
  }

  /** The actions for the first `n` items, in item order, with the waits
      between chunks. */
  function Schedule<T>(actions: T -> seq<Action>, items: seq<T>, n: nat): seq<Action>
    requires n <= |items|
  {
    if n == 0 then [] else Schedule(actions, items, n - 1) + WaitBefore(n - 1) + actions(items[n - 1])
  }

  /** The steps of the first `n` items all succeed. */
  predicate AllSucceed<T>(step: T -> Result<T>, items: seq<T>, n: nat)
    requires n <= |items|
  {
    forall i :: 0 <= i < n ==> step(items[i]).Success?
  }

  /** The end of the chunk that holds item `i`. */
  function ChunkEnd(i: nat, count: nat): nat {
    Min((i / ChunkSize) * ChunkSize + ChunkSize, count)
  }

  /** Item `f` of chunk `c` lies in chunk `c`. */
  lemma ChunkOfItem(f: nat, c: nat)
    requires c * ChunkSize <= f < c * ChunkSize + ChunkSize
    ensures f / ChunkSize == c
  {
  }

  /** Only the first item of a chunk is preceded by a wait. */
  lemma NoWaitInsideChunk(start: nat, j: nat)
    requires start % ChunkSize == 0 && 0 < j < ChunkSize
    ensures WaitBefore(start + j) == []
  {
    ChunkOfItem(start + j, start / ChunkSize);
  }

  /** The number of waits in a log. */
  function Waits(log: seq<Action>): nat {
    if |log| == 0 then 0 else Waits(log[..|log| - 1]) + (if log[|log| - 1].Wait? then 1 else 0)
  }

  lemma {:induction false} WaitsAppend(a: seq<Action>, b: seq<Action>)
    ensures Waits(a + b) == Waits(a) + Waits(b)
    decreases |b|
  {
    if |b| == 0 {
      assert a + b == a;
    } else {
      assert (a + b)[..|a + b| - 1] == a + b[..|b| - 1];
      WaitsAppend(a, b[..|b| - 1]);
    }
  }

  /** Crossing item `m` adds a wait exactly when `m` starts a new chunk. */
  lemma ChunkCountStep(m: nat)
    requires m > 0
    ensures (m - 1) / ChunkSize + (if m % ChunkSize == 0 then 1 else 0) == m / ChunkSize
  {
  }

  /** When the items' own actions hold no waits, the first `n` items are
      preceded by one wait per chunk after the first: `n` items in chunks of
      100 take `(n - 1) / 100` waits. */
  lemma {:induction false} ScheduleWaits<T>(actions: T -> seq<Action>, items: seq<T>, n: nat)
    requires n <= |items|
    requires forall i :: 0 <= i < |items| ==> Waits(actions(items[i])) == 0
    ensures Waits(Schedule(actions, items, n)) == if n == 0 then 0 else (n - 1) / ChunkSize
  {
    if n > 0 {
      var m := n - 1;
      ScheduleWaits(actions, items, m);
      WaitBeforeCount(m);
      ScheduleWaitsStep(Schedule(actions, items, m), WaitBefore(m), actions(items[m]), m);
    }
  }

  /** Appending item `m`'s wait and its wait-free actions to the log of the
      first `m` items. */
  lemma ScheduleWaitsStep(before: seq<Action>, wait: seq<Action>, own: seq<Action>, m: nat)
    requires Waits(before) == (if m == 0 then 0 else (m - 1) / ChunkSize)
    requires Waits(wait) == (if m > 0 && m % ChunkSize == 0 then 1 else 0)
    requires Waits(own) == 0
    ensures Waits(before + wait + own) == m / ChunkSize
  {
    WaitsAppend(before + wait, own);
    WaitsAppend(before, wait);
    if m > 0 {
      ChunkCountStep(m);
    }
  }

  /** The wait before item `m` counts once exactly when `m` starts a chunk
      after the first. */
  lemma WaitBeforeCount(m: nat)
    ensures Waits(WaitBefore(m)) == if m > 0 && m % ChunkSize == 0 then 1 else 0
  {
    if m > 0 && m % ChunkSize == 0 {
      assert WaitBefore(m)[..0] == [];
    }
  }

  /** One chunk, starting at item `start`: the wait (for every chunk but the
      first), then the items' steps in order up to the first failure, which
      `firstError` names. The log still holds every item's requests, as all
      of a chunk's requests are sent at once. */
  method RunChunk<T>(step: T -> Result<T>, actions: T -> seq<Action>, items: seq<T>,
                     start: nat, end: nat, chunk: seq<T>, done: seq<T>, log: seq<Action>)
    returns (firstError: Option<nat>, done': seq<T>, log': seq<Action>)
    requires start <= end <= |items|
    requires chunk == items[start..end]
    requires AllSucceed(step, items, start) && |done| == start
    requires forall i :: 0 <= i < start ==> done[i] == step(items[i]).value
    requires log == Schedule(actions, items, start)
    ensures log' == Schedule(actions, items, end)
    ensures firstError.None? ==>
      AllSucceed(step, items, end) && |done'| == end
      && forall i :: 0 <= i < |done'| ==> done'[i] == step(items[i]).value
    ensures firstError.Some? ==>
      (start <= firstError.value < end
       && AllSucceed(step, items, firstError.value) && step(items[firstError.value]).Failure?)
  {
    log' := LogChunk(actions, items, start, end, chunk, log);
    firstError, done' := StepChunk(step, items, start, end, chunk, done);
  }

  /** The log of one chunk: the wait (for every chunk but the first), then the
      requests of every item in order. `WaitBefore` is empty for every item
      but the first of a chunk. */
  method LogChunk<T>(actions: T -> seq<Action>, items: seq<T>, start: nat, end: nat, chunk: seq<T>, log: seq<Action>)
    returns (log': seq<Action>)
    requires start <= end <= |items|
    requires chunk == items[start..end] && log == Schedule(actions, items, start)
    ensures log' == Schedule(actions, items, end)
  {
    log' := log;
    var j := 0;
    while j < |chunk|
      invariant 0 <= j <= |chunk|
      invariant log' == Schedule(actions, items, start + j)
    {
      assert items[start + j] == chunk[j];
      log' := log' + WaitBefore(start + j) + actions(chunk[j]);
      j := j + 1;
    }
  }

  /** The steps of one chunk, in order, stopping at the first item whose
      step failed; `firstError` names that item. */
  method StepChunk<T>(step: T -> Result<T>, items: seq<T>, start: nat, end: nat, chunk: seq<T>, done: seq<T>)
    returns (firstError: Option<nat>, done': seq<T>)
    requires start <= end <= |items| && chunk == items[start..end]
    requires AllSucceed(step, items, start) && |done| == start
    requires forall i :: 0 <= i < start ==> done[i] == step(items[i]).value
    ensures firstError.None? ==>
      AllSucceed(step, items, end) && |done'| == end
      && forall i :: 0 <= i < |done'| ==> done'[i] == step(items[i]).value
    ensures firstError.Some? ==>
      (start <= firstError.value < end
       && AllSucceed(step, items, firstError.value) && step(items[firstError.value]).Failure?)
  {
    firstError := None;
    done' := done;
    var j := 0;
    while j < |chunk| && firstError.None?
      invariant 0 <= j <= |chunk|
      invariant firstError.None? ==> AllSucceed(step, items, start + j) && |done'| == start + j
      invariant firstError.None? ==> forall i :: 0 <= i < |done'| ==> done'[i] == step(items[i]).value
      invariant firstError.Some? ==>
        (start <= firstError.value < start + j
         && AllSucceed(step, items, firstError.value) && step(items[firstError.value]).Failure?)
    {
      assert items[start + j] == chunk[j];
      var outcome := step(chunk[j]);
      if outcome.Success? {
        done' := done' + [outcome.value];
      } else {
        firstError := Some(start + j);
      }
      j := j + 1;
    }
  }

  /** The chunk loop of `deploy`: chunks of 100 items, a 60-second wait before
      every chunk but the first, and no chunk after one with a failure; the
      reported failure is the first one in item order. */
  method RunInChunks<T>(step: T -> Result<T>, actions: T -> seq<Action>, items: seq<T>)
    returns (result: Result<seq<T>>, log: seq<Action>)
    ensures result.Success? <==> AllSucceed(step, items, |items|)
    ensures result.Success? ==>
      |result.value| == |items| && (forall i :: 0 <= i < |items| ==> result.value[i] == step(items[i]).value)
      && log == Schedule(actions, items, |items|)
    ensures result.Failure? ==>
      exists f :: 0 <= f < |items| && AllSucceed(step, items, f) && step(items[f]).Failure?
        && result.error == step(items[f]).error
        && ChunkEnd(f, |items|) <= |items|
        && log == Schedule(actions, items, ChunkEnd(f, |items|))
  {
    var chunks := SplitArrayToChunks(items, ChunkSize);
    var done: seq<T> := [];
    log := [];
    var c := 0;
    var start := 0;
    while c < |chunks|
      invariant 0 <= c <= |chunks|
      invariant start == c * ChunkSize
      invariant c < |chunks| ==> start < |items|
      invariant c == |chunks| ==> start >= |items|
      invariant AllSucceed(step, items, Min(start, |items|))
      invariant |done| == Min(start, |items|)
      invariant forall i :: 0 <= i < |done| ==> done[i] == step(items[i]).value
      invariant log == Schedule(actions, items, Min(start, |items|))
    {
      var end := Min(start + ChunkSize, |items|);
      assert chunks[c] == items[start..end];
      var firstError;
      firstError, done, log := RunChunk(step, actions, items, start, end, chunks[c], done, log);
      if firstError.Some? {
        var f := firstError.value;
        ChunkOfItem(f, c);
        assert ChunkEnd(f, |items|) == end;
        assert AllSucceed(step, items, f) && step(items[f]).Failure?;
        result := Failure(step(items[f]).error);
        assert 0 <= f < |items| && AllSucceed(step, items, f) && step(items[f]).Failure?
          && result.error == step(items[f]).error && ChunkEnd(f, |items|) <= |items|
          && log == Schedule(actions, items, ChunkEnd(f, |items|));
        return;
      }
      c := c + 1;
      start := start + ChunkSize;
    }
    result := Success(done);
  }

  function DeployStep(webResourcePath: string, server: Request -> Reply): FileResource -> Result<FileResource> {
    f => DeployResource(webResourcePath, f, server)
  }

  function DeployActions(webResourcePath: string): FileResource -> seq<Action> {
    f => RequestsFor(webResourcePath, f)
  }

  /** The deploy steps of the first `n` files all succeed. */
  predicate AllDeploy(webResourcePath: string, files: seq<FileResource>, server: Request -> Reply, n: nat)
    requires n <= |files|
  {
    AllSucceed(DeployStep(webResourcePath, server), files, n)
  }

  /** The requests for the first `n` files, with the waits between chunks. */
  function ActionsUpTo(webResourcePath: string, files: seq<FileResource>, n: nat): seq<Action>
    requires n <= |files|
  {
    Schedule(DeployActions(webResourcePath), files, n)
  }

  /** A deployment of `n` files waits 60 seconds once before every chunk of
      100 but the first, and nowhere else. */
  lemma DeployWaits(webResourcePath: string, files: seq<FileResource>, n: nat)
    requires n <= |files|
    ensures Waits(ActionsUpTo(webResourcePath, files, n)) == if n == 0 then 0 else (n - 1) / ChunkSize
  {
    var actions := DeployActions(webResourcePath);
    forall i | 0 <= i < |files|
      ensures Waits(actions(files[i])) == 0
    {
      var a := actions(files[i]);
      assert |a| <= 1 && (|a| == 1 ==> a[0].Send?);
      if |a| == 1 {
        assert a[..0] == [];
      }
    }
    ScheduleWaits(actions, files, n);
  }

  /** The files after a deployment in which every step succeeded. */
  function Deployed(webResourcePath: string, files: seq<FileResource>, server: Request -> Reply): (r: seq<FileResource>)
    requires AllDeploy(webResourcePath, files, server, |files|)
    ensures |r| == |files|
    ensures forall i :: 0 <= i < |files| ==> r[i] == DeployResource(webResourcePath, files[i], server).value
  {
    seq(|files|, i requires 0 <= i < |files| && AllDeploy(webResourcePath, files, server, |files|) =>
      DeployResource(webResourcePath, files[i], server).value)
  }

  /** `deploy`: every file is updated or created, chunk by chunk. */
  method Deploy(webResourcePath: string, files: seq<FileResource>, server: Request -> Reply)
    returns (result: Result<seq<FileResource>>, log: seq<Action>)
    ensures result.Success? <==> AllDeploy(webResourcePath, files, server, |files|)
    ensures result.Success? ==>
      result.value == Deployed(webResourcePath, files, server) && log == ActionsUpTo(webResourcePath, files, |files|)
    ensures result.Failure? ==>
      exists f :: 0 <= f < |files| && AllDeploy(webResourcePath, files, server, f)
        && DeployResource(webResourcePath, files[f], server).Failure?
        && result.error == DeployResource(webResourcePath, files[f], server).error
        && ChunkEnd(f, |files|) <= |files|
        && log == ActionsUpTo(webResourcePath, files, ChunkEnd(f, |files|))
  {
    result, log := RunInChunks(DeployStep(webResourcePath, server), DeployActions(webResourcePath), files);
    if result.Success? {
      assert result.value == Deployed(webResourcePath, files, server);
    }
  }

  // ---------------------------------------------------------------------
  // Checking and publishing
  // ---------------------------------------------------------------------

  function NotFilled(name: string): string {
    "Web resource id for " + name + " is not filled."
  }

  /** `assertAllIdsAreFilled`: the first file without an id is reported. */
  function AssertAllIdsAreFilled(files: seq<FileResource>): (r: Outcome)
    ensures r.Pass? <==> forall i :: 0 <= i < |files| ==> files[i].webResourceId.Some?
    ensures r.Fail? ==>
      exists i :: 0 <= i < |files| && files[i].webResourceId.None?
        && (forall j :: 0 <= j < i ==> files[j].webResourceId.Some?)
        && r.error == NotFilled(files[i].webResourceName)
  {
    if |files| == 0 then Pass
    else if files[0].webResourceId.None? then Fail(NotFilled(files[0].webResourceName))
    else
      var r := AssertAllIdsAreFilled(files[1..]);
      assert forall i :: 1 <= i < |files| ==> files[i] == files[1..][i - 1];
      r
  }

  /** Every file has an id after a successful deployment, provided each
      creation reply carried one. */
  lemma IdsFilledAfterDeploy(webResourcePath: string, files: seq<FileResource>, server: Request -> Reply)
    requires AllDeploy(webResourcePath, files, server, |files|)
    requires forall i :: 0 <= i < |files| && files[i].webResourceId.None? ==>
      server(CreationRequest(CreateRequestFor(webResourcePath, files[i].relativeFilePath).value, files[i].relativeFilePath)).replyId.Some?
    ensures AssertAllIdsAreFilled(Deployed(webResourcePath, files, server)) == Pass
  {
    var d := Deployed(webResourcePath, files, server);
    forall i | 0 <= i < |d|
      ensures d[i].webResourceId.Some?
    {
      assert d[i] == DeployResource(webResourcePath, files[i], server).value;
    }
  }

  /** A file whose creation reply has no id is reported after deployment. */
  lemma MissingReplyIdReported(webResourcePath: string, files: seq<FileResource>, server: Request -> Reply, i: nat)
    requires AllDeploy(webResourcePath, files, server, |files|)
    requires i < |files| && files[i].webResourceId.None?
    requires server(CreationRequest(CreateRequestFor(webResourcePath, files[i].relativeFilePath).value, files[i].relativeFilePath)).replyId.None?
    ensures AssertAllIdsAreFilled(Deployed(webResourcePath, files, server)).Fail?
  {
    assert Deployed(webResourcePath, files, server)[i] == DeployResource(webResourcePath, files[i], server).value;
  }

  /** The ids handed to `publishWebResources`: one per file, in file order. */
  function PublishIds(files: seq<FileResource>): (ids: seq<string>)
    requires forall i :: 0 <= i < |files| ==> files[i].webResourceId.Some?
    ensures |ids| == |files|
    ensures forall i :: 0 <= i < |files| ==> Some(ids[i]) == files[i].webResourceId
  {
    seq(|files|, i requires 0 <= i < |files| && files[i].webResourceId.Some? => files[i].webResourceId.value)
  }

  // ---------------------------------------------------------------------
  // The executor
  // ---------------------------------------------------------------------

  /** An option value passed to the build executor. */
  datatype OptionValue = Flag(flag: bool) | Text(text: string)

  /** The build receives the caller's build target options with `watch`
      forced to false. */
  function BuildTargetOptions(callerOptions: map<string, OptionValue>): (r: map<string, OptionValue>)
    ensures "watch" in r && r["watch"] == Flag(false)
    ensures r.Keys == callerOptions.Keys + {"watch"}
    ensures forall k :: k in callerOptions && k != "watch" ==> r[k] == callerOptions[k]
  {
    callerOptions["watch" := Flag(false)]
  }

  datatype PublishOptions = PublishOptions(webResourcePath: string, buildTargetOptions: map<string, OptionValue>)

  /** What the executor meets: the build's yielded results, the resolved
      web resource collection address, the listing's pages, the build output
      folder, the server's replies to deploy requests and to the publish
      request. */
  datatype PublishEnvironment = PublishEnvironment(
    buildResults: seq<BuildResult>,
    setUrl: string,
    pages: seq<Page>,
    dist: seq<Entry>,
    server: Request -> Reply,
    publishResponse: Response)

  /** The observable steps of a run, in order. */
  datatype Effect =
    | BuildStarted(options: map<string, OptionValue>)
    | CredentialsRequested
    | ResourcesListed(urls: seq<string>)
    | FilesEnumerated(files: seq<FileResource>)
    | Deployment(actions: seq<Action>)
    | PublishRequested(parameterXml: string)

  /** How a run ends: the build result returned, an error thrown, or the
      given pages ran out during the listing. */
  datatype RunOutcome = Returned(build: BuildResult) | Threw(error: string) | PagesExhausted

  /** The files as the listing leaves them, ready to deploy. */
  function FilesWithIds(options: PublishOptions, env: PublishEnvironment, resources: seq<WebResource>): seq<FileResource> {
    FillExistingIds(resources, ListFilesToDeploy(options.webResourcePath, GetFilesFromFolder(env.dist)))
  }

  /** Every stage of a run succeeds: the build, the listing, every deploy
      step, the id check and the publish request. */
  predicate PublishSucceeds(options: PublishOptions, env: PublishEnvironment) {
    RunBuild(env.buildResults).success
    && ListFrom(env.pages).Listed?
    && var files := FilesWithIds(options, env, ListFrom(env.pages).resources);
       AllDeploy(options.webResourcePath, files, env.server, |files|)
       && AssertAllIdsAreFilled(Deployed(options.webResourcePath, files, env.server)).Pass?
       && Ok(env.publishResponse)
  }

  /** The error a failing end of a run throws: the first failing deploy
      step's, else the id check's, else the publish reply's. */
  predicate ThrowsEndError(webResourcePath: string, files: seq<FileResource>, server: Request -> Reply,
                           publishResponse: Response, r: RunOutcome)
  {
    && (!AllDeploy(webResourcePath, files, server, |files|) ==>
          exists f :: 0 <= f < |files| && AllDeploy(webResourcePath, files, server, f)
            && DeployResource(webResourcePath, files[f], server).Failure?
            && r == Threw(DeployResource(webResourcePath, files[f], server).error))
    && (AllDeploy(webResourcePath, files, server, |files|) ==>
          var check := AssertAllIdsAreFilled(Deployed(webResourcePath, files, server));
          && (check.Fail? ==> r == Threw(check.error))
          && (check.Pass? && !Ok(publishResponse) ==> r == Threw(PublishWebResources(publishResponse).error)))
  }

  /** The executor: build first; on a failed build return it with nothing
      else done; otherwise list, match, deploy, check and publish. */
  method RunPublish(options: PublishOptions, env: PublishEnvironment) returns (r: RunOutcome, effects: seq<Effect>)
    ensures |effects| > 0 && effects[0] == BuildStarted(BuildTargetOptions(options.buildTargetOptions))
    ensures !RunBuild(env.buildResults).success ==> r == Returned(RunBuild(env.buildResults)) && |effects| == 1
    ensures r == Returned(Succeeded) <==> PublishSucceeds(options, env)
    ensures r == Returned(Succeeded) ==>
      var files := FilesWithIds(options, env, ListFrom(env.pages).resources);
      effects[|effects| - 1]
        == PublishRequested(CreateParameterXml(PublishIds(Deployed(options.webResourcePath, files, env.server))))
    ensures r.Returned? ==> r.build == RunBuild(env.buildResults)
    ensures r.PagesExhausted? <==> RunBuild(env.buildResults).success && ListFrom(env.pages).Incomplete?
    ensures RunBuild(env.buildResults).success && ListFrom(env.pages).ListFailed? ==>
      r == Threw(ListFrom(env.pages).error)
    ensures RunBuild(env.buildResults).success && ListFrom(env.pages).Listed? ==>
      ThrowsEndError(options.webResourcePath, FilesWithIds(options, env, ListFrom(env.pages).resources),
                     env.server, env.publishResponse, r)
  {
    effects := [BuildStarted(BuildTargetOptions(options.buildTargetOptions))];
    var build := RunBuild(env.buildResults);
    if !build.success {
      return Returned(build), effects;
    }
    effects := effects + [CredentialsRequested];
    var listing, urls := ListWebResources(env.setUrl, options.webResourcePath, env.pages);
    effects := effects + [ResourcesListed(urls)];
    if listing.Incomplete? {
      return PagesExhausted, effects;
    }
    if listing.ListFailed? {
      return Threw(listing.error), effects;
    }
    var files := FilesWithIds(options, env, listing.resources);
    effects := effects + [FilesEnumerated(files)];
    var tail;
    r, tail := DeployAndPublish(options.webResourcePath, files, env.server, env.publishResponse);
    effects := effects + tail;
  }

  /** The end of a run, once the files carry their listed ids: deploy, check
      that every file has an id, then publish the ids in file order. */
  method DeployAndPublish(webResourcePath: string, files: seq<FileResource>, server: Request -> Reply, publishResponse: Response)
    returns (r: RunOutcome, effects: seq<Effect>)
    ensures |effects| > 0 && !r.PagesExhausted?
    ensures r.Returned? ==> r == Returned(Succeeded)
    ensures r == Returned(Succeeded) <==>
      AllDeploy(webResourcePath, files, server, |files|)
      && AssertAllIdsAreFilled(Deployed(webResourcePath, files, server)).Pass?
      && Ok(publishResponse)
    ensures r == Returned(Succeeded) ==>
      effects[|effects| - 1] == PublishRequested(CreateParameterXml(PublishIds(Deployed(webResourcePath, files, server))))
    ensures ThrowsEndError(webResourcePath, files, server, publishResponse, r)
  {
    var deployed, log := Deploy(webResourcePath, files, server);
    effects := [Deployment(log)];
    if deployed.Failure? {
      return Threw(deployed.error), effects;
    }
    var check := AssertAllIdsAreFilled(deployed.value);
    if check.Fail? {
      return Threw(check.error), effects;
    }
    var xml := CreateParameterXml(PublishIds(deployed.value));
    effects := effects + [PublishRequested(xml)];
    var published := PublishWebResources(publishResponse);
    if published.Fail? {
      return Threw(published.error), effects;
    }
    r := Returned(Succeeded);
  }
}

=== FILE: publish_utils.dfy ===
/** Helpers of the publish executor: splitting a list into chunks, and the
    depth-first walk that lists the files of a build output folder. */
module PublishUtils {

  // ---------------------------------------------------------------------
  // splitArrayToChunks
  // ---------------------------------------------------------------------

  function Min(a: int, b: int): int {
    if a <= b then a else b
  }

  function Concat<T>(chunks: seq<seq<T>>): seq<T> {
    if |chunks| == 0 then [] else Concat(chunks[..|chunks| - 1]) + chunks[|chunks| - 1]
  }

  /** Chunk `k` of `a`: the slice starting at `k * size`, cut at the end of `a`. */
  function ChunkAt<T>(a: seq<T>, size: nat, k: nat): seq<T>
    requires k * size <= |a|
  {
    a[k * size .. Min(k * size + size, |a|)]
  }

  lemma MulLess(x: int, y: int, c: int)
    requires c > 0 && x * c < y * c
    ensures x < y
  {
    assert x * c - y * c == (x - y) * c;
  }

  /** `n` chunks of `size` cover `len` items exactly when `n` is the rounded
      up quotient. */
  lemma CeilingCount(n: nat, size: nat, len: nat)
    requires size > 0 && (n - 1) * size < len <= n * size
    ensures n == (len + size - 1) / size
  {
    var q := (len + size - 1) / size;
    var m := (len + size - 1) % size;
    assert len + size - 1 == q * size + m;
    assert n * size < (q + 1) * size;
    MulLess(n, q + 1, size);
    assert q * size < (n + 1) * size;
    MulLess(q, n + 1, size);
  }

  /** Every chunk so far is the slice `ChunkAt` names. */
  ghost predicate Chunked<T>(a: seq<T>, size: nat, chunks: seq<seq<T>>) {
    forall k :: 0 <= k < |chunks| ==> k * size <= |a| && chunks[k] == ChunkAt(a, size, k)
  }

  lemma MulSucc(n: nat, c: nat)
    ensures (n + 1) * c == n * c + c
  {
  }

  lemma MulMono(x: nat, y: nat, c: nat)
    requires x <= y
    ensures x * c <= y * c
  {
  }

  /** One more slice keeps the chunks concatenating to a prefix of `a`. */
  lemma AppendSlice<T>(a: seq<T>, chunks: seq<seq<T>>, i: nat, end: nat)
    requires i <= end <= |a| && Concat(chunks) == a[..i]
    ensures Concat(chunks + [a[i..end]]) == a[..end]
  {
    var next := chunks + [a[i..end]];
    assert next[..|chunks|] == chunks;
    assert a[..end] == a[..i] + a[i..end];
  }

  /** The slice at `|chunks| * size` is the next chunk. */
  lemma AppendChunk<T>(a: seq<T>, size: nat, chunks: seq<seq<T>>, i: nat)
    requires i == |chunks| * size && i <= |a| && Chunked(a, size, chunks)
    ensures Chunked(a, size, chunks + [a[i..Min(i + size, |a|)]])
  {
    var next := chunks + [a[i..Min(i + size, |a|)]];
    forall k | 0 <= k < |next|
      ensures k * size <= |a| && next[k] == ChunkAt(a, size, k)
    {
      if k < |chunks| {
        assert next[k] == chunks[k];
      } else {
        assert k * size == i;
      }
    }
  }

  /** All chunks but the last are full; the last holds at least one item. */
  lemma ChunkLengths<T>(a: seq<T>, size: nat, chunks: seq<seq<T>>)
    requires size > 0 && |chunks| > 0 && Chunked(a, size, chunks)
    requires (|chunks| - 1) * size < |a|
    ensures forall k :: 0 <= k < |chunks| - 1 ==> |chunks[k]| == size
    ensures 0 < |chunks[|chunks| - 1]| <= size
  {
    var n := |chunks|;
    forall k | 0 <= k < n - 1
      ensures |chunks[k]| == size
    {
      InnerChunkFull(a, size, k, n);
    }
    assert chunks[n - 1] == ChunkAt(a, size, n - 1);
  }

  /** A chunk before the last starts a full `size` before the end of `a`. */
  lemma InnerChunkFull<T>(a: seq<T>, size: nat, k: nat, n: nat)
    requires k < n - 1 && (n - 1) * size < |a|
    ensures k * size <= |a| && |ChunkAt(a, size, k)| == size
  {
    MulMono(k + 1, n - 1, size);
    MulSucc(k, size);
  }

  /** The loop state of `splitArrayToChunks` after `|chunks|` slices. */
  ghost predicate SplitSoFar<T>(a: seq<T>, size: nat, chunks: seq<seq<T>>, i: nat) {
    size > 0 && i == |chunks| * size && (|chunks| > 0 ==> i - size < |a|)
    && Concat(chunks) == a[..Min(i, |a|)] && Chunked(a, size, chunks)
  }

  lemma SplitStep<T>(a: seq<T>, size: nat, chunks: seq<seq<T>>, i: nat)
    requires SplitSoFar(a, size, chunks, i) && i < |a|
    ensures SplitSoFar(a, size, chunks + [a[i..Min(i + size, |a|)]], i + size)
  {
    AppendSlice(a, chunks, i, Min(i + size, |a|));
    AppendChunk(a, size, chunks, i);
    MulSucc(|chunks|, size);
  }

  /** Once the slices reach the end of a non-empty `a`, they are its chunks. */
  lemma SplitDone<T>(a: seq<T>, size: nat, chunks: seq<seq<T>>, i: nat)
    requires SplitSoFar(a, size, chunks, i) && i >= |a| > 0
    ensures Concat(chunks) == a && |chunks| > 0
    ensures forall k :: 0 <= k < |chunks| - 1 ==> |chunks[k]| == size
    ensures 0 < |chunks[|chunks| - 1]| <= size
    ensures |chunks| == (|a| + size - 1) / size
  {
    assert a[..|a|] == a;
    MulSucc(|chunks| - 1, size);
    ChunkLengths(a, size, chunks);
    CeilingCount(|chunks|, size, |a|);
  }

  /** `splitArrayToChunks`: consecutive slices of `chunkSize` items, the last
      one possibly shorter. A non-positive size never advances the loop, so
      the source terminates only on an empty array. */
  method SplitArrayToChunks<T>(a: seq<T>, chunkSize: int) returns (chunks: seq<seq<T>>)
    requires chunkSize > 0 || |a| == 0
    ensures Concat(chunks) == a
    ensures forall k :: 0 <= k < |chunks| - 1 ==> |chunks[k]| == chunkSize
    ensures |chunks| > 0 ==> 0 < |chunks[|chunks| - 1]| <= chunkSize
    ensures |a| == 0 ==> chunks == []
    ensures |a| > 0 ==> |chunks| == (|a| + chunkSize - 1) / chunkSize
    ensures forall k :: 0 <= k < |chunks| ==> k * chunkSize <= |a| && chunks[k] == ChunkAt(a, chunkSize, k)
  {
    chunks := [];
    if |a| == 0 {
      return;
    }
    var size: nat := chunkSize;
    var i := 0;
    while i < |a|
      invariant SplitSoFar(a, size, chunks, i)
      decreases |a| - i
    {
      SplitStep(a, size, chunks, i);
      chunks := chunks + [a[i .. Min(i + size, |a|)]];
      i := i + size;
    }
    SplitDone(a, size, chunks, i);
  }

  // ---------------------------------------------------------------------
  // getFilesFromFolderWithRelativePath
  // ---------------------------------------------------------------------

  /** An in-memory folder: each entry is a file or a sub-folder with its own
      entries, in the order the directory listing returns them. */
  datatype Entry = File(name: string) | Directory(name: string, entries: seq<Entry>)

  /** `join(prefix, name)` for a plain name: the empty prefix adds nothing. */
  function Join(prefix: string, name: string): string {
    if prefix == "" then name else prefix + "/" + name
  }

  /** The walk: depth first, in listing order; a folder contributes the
      files beneath it, with its name added to their prefix. */
  function Walk(entries: seq<Entry>, prefix: string): seq<string>
    decreases entries
  {
    if |entries| == 0 then [] else WalkEntry(entries[0], prefix) + Walk(entries[1..], prefix)
  }

  function WalkEntry(e: Entry, prefix: string): seq<string>
    decreases e
  {
    match e
    case File(name) => [Join(prefix, name)]
    case Directory(name, sub) => Walk(sub, Join(prefix, name))
  }

  /** `getFilesFromFolder`: the walk of the top folder with an empty prefix. */
  function GetFilesFromFolder(entries: seq<Entry>): seq<string> {
    Walk(entries, "")
  }

  /** The walk of a listing is the walk of its parts, one after the other. */
  lemma {:induction false} WalkAppend(a: seq<Entry>, b: seq<Entry>, prefix: string)
    ensures Walk(a + b, prefix) == Walk(a, prefix) + Walk(b, prefix)
  {
    if |a| > 0 {
      assert (a + b)[0] == a[0];
      assert (a + b)[1..] == a[1..] + b;
      WalkAppend(a[1..], b, prefix);
    } else {
      assert a + b == b;
    }
  }

  function CountFiles(entries: seq<Entry>): nat
    decreases entries
  {
    if |entries| == 0 then 0 else CountEntry(entries[0]) + CountFiles(entries[1..])
  }

  function CountEntry(e: Entry): nat
    decreases e
  {
    match e
    case File(_) => 1
    case Directory(_, sub) => CountFiles(sub)
  }

  /** One path per file, and none for a folder. */
  lemma {:induction false} WalkCount(entries: seq<Entry>, prefix: string)
    ensures |Walk(entries, prefix)| == CountFiles(entries)
    decreases entries
  {
    if |entries| > 0 {
      WalkEntryCount(entries[0], prefix);
      WalkCount(entries[1..], prefix);
    }
  }

  lemma {:induction false} WalkEntryCount(e: Entry, prefix: string)
    ensures |WalkEntry(e, prefix)| == CountEntry(e)
    decreases e
  {
    match e
    case File(_) =>
    case Directory(name, sub) => WalkCount(sub, Join(prefix, name));
  }

  /** The names from a folder down to a file, as a path of components. */
  predicate FileAt(entries: seq<Entry>, names: seq<string>)
    decreases entries
  {
    exists i :: 0 <= i < |entries| && EntryHasFile(entries[i], names)
  }

  predicate EntryHasFile(e: Entry, names: seq<string>)
    decreases e
  {
    |names| > 0 && e.name == names[0]
    && match e
       case File(_) => |names| == 1
       case Directory(_, sub) => FileAt(sub, names[1..])
  }

  function JoinAll(prefix: string, names: seq<string>): string
    decreases |names|
  {
    if |names| == 0 then prefix else JoinAll(Join(prefix, names[0]), names[1..])
  }

  lemma {:induction false} WalkMember(entries: seq<Entry>, prefix: string, i: nat)
    requires i < |entries|
    ensures forall x :: x in WalkEntry(entries[i], prefix) ==> x in Walk(entries, prefix)
    decreases i
  {
    if i > 0 {
      WalkMember(entries[1..], prefix, i - 1);
      assert entries[1..][i - 1] == entries[i];
    }
  }

  /** Every file is listed, at the path made of its folders' names. */
  lemma {:induction false} WalkComplete(entries: seq<Entry>, names: seq<string>, prefix: string)
    requires FileAt(entries, names)
    ensures JoinAll(prefix, names) in Walk(entries, prefix)
    decreases entries
  {
    var i :| 0 <= i < |entries| && EntryHasFile(entries[i], names);
    WalkEntryComplete(entries[i], names, prefix);
    WalkMember(entries, prefix, i);
  }

  lemma {:induction false} WalkEntryComplete(e: Entry, names: seq<string>, prefix: string)
    requires EntryHasFile(e, names)
    ensures JoinAll(prefix, names) in WalkEntry(e, prefix)
    decreases e
  {
    match e
    case File(name) =>
      assert JoinAll(prefix, names) == JoinAll(Join(prefix, name), []) == Join(prefix, name);
    case Directory(name, sub) =>
      WalkComplete(sub, names[1..], Join(prefix, name));
  }

  /** Only files are listed: every listed path is the path of a file. */
  lemma {:induction false} WalkSound(entries: seq<Entry>, prefix: string, x: string)
    requires x in Walk(entries, prefix)
    ensures exists names :: FileAt(entries, names) && x == JoinAll(prefix, names)
    decreases entries
  {
    if x in WalkEntry(entries[0], prefix) {
      var names := WalkEntrySound(entries[0], prefix, x);
      assert EntryHasFile(entries[0], names);
    } else {
      assert x in Walk(entries[1..], prefix);
      WalkSound(entries[1..], prefix, x);
      var names :| FileAt(entries[1..], names) && x == JoinAll(prefix, names);
      var j :| 0 <= j < |entries[1..]| && EntryHasFile(entries[1..][j], names);
      assert EntryHasFile(entries[j + 1], names);
    }
  }

  lemma {:induction false} WalkEntrySound(e: Entry, prefix: string, x: string) returns (names: seq<string>)
    requires x in WalkEntry(e, prefix)
    ensures EntryHasFile(e, names) && x == JoinAll(prefix, names)
    decreases e
  {
    match e
    case File(name) =>
      names := [name];
      assert JoinAll(prefix, names) == JoinAll(Join(prefix, name), []);
    case Directory(name, sub) =>
      WalkSound(sub, Join(prefix, name), x);
      var rest :| FileAt(sub, rest) && x == JoinAll(Join(prefix, name), rest);
      names := [name] + rest;
      assert names[1..] == rest;
  }

  /** The folder of the helper's own unit test: two files and a sub-folder
      holding one more. */
  lemma ExampleFolder()
    ensures GetFilesFromFolder([File("file.svg"), File("file.xxx"), Directory("subfolder", [File("file.svg")])])
         == ["file.svg", "file.xxx", "subfolder/file.svg"]
  {
    var sub := [File("file.svg")];
    assert Join("subfolder", "file.svg") == "subfolder/file.svg";
    assert sub[1..] == [];
    assert Walk(sub, "subfolder") == WalkEntry(File("file.svg"), "subfolder") + Walk([], "subfolder");
    var top := [File("file.svg"), File("file.xxx"), Directory("subfolder", sub)];
    assert top[1..][1..] == [Directory("subfolder", sub)];
  }
}

=== FILE: solution_version.dfy ===
/** The conversion of an npm-style version string into the four-part version a
    Dataverse solution requires (`manifestVersionToSolutionVersion` of the PCF
    package executor). Two anchored regular expressions are recognised:

      short  ^(\d+\.\d+\.\d+)(-\w+)?$        ->  $1.<release counter>
      long   ^(\d+\.\d+\.\d+)(-\w+)(\.\d+)$  ->  $1$3

    The long form is tried first; anything matching neither is kept as it is.
    The release counter is the `RELEASE_COUNTER` environment variable, "0" when
    it is unset. */
module SolutionVersion {
  import opened Wrappers
  import opened JsStrings

  /** `\w` of a JavaScript regular expression without the `u` flag. */
  predicate IsWordChar(c: char) {
    ('a' <= c <= 'z') || ('A' <= c <= 'Z') || IsDigit(c) || c == '_'
  }

  /** `\d+` */
  predicate IsDigitRun(s: string) {
    |s| > 0 && AllDigits(s)
  }

  /** `\w+` */
  predicate IsWordRun(s: string) {
    |s| > 0 && forall i :: 0 <= i < |s| ==> IsWordChar(s[i])
  }

  /** `\d+\.\d+\.\d+` matching the whole of `s`. As digits contain no dot, the
      two dots are the first two dots of `s`. */
  predicate IsTriple(s: string) {
    var i := IndexOf(s, ".");
    i >= 0 && IsDigitRun(s[..i]) &&
    var rest := s[i + 1..];
    var j := IndexOf(rest, ".");
    j >= 0 && IsDigitRun(rest[..j]) && IsDigitRun(rest[j + 1..])
  }

  lemma DigitRunHasNo(s: string, c: char)
    requires AllDigits(s) && !IsDigit(c)
    ensures c !in s
  {
  }

  /** Three digit runs joined by dots form a triple. */
  lemma TripleOf(a: string, b: string, c: string)
    requires IsDigitRun(a) && IsDigitRun(b) && IsDigitRun(c)
    ensures IsTriple(a + "." + b + "." + c)
  {
    var s := a + "." + b + "." + c;
    DigitRunHasNo(a, '.');
    assert s == a + ['.'] + (b + "." + c);
    IndexOfFirstChar(a, '.', b + "." + c);
    assert s[..|a|] == a;
    var rest := s[|a| + 1..];
    assert rest == b + ['.'] + c;
    DigitRunHasNo(b, '.');
    IndexOfFirstChar(b, '.', c);
    assert rest[..|b|] == b;
    assert rest[|b| + 1..] == c;
  }

  /** A triple is made of digits and dots only, so it has no `-`. */
  lemma TripleHasNoDash(s: string)
    requires IsTriple(s)
    ensures '-' !in s
  {
    var i := IndexOf(s, ".");
    var rest := s[i + 1..];
    var j := IndexOf(rest, ".");
    DigitRunHasNo(s[..i], '-');
    DigitRunHasNo(rest[..j], '-');
    DigitRunHasNo(rest[j + 1..], '-');
    assert '-' !in rest by {
      Rejoin(rest, j, '.');
    }
    Rejoin(s, i, '.');
  }

  /** The groups of a match of the long pattern: `$1`, the word after the dash,
      and the digits of `$3`. */
  datatype LongMatch = LongMatch(core: string, tag: string, build: string)

  /** A string is what precedes position `k`, its character there, and what follows. */
  lemma Rejoin(s: string, k: int, c: char)
    requires 0 <= k < |s| && s[k] == c
    ensures s == s[..k] + [c] + s[k + 1..]
  {
  }

  /** The long form put back together around its first dash and the first dot
      after it. */
  lemma RejoinLong(s: string, k: int, m: int)
    requires 0 <= k < |s| && s[k] == '-' && 0 <= m < |s| - k - 1 && s[k + 1..][m] == '.'
    ensures s == s[..k] + "-" + s[k + 1..][..m] + "." + s[k + 1..][m + 1..]
  {
    var rest := s[k + 1..];
    Rejoin(rest, m, '.');
    Rejoin(s, k, '-');
    assert s == s[..k] + "-" + (rest[..m] + "." + rest[m + 1..]);
  }

  /** Matching the long pattern. The dash ending `$1` is the first dash of the
      string and, as `\w` has no dot, the dot starting `$3` is the first dot
      after it. */
  function MatchLong(s: string): (r: Option<LongMatch>)
    ensures r.Some? ==>
      && s == r.value.core + "-" + r.value.tag + "." + r.value.build
      && IsTriple(r.value.core) && IsWordRun(r.value.tag) && IsDigitRun(r.value.build)
  {
    var k := IndexOf(s, "-");
    if k < 0 then None
    else
      var rest := s[k + 1..];
      var m := IndexOf(rest, ".");
      if m < 0 then None
      else if IsTriple(s[..k]) && IsWordRun(rest[..m]) && IsDigitRun(rest[m + 1..]) then
        RejoinLong(s, k, m);
        Some(LongMatch(s[..k], rest[..m], rest[m + 1..]))
      else None
  }

  /** Matching the short pattern; the result is `$1`. */
  function MatchShort(s: string): (r: Option<string>)
    ensures r.Some? ==>
      IsTriple(r.value) && (s == r.value || (exists w :: IsWordRun(w) && s == r.value + "-" + w))
  {
    var k := IndexOf(s, "-");
    if k < 0 then
      if IsTriple(s) then Some(s) else None
    else if IsTriple(s[..k]) && IsWordRun(s[k + 1..]) then
      assert s == s[..k] + "-" + s[k + 1..] by {
        assert s[k..k + 1] == "-";
        assert s == s[..k] + s[k..k + 1] + s[k + 1..];
      }
      Some(s[..k])
    else None
  }

  lemma WordRunChars(w: string)
    requires IsWordRun(w)
    ensures '.' !in w && '-' !in w
  {
    forall i | 0 <= i < |w|
      ensures w[i] != '.' && w[i] != '-'
    {
      assert IsWordChar(w[i]);
    }
  }

  /** `manifestVersionToSolutionVersion(manifestVersion)` with the value of
      `RELEASE_COUNTER` (`None` when the variable is unset). */
  function ToSolutionVersion(manifestVersion: string, releaseCounter: Option<string>): (r: string)
    ensures r != manifestVersion ==>
      exists core :: IsTriple(core) && StartsWith(manifestVersion, core) && StartsWith(r, core + ".")
  {
    var counter := releaseCounter.GetOr("0");
    match MatchLong(manifestVersion)
    case Some(m) => m.core + "." + m.build
    case None =>
      match MatchShort(manifestVersion)
      case Some(core) => core + "." + counter
      case None => manifestVersion
  }

  /** `X.Y.Z-tag.N` becomes `X.Y.Z.N`, whatever the release counter. */
  lemma LongFormKeepsBuildNumber(core: string, tag: string, build: string, releaseCounter: Option<string>)
    requires IsTriple(core) && IsWordRun(tag) && IsDigitRun(build)
    ensures ToSolutionVersion(core + "-" + tag + "." + build, releaseCounter) == core + "." + build
  {
    var s := core + "-" + tag + "." + build;
    TripleHasNoDash(core);
    WordRunChars(tag);
    assert s == core + ['-'] + (tag + "." + build);
    IndexOfFirstChar(core, '-', tag + "." + build);
    assert s[..|core|] == core;
    var rest := s[|core| + 1..];
    assert rest == tag + ['.'] + build;
    IndexOfFirstChar(tag, '.', build);
    assert rest[..|tag|] == tag;
    assert rest[|tag| + 1..] == build;
  }

  /** `X.Y.Z` becomes `X.Y.Z.<counter>`, the counter defaulting to "0". */
  lemma ShortFormAppendsCounter(core: string, releaseCounter: Option<string>)
    requires IsTriple(core)
    ensures ToSolutionVersion(core, releaseCounter) == core + "." + releaseCounter.GetOr("0")
  {
    TripleHasNoDash(core);
    IndexOfMissingChar(core, '-');
  }

  /** `X.Y.Z-tag` drops the tag and becomes `X.Y.Z.<counter>`. */
  lemma TaggedShortFormDropsTag(core: string, tag: string, releaseCounter: Option<string>)
    requires IsTriple(core) && IsWordRun(tag)
    ensures ToSolutionVersion(core + "-" + tag, releaseCounter) == core + "." + releaseCounter.GetOr("0")
  {
    var s := core + "-" + tag;
    TripleHasNoDash(core);
    WordRunChars(tag);
    assert s == core + ['-'] + tag;
    IndexOfFirstChar(core, '-', tag);
    assert s[..|core|] == core;
    assert s[|core| + 1..] == tag;
    IndexOfMissingChar(tag, '.');
  }

  /** A string that does not start with a digit matches neither pattern and
      is returned unchanged. */
  lemma NonNumericVersionUnchanged(v: string, releaseCounter: Option<string>)
    requires |v| == 0 || !IsDigit(v[0])
    ensures ToSolutionVersion(v, releaseCounter) == v
  {
    MatchesStartWithDigit(v);
  }

  /** Every version that matches neither the long nor the short pattern,
      whatever its first character, is returned unchanged. */
  lemma NeitherPatternUnchanged(v: string, releaseCounter: Option<string>)
    requires !IsTriple(v)
    requires forall c, w :: IsTriple(c) && IsWordRun(w) ==> v != c + "-" + w
    requires forall c, t, b :: IsTriple(c) && IsWordRun(t) && IsDigitRun(b) ==> v != c + "-" + t + "." + b
    ensures ToSolutionVersion(v, releaseCounter) == v
  {
    LongMatchWitness(v);
    ShortMatchWitness(v);
  }

  /** A long match is a triple, a dash, a word tag, a dot and digits. */
  lemma LongMatchWitness(v: string)
    ensures MatchLong(v).Some? ==>
      exists c, t, b :: IsTriple(c) && IsWordRun(t) && IsDigitRun(b) && v == c + "-" + t + "." + b
  {
    if MatchLong(v).Some? {
      var m := MatchLong(v).value;
      assert IsTriple(m.core) && IsWordRun(m.tag) && IsDigitRun(m.build)
        && v == m.core + "-" + m.tag + "." + m.build;
    }
  }

  /** A short match is the whole version or a triple, a dash and a word tag. */
  lemma ShortMatchWitness(v: string)
    ensures MatchShort(v).Some? ==>
      IsTriple(v) || exists c, w :: IsTriple(c) && IsWordRun(w) && v == c + "-" + w
  {
  }

  /** A triple starts with a digit. */
  lemma TripleStartsWithDigit(s: string)
    requires IsTriple(s)
    ensures |s| > 0 && IsDigit(s[0])
  {
    var i := IndexOf(s, ".");
    assert s[..i][0] == s[0];
  }

  lemma MatchesStartWithDigit(v: string)
    ensures MatchLong(v).Some? ==> |v| > 0 && IsDigit(v[0])
    ensures MatchShort(v).Some? ==> |v| > 0 && IsDigit(v[0])
  {
    if MatchLong(v).Some? {
      var m := MatchLong(v).value;
      TripleStartsWithDigit(m.core);
      assert v[0] == m.core[0];
    }
    if MatchShort(v).Some? {
      var core := MatchShort(v).value;
      TripleStartsWithDigit(core);
      assert v[..|core|] == core;
    }
  }

  /** The plain case of the executor's tests: 1.2.3 becomes 1.2.3.0, or
      1.2.3.5 with RELEASE_COUNTER=5. */
  lemma ExampleTriple()
    ensures IsTriple("1.2.3")
  {
    TripleOf("1", "2", "3");
    assert "1.2.3" == "1" + "." + "2" + "." + "3";
  }

  lemma ExamplePlain(v: string, counter: Option<string>)
    requires v == "1.2.3"
    ensures ToSolutionVersion(v, counter) == v + "." + counter.GetOr("0")
  {
    ExampleTriple();
    ShortFormAppendsCounter(v, counter);
  }

  /** A four-part version such as 1.2.3.4 starts with a digit but matches
      neither pattern, so it is kept as it is. */
  lemma ExampleFourParts(counter: Option<string>)
    ensures ToSolutionVersion("1.2.3.4", counter) == "1.2.3.4"
  {
    FourPartsHasNoDash();
    FourPartsIsNotTriple();
  }

  lemma FourPartsHasNoDash()
    ensures IndexOf("1.2.3.4", "-") == -1
  {
    assert '-' !in "1.2.3.4";
    IndexOfMissingChar("1.2.3.4", '-');
  }

  lemma FourPartsIsNotTriple()
    ensures !IsTriple("1.2.3.4")
  {
    assert "1.2.3.4" == "1" + "." + "2.3.4";
    SplitAtFirstDot("1", "2.3.4");
    assert "2.3.4" == "2" + "." + "3.4";
    SplitAtFirstDot("2", "3.4");
    assert "3.4"[1] == '.';
  }

  /** The first dot of `x.y`, when `x` has none, separates `x` from `y`. */
  lemma SplitAtFirstDot(x: string, y: string)
    requires '.' !in x
    ensures IndexOf(x + "." + y, ".") == |x|
    ensures (x + "." + y)[..|x|] == x && (x + "." + y)[|x| + 1..] == y
  {
    IndexOfFirstChar(x, '.', y);
    assert x + "." + y == x + ['.'] + y;
  }

}

=== FILE: tree_level_definition.dfy ===
/** The hierarchy control's tree-level definition factory: a configuration
    tree (parents, child and recursive reference per level) becomes a tree of
    level definitions, each with a row template and a fetch built from the
    level's view. The view loader, the metadata loader and the fetch XML
    deserializer are pure function parameters. */
module TreeLevelDefinition {
  import opened Wrappers

  // ---------------------------------------------------------------------
  // Configuration
  // ---------------------------------------------------------------------

  /** The configuration of a level: its parents, its child and the name of
      the property that makes the entity a tree of its own. An absent parent
      list is the empty one, which is all `parents ?? []` makes of it. */
  datatype TreeConfiguration = TreeConfiguration(
    parents: seq<TreeLevelConfiguration>,
    child: Option<TreeLevelConfiguration>,
    recursive: Option<string>)

  /** A parent or child level: the referencing property, the level's view and
      the level's own configuration. */
  datatype TreeLevelConfiguration = TreeLevelConfiguration(property: string, viewId: string, tree: TreeConfiguration)

  // ---------------------------------------------------------------------
  // Views, metadata and templates
  // ---------------------------------------------------------------------

  datatype CellTemplateDefinition = CellTemplateDefinition(column: string, width: int)

  datatype ViewDefinition = ViewDefinition(entityName: string, fetchXml: string, cellTemplates: seq<CellTemplateDefinition>)

  datatype MetaEntity = MetaEntity(name: string, primaryFieldName: string, displayNames: map<string, string>)

  /** The view loader, the metadata loader (entity name and, for the row
      template, the view's columns) and the entity name the fetch XML
      deserializer reads. */
  datatype Loaders = Loaders(
    view: string -> ViewDefinition,
    meta: (string, Option<seq<string>>) -> MetaEntity,
    fetchEntity: string -> string)

  datatype CellTemplate = CellTemplate(
    dataMember: string,
    left: int,
    width: int,
    height: int,
    verticallyCentered: bool,
    anchoredLeft: bool,
    name: Option<string>)

  /** A hierarchy row template: every cell of the view, the primary cell, and
      the cells the row shows. */
  datatype RowTemplate = RowTemplate(
    name: string,
    hierarchyCellTemplates: seq<CellTemplate>,
    primaryCellTemplate: CellTemplate,
    width: int,
    height: int,
    cellTemplates: seq<CellTemplate>)

  datatype Fetch = Fetch(entityName: string, meta: MetaEntity, tag: Option<string>)

  datatype TreeLevelDefinition = TreeLevelDefinition(
    templates: seq<RowTemplate>,
    fetch: Fetch,
    parentLevels: seq<TreeLevelReference>,
    childLevel: Option<TreeLevelReference>,
    recursiveLevel: Option<string>,
    allowCreate: bool,
    allowOpen: bool)

  datatype TreeLevelReference = TreeLevelReference(referencePropertyName: string, levelDefinition: TreeLevelDefinition)

  const RowHeight := 40
  const MainFetchTag := "this is main fetch"
  /** The TypeError of reading a column of the missing first cell. */
  const NoCells := "Cannot read properties of undefined (reading 'column')"

  /** `Map.get`: the value under `key`, or undefined. */
  function Get(m: map<string, string>, key: string): (r: Option<string>)
    ensures r.Some? <==> key in m
    ensures r.Some? ==> r.value == m[key]
  {
    if key in m then Some(m[key]) else None
  }

  /** `createCellTemplate`: every cell template is at the left edge, 40
      high, as wide as its definition, vertically centred, anchored left, and
      named by its column's display name when the metadata has one. */
  function CreateCellTemplate(def: CellTemplateDefinition, meta: MetaEntity): (c: CellTemplate)
    ensures c.dataMember == def.column && c.left == 0 && c.width == def.width && c.height == 40
    ensures c.verticallyCentered && c.anchoredLeft
    ensures c.name.Some? <==> def.column in meta.displayNames
    ensures c.name.Some? ==> c.name.value == meta.displayNames[def.column]
  {
    CellTemplate(def.column, 0, def.width, RowHeight, true, true, Get(meta.displayNames, def.column))
  }

  function Columns(cells: seq<CellTemplateDefinition>): (r: seq<string>)
    ensures |r| == |cells| && forall i :: 0 <= i < |cells| ==> r[i] == cells[i].column
  {
    seq(|cells|, i requires 0 <= i < |cells| => cells[i].column)
  }

  /** `cells.find(cell => cell.column === column)`, as an index. */
  function FindColumn(cells: seq<CellTemplateDefinition>, column: string): (r: Option<nat>)
    ensures r.Some? ==> r.value < |cells| && cells[r.value].column == column
    ensures r.Some? ==> forall j :: 0 <= j < r.value ==> cells[j].column != column
    ensures r.None? ==> forall j :: 0 <= j < |cells| ==> cells[j].column != column
  {
    if |cells| == 0 then None
    else if cells[0].column == column then Some(0)
    else match FindColumn(cells[1..], column)
      case None => None
      case Some(k) => Some(k + 1)
  }

  /** The primary cell: the first cell of the primary field, else the first
      cell; undefined for a view without cells. */
  function PrimaryCellIndex(cells: seq<CellTemplateDefinition>, primaryFieldName: string): Option<nat> {
    match FindColumn(cells, primaryFieldName)
    case Some(k) => Some(k)
    case None => if |cells| > 0 then Some(0) else None
  }

  /** The row name: the entity's display name, else the entity name. */
  function EntityNameLocalized(meta: MetaEntity, entityName: string): string {
    Get(meta.displayNames, entityName).GetOr(entityName)
  }

  /** `createRowTemplate`. */
  function CreateRowTemplate(view: ViewDefinition, loaders: Loaders): (r: Result<RowTemplate>)
    ensures r.Failure? <==> |view.cellTemplates| == 0
    ensures r.Failure? ==> r.error == NoCells
    ensures r.Success? ==>
      var cells := view.cellTemplates;
      var meta := loaders.meta(view.entityName, Some(Columns(cells)));
      |r.value.hierarchyCellTemplates| == |cells|
      && (forall i :: 0 <= i < |cells| ==> r.value.hierarchyCellTemplates[i] == CreateCellTemplate(cells[i], meta))
      && r.value.cellTemplates == [r.value.primaryCellTemplate]
      && r.value.height == RowHeight
      && (exists p :: 0 <= p < |cells|
            && (forall j :: 0 <= j < p ==> cells[j].column != meta.primaryFieldName)
            && (cells[p].column == meta.primaryFieldName
                || (p == 0 && forall j :: 0 <= j < |cells| ==> cells[j].column != meta.primaryFieldName))
            && r.value.primaryCellTemplate == CreateCellTemplate(cells[p], meta)
            && r.value.width == cells[p].width)
      && (view.entityName in meta.displayNames ==> r.value.name == meta.displayNames[view.entityName])
      && (view.entityName !in meta.displayNames ==> r.value.name == view.entityName)
  {
    var cells := view.cellTemplates;
    var meta := loaders.meta(view.entityName, Some(Columns(cells)));
    var hierarchyCells := seq(|cells|, i requires 0 <= i < |cells| => CreateCellTemplate(cells[i], meta));
    match PrimaryCellIndex(cells, meta.primaryFieldName)
    case None => Failure(NoCells)
    case Some(p) =>
      var primary := CreateCellTemplate(cells[p], meta);
      Success(RowTemplate(EntityNameLocalized(meta, view.entityName), hierarchyCells, primary, cells[p].width, RowHeight, [primary]))
  }

  /** `createFetch`: the fetch of the view's XML, with the metadata of its
      entity and no tag. */
  function CreateFetch(view: ViewDefinition, loaders: Loaders): (r: Fetch)
    ensures r.entityName == loaders.fetchEntity(view.fetchXml)
    ensures r.meta == loaders.meta(r.entityName, None)
    ensures r.tag.None?
  {
    var name := loaders.fetchEntity(view.fetchXml);
    Fetch(name, loaders.meta(name, None), None)
  }

  /** `createRecursiveReference`: a reference exactly when the property name
      is a non-empty string. */
  function CreateRecursiveReference(config: TreeConfiguration): (r: Option<string>)
    ensures r.Some? <==> config.recursive.Some? && config.recursive.value != ""
    ensures r.Some? ==> r == config.recursive
  {
    if config.recursive.Some? && config.recursive.value != "" then config.recursive else None
  }

  // ---------------------------------------------------------------------
  // The level tree
  // ---------------------------------------------------------------------

  /** Every view of the configuration tree rooted at `viewId` has a cell. */
  predicate ViewsHaveCells(viewId: string, config: TreeConfiguration, loaders: Loaders)
    decreases config, 1
  {
    |loaders.view(viewId).cellTemplates| > 0
    && ParentViewsHaveCells(config, 0, loaders)
    && (config.child.Some? ==> ViewsHaveCells(config.child.value.viewId, config.child.value.tree, loaders))
  }

  predicate ParentViewsHaveCells(config: TreeConfiguration, i: nat, loaders: Loaders)
    decreases config, 0, |config.parents| - i
  {
    i < |config.parents| ==>
      ViewsHaveCells(config.parents[i].viewId, config.parents[i].tree, loaders)
      && ParentViewsHaveCells(config, i + 1, loaders)
  }

  /** The level tree follows the configuration tree: one parent reference per
      configured parent, in order and with its property; a child reference
      exactly for a configured child with a non-empty property; a recursive
      reference exactly for a non-empty recursive property name. Every nested
      level is built from its own configured view. */
  predicate Mirrors(config: TreeConfiguration, def: TreeLevelDefinition, loaders: Loaders)
    decreases config
  {
    |def.parentLevels| == |config.parents|
    && (forall i :: 0 <= i < |def.parentLevels| ==>
              MirrorsParent(config.parents[i], def.parentLevels[i], loaders))
    && (def.childLevel.Some? <==> config.child.Some? && config.child.value.property != "")
    && (def.childLevel.Some? ==> MirrorsParent(config.child.value, def.childLevel.value, loaders))
    && (def.recursiveLevel.Some? <==> config.recursive.Some? && config.recursive.value != "")
    && (def.recursiveLevel.Some? ==> def.recursiveLevel == config.recursive)
  }

  predicate MirrorsParent(level: TreeLevelConfiguration, reference: TreeLevelReference, loaders: Loaders)
    decreases level
  {
    var view := loaders.view(level.viewId);
    var row := CreateRowTemplate(view, loaders);
    && reference.referencePropertyName == level.property
    && row.Success? && reference.levelDefinition.templates == [row.value]
    && reference.levelDefinition.fetch == CreateFetch(view, loaders)
    && reference.levelDefinition.allowCreate && reference.levelDefinition.allowOpen
    && Mirrors(level.tree, reference.levelDefinition, loaders)
  }

  /** No fetch of the level tree carries a tag. */
  predicate Untagged(def: TreeLevelDefinition) {
    def.fetch.tag.None?
    && (forall i :: 0 <= i < |def.parentLevels| ==> Untagged(def.parentLevels[i].levelDefinition))
    && (def.childLevel.Some? ==> Untagged(def.childLevel.value.levelDefinition))
  }

  /** `constructLevelAndParentsAndChildren`: the row template and fetch of the
      level's view, the recursive reference, the parent levels, then the child
      level. */
  function ConstructLevel(viewId: string, config: TreeConfiguration, loaders: Loaders): (r: Result<TreeLevelDefinition>)
    ensures r.Success? <==> ViewsHaveCells(viewId, config, loaders)
    ensures r.Failure? ==> r.error == NoCells
    ensures r.Success? ==>
      var view := loaders.view(viewId);
      r.value.templates == [CreateRowTemplate(view, loaders).value]
      && r.value.fetch == CreateFetch(view, loaders)
      && r.value.allowCreate && r.value.allowOpen
      && Mirrors(config, r.value, loaders)
      && Untagged(r.value)
    decreases config, 2
  {
    var view := loaders.view(viewId);
    var row :- CreateRowTemplate(view, loaders);
    var fetch := CreateFetch(view, loaders);
    var recursiveReference := CreateRecursiveReference(config);
    var parentReferences :- ConstructParentLevels(config, 0, loaders);
    var childReference :- ConstructChildLevel(config, loaders);
    Success(TreeLevelDefinition([row], fetch, parentReferences, childReference, recursiveReference, true, true))
  }

  /** `constructParentLevels`, from parent `i` on. */
  function ConstructParentLevels(config: TreeConfiguration, i: nat, loaders: Loaders): (r: Result<seq<TreeLevelReference>>)
    requires i <= |config.parents|
    ensures r.Success? <==> ParentViewsHaveCells(config, i, loaders)
    ensures r.Failure? ==> r.error == NoCells
    ensures r.Success? ==> ParentsMirrored(config, i, r.value, loaders)
    decreases config, 0, |config.parents| - i
  {
    var parents := config.parents;
    if i >= |parents| then Success([])
    else
      var level := ConstructParentLevel(parents[i], loaders);
      if level.Failure? then Failure(level.error)
      else
        var rest := ConstructParentLevels(config, i + 1, loaders);
        if rest.Failure? then Failure(rest.error)
        else
          ParentsMirroredCons(config, i, level.value, rest.value, loaders);
          Success([level.value] + rest.value)
  }

  /** The references mirror the configured parents from `i` on, one each
      and in order, and none of their fetches is tagged. */
  predicate ParentsMirrored(config: TreeConfiguration, i: nat, refs: seq<TreeLevelReference>, loaders: Loaders)
    requires i <= |config.parents|
  {
    |refs| == |config.parents| - i
    && forall k :: 0 <= k < |refs| ==>
         MirrorsParent(config.parents[i + k], refs[k], loaders) && Untagged(refs[k].levelDefinition)
  }

  lemma ParentsMirroredCons(config: TreeConfiguration, i: nat, head: TreeLevelReference,
                            rest: seq<TreeLevelReference>, loaders: Loaders)
    requires i < |config.parents|
    requires MirrorsParent(config.parents[i], head, loaders) && Untagged(head.levelDefinition)
    requires ParentsMirrored(config, i + 1, rest, loaders)
    ensures ParentsMirrored(config, i, [head] + rest, loaders)
  {
    var refs := [head] + rest;
    forall k | 0 <= k < |refs|
      ensures MirrorsParent(config.parents[i + k], refs[k], loaders) && Untagged(refs[k].levelDefinition)
    {
      if k > 0 {
        assert refs[k] == rest[k - 1];
        assert i + k == (i + 1) + (k - 1);
      }
    }
  }

  /** `constructParentLevel`: the parent's level under its property. */
  function ConstructParentLevel(level: TreeLevelConfiguration, loaders: Loaders): (r: Result<TreeLevelReference>)
    ensures r.Success? <==> ViewsHaveCells(level.viewId, level.tree, loaders)
    ensures r.Failure? ==> r.error == NoCells
    ensures r.Success? ==> MirrorsParent(level, r.value, loaders) && Untagged(r.value.levelDefinition)
    decreases level, 3
  {
    var definition :- ConstructLevel(level.viewId, level.tree, loaders);
    Success(TreeLevelReference(level.property, definition))
  }

  /** `constructChildLevel`: the child level is built whenever a child is
      configured, but referenced only under a non-empty property. */
  function ConstructChildLevel(config: TreeConfiguration, loaders: Loaders): (r: Result<Option<TreeLevelReference>>)
    ensures r.Success? <==> (config.child.Some? ==> ViewsHaveCells(config.child.value.viewId, config.child.value.tree, loaders))
    ensures r.Failure? ==> r.error == NoCells
    ensures r.Success? ==>
      (r.value.Some? <==> config.child.Some? && config.child.value.property != "")
      && (r.value.Some? ==> MirrorsParent(config.child.value, r.value.value, loaders) && Untagged(r.value.value.levelDefinition))
    decreases config, 1
  {
    match config.child
    case None => Success(None)
    case Some(child) =>
      var definition :- ConstructParentLevel(child, loaders);
      if child.property != "" then Success(Some(definition)) else Success(None)
  }

  /** `constructTreeLevelDefinition`: the main level, with its fetch tagged as
      the main fetch. */
  function ConstructTreeLevelDefinition(mainViewId: string, config: TreeConfiguration, loaders: Loaders): (r: Result<TreeLevelDefinition>)
    ensures r.Success? <==> ViewsHaveCells(mainViewId, config, loaders)
    ensures r.Failure? ==> r.error == NoCells
    ensures r.Success? ==>
      var view := loaders.view(mainViewId);
      r.value.templates == [CreateRowTemplate(view, loaders).value]
      && r.value.fetch == CreateFetch(view, loaders).(tag := Some(MainFetchTag))
      && r.value.allowCreate && r.value.allowOpen
      && Mirrors(config, r.value, loaders)
      && (forall i :: 0 <= i < |r.value.parentLevels| ==> Untagged(r.value.parentLevels[i].levelDefinition))
      && (r.value.childLevel.Some? ==> Untagged(r.value.childLevel.value.levelDefinition))
  {
    var definition :- ConstructLevel(mainViewId, config, loaders);
    Success(definition.(fetch := definition.fetch.(tag := Some(MainFetchTag))))
  }
}

=== FILE: web_resources.dfy ===
/** The Dataverse Web API calls of the publish executor: listing the web
    resources under a path (following the OData `@odata.nextLink`
    continuation of section 4.5.5 of the OData JSON Format v4.0), creating,
    updating and publishing them. HTTP is replaced by the responses the
    server gives, passed in as values; file contents are left abstract. */
module WebResources {
  import opened Wrappers
  import opened JsStrings

  // ---------------------------------------------------------------------
  // Web resource types
  // ---------------------------------------------------------------------

  /** `WEB_RESOURCE_TYPE`: the web resource type code of a file extension
      (without its dot); the lookup is case-sensitive. */
  function WebResourceType(ext: string): Option<nat> {
    if ext == "html" then Some(1)
    else if ext == "css" then Some(2)
    else if ext == "js" then Some(3)
    else if ext == "xml" then Some(4)
    else if ext == "png" then Some(5)
    else if ext == "jpg" then Some(6)
    else if ext == "gif" then Some(7)
    else if ext == "xap" then Some(8)
    else if ext == "xsl" then Some(9)
    else if ext == "ico" then Some(10)
    else if ext == "svg" then Some(11)
    else if ext == "resx" then Some(12)
    else None
  }

  const SupportedExtensions: set<string> :=
    {"html", "css", "js", "xml", "png", "jpg", "gif", "xap", "xsl", "ico", "svg", "resx"}

  /** The table knows exactly the twelve extensions, gives each a code from 1
      to 12 and no two the same code. */
  lemma WebResourceTypeTable(ext: string, other: string)
    ensures WebResourceType(ext).Some? <==> ext in SupportedExtensions
    ensures WebResourceType(ext).Some? ==> 1 <= WebResourceType(ext).value <= 12
    ensures WebResourceType(ext).Some? && WebResourceType(ext) == WebResourceType(other) ==> ext == other
  {
  }

  /** The part of a path after its last '/'. */
  function Basename(path: string): (r: string)
    ensures Lacks(r, '/')
  {
    var k := LastIndexOfChar(path, '/');
    path[k + 1..]
  }

  /** `path.extname` for a path without trailing '/': from the last '.' of the
      base name, or "" when the base name has no '.', starts with its only
      leading '.', or is "..". */
  function Extname(path: string): (r: string)
    ensures r == "" || (r[0] == '.' && Lacks(r[1..], '.') && Lacks(r, '/'))
  {
    var base := Basename(path);
    var d := LastIndexOfChar(base, '.');
    if d <= 0 || base == ".." then ""
    else base[d..]
  }

  /** The base name of a file in a folder is its own name. */
  lemma BasenameInFolder(dir: string, name: string)
    requires dir == "" || dir[|dir| - 1] == '/'
    requires Lacks(name, '/')
    ensures Basename(dir + name) == name
  {
    if |dir| > 0 {
      var head := dir[..|dir| - 1];
      assert dir + name == head + ['/'] + name;
      LastSeparator(head, '/', name);
      assert (head + ['/'] + name)[|head| + 1..] == name;
    } else {
      assert dir + name == name;
      assert '/' !in name;
    }
  }

  /** A base name `stem.ext` with a dot-free `ext` has the extension `.ext`. */
  lemma ExtnameOfBase(path: string, stem: string, ext: string)
    requires Basename(path) == stem + ['.'] + ext
    requires |stem| > 0 && |ext| > 0 && Lacks(ext, '.')
    ensures Extname(path) == "." + ext
  {
    var base := Basename(path);
    LastSeparator(stem, '.', ext);
    assert |base| > 2;
    assert base[|stem|..] == "." + ext;
  }

  /** The extension of a file named `stem.ext` in a folder (`dir` is empty or
      ends with '/') is `.ext`. */
  lemma ExtnameOfFileName(dir: string, stem: string, ext: string)
    requires dir == "" || dir[|dir| - 1] == '/'
    requires |stem| > 0 && |ext| > 0 && Lacks(stem + "." + ext, '/') && Lacks(ext, '.')
    ensures Extname(dir + stem + "." + ext) == "." + ext
  {
    var base := stem + ['.'] + ext;
    assert dir + stem + "." + ext == dir + base;
    BasenameInFolder(dir, base);
    ExtnameOfBase(dir + base, stem, ext);
  }

  /** The type code a file path gets: its extension without the dot. */
  function TypeOfPath(relativeFilePath: string): Option<nat> {
    WebResourceType(Substring(Extname(relativeFilePath), 1, |Extname(relativeFilePath)|))
  }

  /** A file with a known extension gets that extension's code. */
  lemma TypeOfFileName(dir: string, stem: string, ext: string)
    requires dir == "" || dir[|dir| - 1] == '/'
    requires |stem| > 0 && |ext| > 0 && Lacks(stem + "." + ext, '/') && Lacks(ext, '.')
    ensures TypeOfPath(dir + stem + "." + ext) == WebResourceType(ext)
  {
    var path := dir + stem + "." + ext;
    ExtnameOfFileName(dir, stem, ext);
    var e := Extname(path);
    assert e == "." + ext;
    assert Substring(e, 1, |e|) == ext by {
      assert e[1..] == ext;
    }
  }

  /** A path without an extension has no type. */
  lemma TypeOfExtensionless(path: string)
    requires Lacks(Basename(path), '.')
    ensures TypeOfPath(path).None?
  {
  }

  // ---------------------------------------------------------------------
  // Responses
  // ---------------------------------------------------------------------

  datatype Response = Response(status: nat, statusText: string)

  /** `Response.ok`: a 2xx status. */
  predicate Ok(r: Response) {
    200 <= r.status <= 299
  }

  const Unauthorized := "Unauthorized"

  const ListWhat := "get list of web resources"
  const CreateWhat := "create web resource"
  const UpdateWhat := "update web resource"
  const PublishWhat := "publish web resources"

  function FailedMessage(what: string, r: Response): string {
    "Failed to " + what + ": " + NatToString(r.status) + " " + r.statusText
  }

  /** `error` names the failed action, then the response's status code, and
      ends with a blank and the status text. */
  predicate ReportsStatus(error: string, what: string, r: Response) {
    var head := "Failed to " + what + ": ";
    && StartsWith(error, head)
    && ParseInt(error[|head|..]) == Some(r.status as int)
    && EndsWith(error, " " + r.statusText)
  }

  /** The status code can be read back from a failure message, which ends
      with the status text. */
  lemma FailedMessageStatus(what: string, r: Response)
    ensures ReportsStatus(FailedMessage(what, r), what, r)
  {
    var head := "Failed to " + what + ": ";
    var code := NatToString(r.status);
    var rest := " " + r.statusText;
    assert FailedMessage(what, r) == head + code + rest;
    StatusAfterHead(head, r.status, rest);
    EndsWithSuffix(head + code, rest);
  }

  lemma StatusAfterHead(head: string, n: nat, rest: string)
    requires |rest| > 0 && rest[0] == ' '
    ensures StartsWith(head + NatToString(n) + rest, head)
    ensures ParseInt((head + NatToString(n) + rest)[|head|..]) == Some(n)
  {
    var code := NatToString(n);
    var tail := code + rest;
    assert head + code + rest == head + tail;
    DropHead(head, tail);
    ParseIntOfCode(n, rest);
  }

  lemma DropHead(head: string, tail: string)
    ensures StartsWith(head + tail, head)
    ensures (head + tail)[|head|..] == tail
  {
    assert (head + tail)[..|head|] == head;
  }

  lemma EndsWithSuffix(s: string, suffix: string)
    ensures EndsWith(s + suffix, suffix)
  {
    assert (s + suffix)[|s|..] == suffix;
  }

  /** `checkResponse`: 401 is always "Unauthorized"; any other status outside
      2xx is reported with the action, then the status code, then its text. */
  function CheckResponse(r: Response, what: string): (o: Outcome)
    ensures o.Pass? <==> Ok(r)
    ensures r.status == 401 ==> o == Fail(Unauthorized)
    ensures o.Fail? && r.status != 401 ==> o.error == FailedMessage(what, r)
  {
    if r.status == 401 then Fail(Unauthorized)
    else if !Ok(r) then Fail(FailedMessage(what, r))
    else Pass
  }

  /** Whatever the action, a failure other than 401 names the action, then
      the response's status code, and ends with its status text. */
  lemma CheckResponseReportsStatus(r: Response, what: string)
    requires !Ok(r) && r.status != 401
    ensures CheckResponse(r, what).Fail?
    ensures ReportsStatus(CheckResponse(r, what).error, what, r)
  {
    FailedMessageStatus(what, r);
  }

  /** A listing refused with 500 Internal Server Error. */
  lemma ServerErrorExample()
    ensures CheckResponse(Response(500, "Internal Server Error"), ListWhat)
         == Fail("Failed to " + ListWhat + ": " + "500" + " " + "Internal Server Error")
  {
    var r := Response(500, "Internal Server Error");
    FiveHundred();
    assert CheckResponse(r, ListWhat) == Fail(FailedMessage(ListWhat, r));
  }

  lemma FiveHundred()
    ensures NatToString(500) == "500"
  {
    assert NatToString(5) == "5";
    assert NatToString(50) == "5" + ['0'];
    assert NatToString(500) == "50" + ['0'];
  }

  // ---------------------------------------------------------------------
  // Publish parameter XML
  // ---------------------------------------------------------------------

  const XmlHead := "<importexportxml><webresources>"
  const XmlTail := "</webresources></importexportxml>"
  const TagOpen := "<webresource>{"
  const TagClose := "}</webresource>"

  function Tag(id: string): string {
    TagOpen + id + TagClose
  }

  function Tags(ids: seq<string>): string {
    if |ids| == 0 then "" else Tag(ids[0]) + Tags(ids[1..])
  }

  /** `createParameterXml`: one braced `webresource` element per id, in order,
      inside the fixed envelope. */
  function CreateParameterXml(ids: seq<string>): (r: string)
    ensures StartsWith(r, XmlHead) && EndsWith(r, XmlTail)
  {
    XmlHead + Tags(ids) + XmlTail
  }

  /** Reads the ids back from a sequence of elements. */
  function ParseTags(s: string): Option<seq<string>>
    decreases |s|
  {
    if s == "" then Some([])
    else if !StartsWith(s, TagOpen) then None
    else
      var body := s[|TagOpen|..];
      var k := IndexOf(body, "}");
      if k < 0 || !StartsWith(body[k..], TagClose) then None
      else
        match ParseTags(body[k + |TagClose|..])
        case None => None
        case Some(rest) => Some([body[..k]] + rest)
  }

  function ParseParameterXml(s: string): Option<seq<string>> {
    if |s| >= |XmlHead| + |XmlTail| && StartsWith(s, XmlHead) && EndsWith(s, XmlTail)
    then ParseTags(s[|XmlHead|..|s| - |XmlTail|])
    else None
  }

  /** Reading one element and the text after it. */
  lemma ParseTagsCons(id: string, rest: string)
    requires '}' !in id
    ensures ParseTags(Tag(id) + rest) ==
      if ParseTags(rest).Some? then Some([id] + ParseTags(rest).value) else None
  {
    var s := Tag(id) + rest;
    var after := "</webresource>" + rest;
    assert TagClose == ['}'] + "</webresource>";
    assert s == TagOpen + (id + ['}'] + after);
    assert StartsWith(s, TagOpen);
    var body := s[|TagOpen|..];
    assert body == id + ['}'] + after;
    IndexOfFirstChar(id, '}', after);
    assert body[|id|..] == TagClose + rest;
    assert StartsWith(body[|id|..], TagClose);
    assert body[|id| + |TagClose|..] == rest;
    assert body[..|id|] == id;
    assert s != "";
  }

  lemma {:induction false} ParseTagsOfTags(ids: seq<string>)
    requires forall i :: 0 <= i < |ids| ==> '}' !in ids[i]
    ensures ParseTags(Tags(ids)) == Some(ids)
  {
    if |ids| > 0 {
      ParseTagsOfTags(ids[1..]);
      ParseTagsCons(ids[0], Tags(ids[1..]));
      assert [ids[0]] + ids[1..] == ids;
    }
  }

  /** The ids can be read back from the parameter XML, in order, as long as
      none contains '}'. */
  lemma ParameterXmlRoundTrip(ids: seq<string>)
    requires forall i :: 0 <= i < |ids| ==> '}' !in ids[i]
    ensures ParseParameterXml(CreateParameterXml(ids)) == Some(ids)
  {
    var s := CreateParameterXml(ids);
    assert s[|XmlHead|..|s| - |XmlTail|] == Tags(ids);
    ParseTagsOfTags(ids);
  }

  // ---------------------------------------------------------------------
  // Listing
  // ---------------------------------------------------------------------

  /** A remote web resource, as the listing returns it. */
  datatype WebResource = WebResource(name: string, id: string)

  /** The JSON body of one listing response: its `value` array and its
      `@odata.nextLink`, if any. */
  datatype PageBody = PageBody(value: seq<WebResource>, nextLink: Option<string>)

  /** One response of the listing; a `null` JSON body is `None`. */
  datatype Page = Page(response: Response, body: Option<PageBody>)

  /** The outcome of the listing. `Incomplete` means the given pages ran out
      while the server still announced a next page. */
  datatype Listing = Listed(resources: seq<WebResource>) | ListFailed(error: string) | Incomplete

  /** Reading `@odata.nextLink` of a `null` body. */
  const NullBody := "Cannot read properties of null (reading '@odata.nextLink')"

  /** The server-side filter: resources whose name starts with the web
      resource path and a '/'. */
  function ListFilter(webResourcePath: string): string {
    "&$filter=startswith(name,'" + webResourcePath + "/')"
  }

  predicate MatchesFilter(name: string, webResourcePath: string) {
    StartsWith(name, webResourcePath + "/")
  }

  /** The continuation is followed only when it is a non-empty string. */
  predicate HasNext(b: PageBody) {
    b.nextLink.Some? && b.nextLink.value != ""
  }

  /** The continuation a page announces, if any. */
  function NextLink(p: Page): Option<string> {
    if p.body.Some? && HasNext(p.body.value) then p.body.value.nextLink else None
  }

  /** Every request after the first goes to the continuation announced by
      the page before it. */
  predicate FollowsLinks(urls: seq<string>, pages: seq<Page>) {
    |urls| <= |pages| + 1 && forall k :: 0 < k < |urls| ==> NextLink(pages[k - 1]) == Some(urls[k])
  }

  function Prepend(values: seq<WebResource>, l: Listing): (r: Listing)
    ensures r.Listed? <==> l.Listed?
  {
    if l.Listed? then Listed(values + l.resources) else l
  }

  /** The listing over the responses the server gives, one per request. */
  function ListFrom(pages: seq<Page>): Listing {
    if |pages| == 0 then Incomplete
    else
      var p := pages[0];
      match CheckResponse(p.response, ListWhat)
      case Fail(e) => ListFailed(e)
      case Pass =>
        if p.body.None? then ListFailed(NullBody)
        else if HasNext(p.body.value) then Prepend(p.body.value.value, ListFrom(pages[1..]))
        else Listed(p.body.value.value)
  }

  /** The first `n` pages are successful, all but the last announce a next
      page, and the last does not. */
  predicate ChainEndsAt(pages: seq<Page>, n: nat) {
    0 < n <= |pages|
    && (forall i :: 0 <= i < n ==> Ok(pages[i].response) && pages[i].body.Some?)
    && (forall i :: 0 <= i < n ==> (HasNext(pages[i].body.value) <==> i < n - 1))
  }

  /** Every page's values, in page order. */
  function Values(pages: seq<Page>): seq<WebResource>
    requires forall i :: 0 <= i < |pages| ==> pages[i].body.Some?
  {
    if |pages| == 0 then [] else pages[0].body.value.value + Values(pages[1..])
  }

  /** A listing that ends after `n` pages is the concatenation of their
      values. */
  lemma {:induction false} ListedPages(pages: seq<Page>, n: nat)
    requires ChainEndsAt(pages, n)
    ensures ListFrom(pages) == Listed(Values(pages[..n]))
  {
    assert Ok(pages[0].response) && pages[0].body.Some?;
    if n == 1 {
      assert !HasNext(pages[0].body.value);
      assert pages[..1][1..] == [];
    } else {
      assert HasNext(pages[0].body.value);
      var rest := pages[1..];
      assert ChainEndsAt(rest, n - 1) by {
        forall i | 0 <= i < n - 1
          ensures Ok(rest[i].response) && rest[i].body.Some?
          ensures HasNext(rest[i].body.value) <==> i < n - 2
        {
          assert rest[i] == pages[i + 1];
        }
      }
      ListedPages(rest, n - 1);
      assert pages[..n][1..] == rest[..n - 1];
    }
  }

  /** A listing succeeds only along such a chain of pages. */
  lemma {:induction false} ListedOnlyAlongChain(pages: seq<Page>)
    requires ListFrom(pages).Listed?
    ensures exists n: nat :: ChainEndsAt(pages, n)
  {
    var p := pages[0];
    assert Ok(p.response) && p.body.Some?;
    if HasNext(p.body.value) {
      ListedOnlyAlongChain(pages[1..]);
      var m: nat :| ChainEndsAt(pages[1..], m);
      assert ChainEndsAt(pages, m + 1) by {
        forall i | 0 <= i < m + 1
          ensures Ok(pages[i].response) && pages[i].body.Some?
          ensures HasNext(pages[i].body.value) <==> i < m
        {
          if i > 0 {
            assert pages[i] == pages[1..][i - 1];
          }
        }
      }
    } else {
      assert ChainEndsAt(pages, 1);
    }
  }

  /** A failed listing reports the first failing response, or the `null`
      body it could not read. */
  lemma {:induction false} ListingErrors(pages: seq<Page>)
    requires ListFrom(pages).ListFailed?
    ensures var e := ListFrom(pages).error;
      e == Unauthorized || e == NullBody
      || exists i :: 0 <= i < |pages| && !Ok(pages[i].response) && pages[i].response.status != 401
                     && e == FailedMessage(ListWhat, pages[i].response)
  {
    var p := pages[0];
    if CheckResponse(p.response, ListWhat).Pass? && p.body.Some? {
      ListingErrors(pages[1..]);
      var e := ListFrom(pages).error;
      if e != Unauthorized && e != NullBody {
        var i :| 0 <= i < |pages[1..]| && !Ok(pages[1..][i].response) && pages[1..][i].response.status != 401
                 && e == FailedMessage(ListWhat, pages[1..][i].response);
        assert pages[1..][i] == pages[i + 1];
      }
    } else if CheckResponse(p.response, ListWhat).Fail? && p.response.status != 401 {
      assert pages[0] == p;
    }
  }

  /** `listWebResources`: requests pages until one has no continuation, and
      collects their values. `urls` are the requested addresses: the
      filtered collection first, then each page's `@odata.nextLink`. */
  method ListWebResources(setUrl: string, webResourcePath: string, pages: seq<Page>)
    returns (r: Listing, urls: seq<string>)
    ensures r == ListFrom(pages)
    ensures 0 < |urls|
    ensures urls[0] == setUrl + ListFilter(webResourcePath)
    ensures FollowsLinks(urls, pages)
  {
    var url := setUrl + ListFilter(webResourcePath);
    var resources: seq<WebResource> := [];
    var i := 0;
    var hasMore := true;
    urls := [];
    while hasMore
      invariant 0 <= i <= |pages|
      invariant hasMore ==> |urls| == i && ListFrom(pages) == Prepend(resources, ListFrom(pages[i..]))
      invariant !hasMore ==> 0 < |urls| == i && ListFrom(pages) == Listed(resources)
      invariant hasMore && i == 0 ==> url == setUrl + ListFilter(webResourcePath)
      invariant hasMore && i > 0 ==> pages[i - 1].body.Some? && HasNext(pages[i - 1].body.value)
                                     && url == pages[i - 1].body.value.nextLink.value
      invariant 0 < |urls| ==> urls[0] == setUrl + ListFilter(webResourcePath)
      invariant FollowsLinks(urls, pages)
      decreases |pages| - i, hasMore
    {
      var previous := urls;
      urls := urls + [url];
      forall k | 0 < k < |urls|
        ensures NextLink(pages[k - 1]) == Some(urls[k])
      {
        if k < |previous| {
          assert urls[k] == previous[k];
        }
      }
      if i == |pages| {
        return Incomplete, urls;
      }
      var page := pages[i];
      assert pages[i..][0] == page && pages[i..][1..] == pages[i + 1..];
      var check := CheckResponse(page.response, ListWhat);
      if check.Fail? {
        return ListFailed(check.error), urls;
      }
      if page.body.None? {
        return ListFailed(NullBody), urls;
      }
      resources := resources + page.body.value.value;
      i := i + 1;
      if HasNext(page.body.value) {
        url := page.body.value.nextLink.value;
      } else {
        hasMore := false;
      }
    }
    r := Listed(resources);
  }

  // ---------------------------------------------------------------------
  // Create, update, publish
  // ---------------------------------------------------------------------

  /** The body of a creation request; the file content is left abstract. */
  datatype CreateRequest = CreateRequest(name: string, typeCode: nat)

  const UnsupportedFileType := "Unsupported file type: "

  /** The request `createWebResource` would send, or the error it raises
      before sending anything. */
  function CreateRequestFor(webResourcePath: string, relativeFilePath: string): (r: Result<CreateRequest>)
    ensures r.Success? <==> TypeOfPath(relativeFilePath).Some?
    ensures r.Failure? ==> r.error == UnsupportedFileType + relativeFilePath
    ensures r.Success? ==>
      r.value.name == webResourcePath + "/" + relativeFilePath && TypeOfPath(relativeFilePath) == Some(r.value.typeCode)
  {
    match TypeOfPath(relativeFilePath)
    case None => Failure(UnsupportedFileType + relativeFilePath)
    case Some(code) => Success(CreateRequest(webResourcePath + "/" + relativeFilePath, code))
  }

  /** `createWebResource`: the id the server returns, which the reply may
      lack (`None`). */
  function CreateWebResource(webResourcePath: string, relativeFilePath: string, response: Response, replyId: Option<string>)
    : (r: Result<Option<string>>)
    ensures CreateRequestFor(webResourcePath, relativeFilePath).Failure? ==>
      r == Failure(UnsupportedFileType + relativeFilePath)
    ensures r.Success? <==> CreateRequestFor(webResourcePath, relativeFilePath).Success? && Ok(response)
    ensures r.Success? ==> r.value == replyId
    ensures CreateRequestFor(webResourcePath, relativeFilePath).Success? && response.status == 401 ==>
      r == Failure(Unauthorized)
    ensures CreateRequestFor(webResourcePath, relativeFilePath).Success? && !Ok(response) && response.status != 401 ==>
      r == Failure(FailedMessage(CreateWhat, response))
  {
    var _ :- CreateRequestFor(webResourcePath, relativeFilePath);
    match CheckResponse(response, CreateWhat)
    case Fail(e) => Failure(e)
    case Pass => Success(replyId)
  }

  /** The file names of the examples below are base names. */
  lemma ExampleFileNameLacksSlash(stem: string, ext: string)
    requires stem == "file" && (ext == "svg" || ext == "xxx")
    ensures Lacks(stem + "." + ext, '/')
  {
    if ext == "svg" {
      assert stem + "." + ext == "file.svg";
    } else {
      assert stem + "." + ext == "file.xxx";
    }
  }

  /** The creation of the helper's own test: `subfolder/file.svg` becomes a
      type 11 resource named after the web resource path. */
  lemma CreateSvgExample(webResourcePath: string, dir: string, stem: string, ext: string)
    requires dir == "subfolder/" && stem == "file" && ext == "svg"
    ensures var path := dir + stem + "." + ext;
      CreateRequestFor(webResourcePath, path) == Success(CreateRequest(webResourcePath + "/" + path, 11))
  {
    ExampleFileNameLacksSlash(stem, ext);
    assert WebResourceType(ext) == Some(11);
    TypeOfFileName(dir, stem, ext);
  }

  /** An unknown extension is refused before any request, as for the
      helper's `file.xxx` test. */
  lemma UnsupportedExample(webResourcePath: string, dir: string, stem: string, ext: string)
    requires dir == "" && stem == "file" && ext == "xxx"
    ensures var path := dir + stem + "." + ext;
      CreateRequestFor(webResourcePath, path) == Failure(UnsupportedFileType + path)
  {
    ExampleFileNameLacksSlash(stem, ext);
    assert WebResourceType(ext) == None;
    TypeOfFileName(dir, stem, ext);
  }

  /** A 500 reply to an update, a publish or a creation is reported with
      the action, the code and the status text, as the helpers' tests expect. */
  lemma ServerErrorMessages(webResourcePath: string, relativeFilePath: string, replyId: Option<string>)
    requires TypeOfPath(relativeFilePath).Some?
    ensures var r := Response(500, "Internal Server Error");
      && UpdateWebResource(r) == Fail("Failed to " + UpdateWhat + ": " + "500" + " " + "Internal Server Error")
      && PublishWebResources(r) == Fail("Failed to " + PublishWhat + ": " + "500" + " " + "Internal Server Error")
      && CreateWebResource(webResourcePath, relativeFilePath, r, replyId)
         == Failure("Failed to " + CreateWhat + ": " + "500" + " " + "Internal Server Error")
  {
    FiveHundred();
  }

  /** The address of a resource in an update request. */
  function UpdateUrl(id: string): string {
    "api/data/v9.0/webresourceset(" + id + ")"
  }

  /** `updateWebResource`: succeeds exactly on a 2xx response. */
  function UpdateWebResource(response: Response): (r: Outcome)
    ensures r.Pass? <==> Ok(response)
    ensures response.status == 401 ==> r == Fail(Unauthorized)
    ensures r.Fail? && response.status != 401 ==> r.error == FailedMessage(UpdateWhat, response)
  {
    CheckResponse(response, UpdateWhat)
  }

  /** `publishWebResources`: sends `CreateParameterXml(ids)` and succeeds
      exactly on a 2xx response. */
  function PublishWebResources(response: Response): (r: Outcome)
    ensures r.Pass? <==> Ok(response)
    ensures response.status == 401 ==> r == Fail(Unauthorized)
    ensures r.Fail? && response.status != 401 ==> r.error == FailedMessage(PublishWhat, response)
  {
    CheckResponse(response, PublishWhat)
  }
}

=== FILE: wrappers.dfy ===
/** Failure-compatible result types shared by every module of the model.
    The TypeScript code throws `Error` objects carrying a message; the model
    returns `Failure(message)` / `Fail(message)` instead. */
module Wrappers {

  /** A value that JavaScript may leave `undefined` / `null`. */
  datatype Option<+T> = None | Some(value: T) {
    function GetOr(default: T): T {
      match this
      case Some(v) => v
      case None => default
    }
  }

  /** The result of an operation that may throw an error with a message. */
  datatype Result<+T> = Success(value: T) | Failure(error: string) {
    predicate IsFailure() {
      Failure?
    }

    function PropagateFailure<U>(): Result<U>
      requires Failure?
    {
      Failure(error)
    }

    function Extract(): T
      requires Success?
    {
      value
    }
  }

  /** The result of an operation that returns nothing but may throw. */
  datatype Outcome = Pass | Fail(error: string) {
    predicate IsFailure() {
      Fail?
    }

    function PropagateFailure<U>(): Result<U>
      requires Fail?
    {
      Failure(error)
    }
  }
}
